=== FILE: README.md ===
# Advent of Code 2025 solutions, modelled in Dafny

This project models a Rust crate of Advent of Code puzzle solutions, together
with the small grid toolkit the solutions share. Each solution becomes one
module, and each module proves what its answer means.

| module | source | puzzle |
|---|---|---|
| `Grid` | `src/lib.rs` | `Coords`/`ICoords` arithmetic, `rem_euclid`, `to_coords`, `in_grid`, and the `CartesianGrid<T>` class (`coords`, `coords_at_y`, `get`, `set`, `is_boundary`, `find_one_coords`, `get_coords_between`, `height`) |
| `SafeDial` | `src/day01/mod.rs` | a 100-position dial; the password counts the rotations that stop at 0 |
| `InvalidIds` | `src/day02/mod.rs` | ids whose decimal digits are one half written twice, summed over ranges |
| `Joltage` | `src/day03/mod.rs` | the largest two-digit joltage of a bank of batteries, summed over banks |
| `PaperRolls` | `src/day04/mod.rs` | rolls of paper with fewer than four rolls among their eight neighbours |
| `Freshness` | `src/day05/mod.rs` | ids lying in at least one inclusive range |
| `Worksheet` | `src/day06/mod.rs` | column-wise sums and products, read by rows or by character columns |
| `Beams` | `src/day07/mod.rs` | a beam falling through a grid of splitters, the grid updated row by row |
| `Circuits` | `src/day08/mod.rs` | junction boxes connected closest-first into circuits; the product of the three largest sizes |
| `Rectangles` | `src/day09/mod.rs` | the largest inclusive rectangle spanned by two red tiles |
| `Lights` | `src/day10/mod.rs` | the fewest button presses (XOR masks) that light a diagram, by breadth-first search |

`Wrappers` holds `Option`. `Text` holds the string helpers the parsers use:
`split`, `split_once`, `split_ascii_whitespace`, `trim`, and unsigned and
signed number parsing. Each helper has a lemma that takes text built from known
parts back apart into those parts: `SplitJoin`, `SplitOnceOf`, `WordsOfSpaced`,
`TrimPadded`, `ParseNatToString`, `ParseUnsignedToString` and
`ParseIntegerToString`.

## Conventions

- **Panics.** A panic that input can reach is modelled as `None`. This covers
  `unwrap` on a failed parse, a bad direction, an empty bank, an unreachable
  diagram, a button index past the lights, no distinct pair of tiles, and a
  day 06 worksheet with no line at all. An
  out-of-range `set` in day 07 is reported by an `ok` flag. The answer
  functions return `Option`, and their contracts state exactly when they
  return `None`. An index or slice that the caller must
  keep in range is a `requires`. For example, `make_circuits` slices
  `connections[..n]`, so it requires `n` to be at most the number of
  connections.
- **Form of the code.** Code that mutates state keeps its form. `Dial` and
  `CartesianGrid` are classes, and `SafeDial.Dial.Rotate` and
  `Grid.CartesianGrid.Set` update their fields in place. The day 07 beam
  simulation is methods over the grid. The loops are methods, each proved
  equal to a specification function: the day 03 nested loops, the day 08
  `make_circuits`/`merge_circuits`/`while merged`/padding loops, and the
  day 10 breadth-first search. Code that is iterator chains is functions and
  lemmas.
- **Functions described by their lemmas.** A few small functions carry no
  contract of their own and have no row in the table. Their rows are the
  lemmas about them. For example, `Worksheet.SolveProblem` (`solve_problem`,
  src/day06/mod.rs:82-88) is described by `Worksheet.SolveProblemDegenerate`,
  `Worksheet.SumAppend` and `Worksheet.ProductAppend`.
- **Numbers.** Numbers are unbounded (`nat`/`int`). The exception is the
  day 10 light state, which is a `bv16`. Its `u16` shift and sums are written
  out, and `EncodeDiagramValue` and `ButtonMaskListed` prove them lossless.
- **Distances.** Day 08 compares distances by the integer squared distance.
  The square root preserves that order.
- **Absorbing a connection.** `make_circuits` first filters out every circuit
  that already holds both ends of the connection. The first remaining circuit
  that holds one end receives both ends. When there is none, it pushes a new
  circuit `{a, b}`, even if some circuit already holds both ends. The model
  does the same (`Circuits.Absorb`). The merge pass later folds such a
  duplicate back into the circuit that holds it.

## Model

| member | source | states |
|---|---|---|
| `Text.Split` | src/day02/mod.rs:30-32 | `split(sep)`: at least one piece, no piece contains `sep`, and joining the pieces with `sep` gives the input back |
| `Text.SplitJoin` | src/day02/mod.rs:30-32 | splitting pieces that were joined with a separator they do not contain returns exactly those pieces |
| `Text.SplitOnce` | src/day05/mod.rs:17-22 | `split_once`: `None` iff the separator is absent; otherwise the input is `before + [sep] + after` with `sep` not in `before` (the first occurrence) |
| `Text.SplitOnceOf` | src/day09/mod.rs:21 | a separator-free prefix, the separator and any rest split back into that prefix and rest |
| `Text.Words` | src/day06/mod.rs:38 | `split_ascii_whitespace`: every word is non-empty and has no whitespace |
| `Text.WordsOfSpaced` | src/day06/mod.rs:38 | words separated by whitespace runs of any non-zero length, with optional whitespace before the first and after the last, split back into exactly those words |
| `Text.WordsKeepText` | src/day06/mod.rs:38 | the words concatenated are the text with its whitespace removed |
| `Text.WordsOfJoin` | src/day06/mod.rs:48 | non-empty whitespace-free words joined by spaces split back into those words |
| `Text.Trim` | src/day06/mod.rs:76 | `trim`: the result neither starts nor ends with whitespace |
| `Text.TrimPadded` | src/day06/mod.rs:76 | text that neither starts nor ends with whitespace, padded with whitespace on either side, trims back to itself |
| `Text.TrimStart` | src/day06/mod.rs:76 | the result is a suffix of the input, and the dropped characters are all whitespace |
| `Text.TrimEnd` | src/day06/mod.rs:76 | the result is a prefix of the input, and the dropped characters are all whitespace |
| `Text.NatToString` | src/day02/mod.rs:20 | `to_string` of a number: a numeral with no leading zero unless the number is 0 |
| `Text.ParseNatToString` | src/day02/mod.rs:20 | reading a printed number back gives the number |
| `Text.NatToStringParse` | src/day02/mod.rs:20 | printing the value of a numeral without a leading zero gives the numeral back |
| `Text.ParseUnsigned` | src/day05/mod.rs:24-26 | `parse::<u64>`: succeeds iff the text is a numeral, optionally after one '+'; a numeral reads as its value, and '+' followed by a numeral reads as that numeral's value |
| `Text.ParseUnsignedToString` | src/day05/mod.rs:24-26 | every printed number parses back to itself |
| `Text.ParseInteger` | src/day01/mod.rs:21 | `parse::<i32>`: what `ParseUnsigned` accepts, or '-' followed by a numeral, with the same value on the unsigned part; '-' followed by a numeral reads as minus that numeral's value |
| `Text.ParseIntegerToString` | src/day01/mod.rs:21 | every printed integer, negative or not, parses back to itself |
| `Text.ParseNatAppend` | src/day02/mod.rs:24 | the value of two numerals written side by side is the first shifted by the second's length plus the second |
| `Text.ParseNatBounds` | src/day02/mod.rs:20-21 | a numeral of k digits is below 10^k, and at least 10^(k-1) without a leading zero |
| `Text.NatToStringLength` | src/day02/mod.rs:20-21 | a number between 10^(k-1) and 10^k has exactly k decimal digits |
| `Grid.OffsetArithmetic` | src/lib.rs:104-245 | the mixed `Coords`/`ICoords` operators are componentwise: `c + (d - c) == d`, `to_coords` of it is `d`, `sub` is `add` of the negation, `add_x`/`sub_x`/`add_y`/`sub_y` are offsets along one axis, and `+`/`*` agree with their signed forms |
| `Grid.ToCoords` | src/lib.rs:95-101 | `to_coords` is `Some` iff both components are at least 0, and it keeps their values |
| `Grid.RemEuclid` | src/lib.rs:88-93 | `rem_euclid(x, y)`: the components lie in `[0, x) × [0, y)` and differ from the input by whole multiples of `x` and `y` |
| `Grid.RemEuclidIdempotent` | src/lib.rs:88-93 | applying `rem_euclid` twice changes nothing |
| `Grid.CartesianGrid.From` | src/lib.rs:332-341 | `From<Vec<String>>`: the grid holds exactly the given rows |
| `Grid.CartesianGrid.InGridAgrees` | src/lib.rs:68-81 | the signed and unsigned `in_grid` agree, and an in-grid `ICoords` converts to in-grid `Coords` |
| `Grid.CartesianGrid.Height` | src/lib.rs:318-320 | `height` is the number of rows, and every cell of the grid lies above it |
| `Grid.CartesianGrid.Set` | src/lib.rs:286-288 | `set` writes exactly the addressed cell: `get` afterwards returns the new value, every other cell keeps its value, and every row keeps its length |
| `Grid.CartesianGrid.CoordsAtY` | src/lib.rs:254-258 | `coords_at_y(y)` lists exactly the cells of row y, x = 0, 1, … in order, as many as the row is long |
| `Grid.CartesianGrid.CoordsFrom` | src/lib.rs:248-252 | the cells of rows y and below, each once, in strictly increasing row-major order |
| `Grid.CartesianGrid.AllCoords` | src/lib.rs:248-252 | `coords` lists every cell exactly once, in strictly increasing row-major order, as many as the rows' lengths add up to |
| `Grid.CartesianGrid.FirstHolding` | src/lib.rs:278-284 | the first position in a list of cells whose cell holds a value, or the list's length if none does |
| `Grid.CartesianGrid.FindOneCoords` | src/lib.rs:278-284 | `find_one_coords` is `None` iff no cell holds the value; otherwise it returns a cell holding it, and no cell before it in row-major order does |
| `Grid.CartesianGrid.BoundaryOfCell` | src/lib.rs:271-276 | a cell is not on the boundary iff it lies strictly inside the rows and strictly inside its own row |
| `Grid.CartesianGrid.CoordsBetween` | src/lib.rs:290-316 | `get_coords_between` as written: horizontally, `|dx|` cells stepping from `from` toward `to`; vertically, `|dy|` cells whose x is `from.y`; diagonally, none |
| `Grid.CartesianGrid.CoordsBetweenCorrected` | src/lib.rs:290-316 | the intended walk: the cells from `from` toward `to` along a row or a column, `from` included and `to` excluded; none for a diagonal |
| `Grid.CartesianGrid.CoordsBetweenVerticalLeavesColumn` | src/lib.rs:294-300 | from (1,0) to (1,2), the code as written yields (0,0), (0,1), while the intended walk yields (1,0), (1,1) |
| `SafeDial.Turn` | src/day01/mod.rs:47 | the new position is below the dial size |
| `SafeDial.TurnCongruent` | src/day01/mod.rs:47 | the new position differs from position + distance by a whole number of turns |
| `SafeDial.TurnCompose` | src/day01/mod.rs:47 | two rotations in a row land where one rotation by their sum lands |
| `SafeDial.TurnBack` | src/day01/mod.rs:47 | `rotate(d)` followed by `rotate(-d)` restores the position |
| `SafeDial.TurnWhole` | src/day01/mod.rs:47 | a rotation by a multiple of the dial size leaves the position unchanged |
| `SafeDial.Dial.constructor` | src/day01/mod.rs:39-44 | `Dial::new`: the dial shows 50 and its largest number is 99 |
| `SafeDial.Dial.Rotate` | src/day01/mod.rs:46-49 | `rotate` sets the position to `(old + distance) rem_euclid 100` and returns it, a value in 0..=99 |
| `SafeDial.AfterIsTotal` | src/day01/mod.rs:10-14 | where the dial stops after a list of rotations depends only on their total |
| `SafeDial.ZeroCount` | src/day01/mod.rs:10-14 | at most one zero is counted per rotation |
| `SafeDial.ZeroCountWholeTurns` | src/day01/mod.rs:10-14 | with rotations of whole turns only, the dial never moves, and every rotation counts iff the dial starts at 0 |
| `SafeDial.CountZeros` | src/day01/mod.rs:10-14 | the driving loop, on a new dial, counts exactly the rotations after which it shows 0 |
| `SafeDial.ParseRotation` | src/day01/mod.rs:18-28 | `parse_rotation` succeeds iff the line starts with 'L' or 'R' and the rest is an integer; 'L' gives minus that integer and 'R' the integer itself |
| `SafeDial.ParseFormatRotation` | src/day01/mod.rs:18-28 | a written rotation parses back to its signed distance |
| `SafeDial.ParseInput` | src/day01/mod.rs:17-31 | `parse_input` succeeds iff every line parses, and yields one rotation per line, in order |
| `SafeDial.Password` | src/day01/mod.rs:5-15 | `None` iff the input does not parse; otherwise the number of rotations ending at 0, at most one per line |
| `InvalidIds.OddDigitsValid` | src/day02/mod.rs:19-22 | an id with an odd number of digits is never invalid |
| `InvalidIds.InvalidIffDoubled` | src/day02/mod.rs:19-26 | `is_invalid_id` holds iff the id is `h · (10^k + 1)` for a k-digit h with no leading zero, i.e. a half written twice |
| `InvalidIds.InvalidIsDoubled` | src/day02/mod.rs:24 | an invalid id is some half written twice |
| `InvalidIds.DoubledIsInvalid` | src/day02/mod.rs:24 | a half written twice is an invalid id |
| `InvalidIds.TwoDigitInvalid` | src/day02/mod.rs:19-26 | a two-digit id is invalid iff it is a multiple of 11 |
| `InvalidIds.SumInvalidIdsSplit` | src/day02/mod.rs:15-17 | the sum over `lo..=hi` splits at any point into the sums over the two parts |
| `InvalidIds.SumInvalidIdsNone` | src/day02/mod.rs:15-17 | a range without invalid ids sums to 0 |
| `InvalidIds.SumInvalidIdsCounts` | src/day02/mod.rs:15-17 | every invalid id in a range is included in its sum |
| `InvalidIds.SampleRange` | src/day02/mod.rs:42-48 | the range 11-22 of the sample sums to 33 (11 + 22) |
| `InvalidIds.ParseRange` | src/day02/mod.rs:32-33 | a range parses iff it splits on '-' into at least two pieces and the first two are numbers; the range is those two numbers, further pieces ignored |
| `InvalidIds.ParseAllRanges` | src/day02/mod.rs:28-36 | the pieces parse iff every piece does, each one to its range, in order |
| `InvalidIds.ParseRanges` | src/day02/mod.rs:28-36 | `parse_ranges` succeeds iff every comma-separated piece parses, and yields those ranges in order |
| `InvalidIds.ParseFormatRange` | src/day02/mod.rs:32-33 | a written range `a-b` has no comma and parses back to `(a, b)` |
| `InvalidIds.ParseFormatRanges` | src/day02/mod.rs:28-36 | a written comma-separated list of ranges parses back to the list |
| `InvalidIds.SumOverRangesCounts` | src/day02/mod.rs:7-13 | every invalid id inside any of the ranges is included in the total |
| `InvalidIds.SumInvalidIds` | src/day02/mod.rs:7-13 | `None` iff there is no line or the first line does not parse; otherwise the total over its ranges |
| `Joltage.BestEndingAtIsBest` | src/day03/mod.rs:25-31 | the best pair ending at battery j bounds every pair ending there and is attained by one |
| `Joltage.LargestJoltageIsLargest` | src/day03/mod.rs:22-35 | the largest joltage is at least 0, no pair i < j exceeds it, and it is 0 or attained by a pair |
| `Joltage.LargestJoltageUnique` | src/day03/mod.rs:22-35 | that description admits only one value |
| `Joltage.FindLargestJoltage` | src/day03/mod.rs:22-35 | the nested loops of `find_largest_joltage` return the largest `10·bank[i] + bank[j]` over i < j, or 0 without a pair; non-empty bank required |
| `Joltage.KeepLargestFrom` | src/day03/mod.rs:25-31 | the inner loop keeps the running maximum or raises it to a pair starting at i, and bounds every pair starting at i |
| `Joltage.OneBatteryNoJoltage` | src/day03/mod.rs:24 | a bank of one battery gives 0 |
| `Joltage.DigitsJoltageBounded` | src/day03/mod.rs:27 | a bank of digits gives a joltage in 0..=99 |
| `Joltage.OrderMatters` | src/day03/mod.rs:25-27 | order matters: bank 1,9 gives 19 and bank 9,1 gives 91 |
| `Joltage.ParseBank` | src/day03/mod.rs:13-18 | a line parses iff every character is a decimal digit, and then becomes those digits' values |
| `Joltage.ParseBanks` | src/day03/mod.rs:10-20 | `parse_banks` succeeds iff every line parses, yielding one bank per line |
| `Joltage.ParseBankOfDigits` | src/day03/mod.rs:16 | the digits of a bank, written out, parse back to the bank |
| `Joltage.ParsedBanksAreDigits` | src/day03/mod.rs:16 | every parsed battery is between 0 and 9 |
| `Joltage.TotalJoltageBounded` | src/day03/mod.rs:7 | banks of digits total between 0 and 99 per bank |
| `Joltage.SumLargestJoltages` | src/day03/mod.rs:7 | the sum succeeds iff no bank is empty, and is the sum of each bank's largest joltage |
| `Joltage.TotalOutputJoltage` | src/day03/mod.rs:5-8 | `None` iff some line is not all digits or is empty; otherwise the sum of each bank's largest joltage, at most 99 per line |
| `PaperRolls.Around` | src/day04/mod.rs:36-45 | the neighbour list has eight entries |
| `PaperRolls.AroundIsNeighbourhood` | src/day04/mod.rs:36-45 | the eight offsets are distinct and are exactly the cells adjacent to c (never c itself) |
| `PaperRolls.InBounds` | src/day04/mod.rs:46-49 | the filter keeps exactly the candidates inside the grid, and no more than there were |
| `PaperRolls.InBoundsProperties` | src/day04/mod.rs:46-49 | distinct candidates stay distinct, and all of them are kept when all lie in the grid |
| `PaperRolls.AdjacentInBounds` | src/day04/mod.rs:35-50 | `get_adjacent_coords_in_bounds` lists each in-grid neighbour of c once, at most eight, and never c |
| `PaperRolls.InteriorHasEightNeighbours` | src/day04/mod.rs:35-50 | a cell with a full ring of cells around it has all eight neighbours in bounds |
| `PaperRolls.NoRepeatsCount` | src/day04/mod.rs:16 | a list of cells without repeats is as long as the set of cells it lists |
| `PaperRolls.Rolls` | src/day04/mod.rs:14 | the filter keeps exactly the listed cells holding '@', and keeps a list without repeats without repeats |
| `PaperRolls.RollsNone` | src/day04/mod.rs:14 | cells without '@' leave nothing |
| `PaperRolls.AdjacentPaperRolls` | src/day04/mod.rs:24-31 | `get_adjacent_paper_rolls` lists exactly the in-grid neighbours holding '@', each once, so its length is the number of such neighbours |
| `PaperRolls.AccessibleAmong` | src/day04/mod.rs:14-15 | keeps exactly the listed cells that hold '@' and have fewer than four '@' neighbours, without repeats when the list has none |
| `PaperRolls.AccessibleAmongCount` | src/day04/mod.rs:14-16 | among cells listed once, the count of accessible cells is the size of the set of them |
| `PaperRolls.AllCoordsNoRepeats` | src/day04/mod.rs:12 | the grid's cells are listed once each |
| `PaperRolls.AccessibleAmongRolls` | src/day04/mod.rs:14-15 | there are no more accessible rolls than rolls |
| `PaperRolls.AccessiblePaperRolls` | src/day04/mod.rs:7-17 | `accessible_paper_rolls` is the number of cells holding '@' with fewer than four '@' neighbours, at most the number of '@' cells |
| `PaperRolls.IsolatedRollAccessible` | src/day04/mod.rs:15 | a roll with no roll next to it is always counted |
| `Freshness.InRangeInclusive` | src/day05/mod.rs:40-44 | `in_range` includes both ends and excludes everything outside them |
| `Freshness.FreshCount` | src/day05/mod.rs:13 | no more ids are counted than are listed |
| `Freshness.FreshCountAppend` | src/day05/mod.rs:13 | the count over two id lists is the sum of their counts, so duplicates count each time |
| `Freshness.FreshCountAll` | src/day05/mod.rs:13 | every id is counted iff every id is fresh, and none is iff none is |
| `Freshness.FreshCountMoreRanges` | src/day05/mod.rs:13 | adding a range never lowers the count |
| `Freshness.ParseRange` | src/day05/mod.rs:17-22 | a range line parses iff it has a '-' and both sides of the first '-' are numbers |
| `Freshness.ParseFormatRange` | src/day05/mod.rs:17-22 | a written range `from-to` parses back to itself |
| `Freshness.ParseRanges` | src/day05/mod.rs:28-31 | all range lines parse iff each does, one range per line in order |
| `Freshness.ParseIds` | src/day05/mod.rs:24-26 | all id lines parse iff each does, one id per line in order |
| `Freshness.ParseLines` | src/day05/mod.rs:16-33 | `parse_lines` succeeds iff there is an empty line and the lines before the first one parse as ranges and the lines up to the next one as ids, and then yields them |
| `Freshness.NoBlankLineNoIds` | src/day05/mod.rs:28-30 | input without an empty line does not parse (the program panics) |
| `Freshness.ParseFormatLines` | src/day05/mod.rs:16-33 | ranges, an empty line and ids, written out, parse back to those ranges and ids |
| `Freshness.HowManyIdsAreFresh` | src/day05/mod.rs:9-14 | `None` iff the input does not parse; otherwise the number of listed ids lying in some range, at most the number of id lines |
| `Worksheet.SolveProblemDegenerate` | src/day06/mod.rs:82-88 | a problem without numbers gives 0 for '+' and 1 (the empty product) otherwise; one number gives itself |
| `Worksheet.SumAppend` | src/day06/mod.rs:84 | the sum of two lists written one after the other is the sum of their sums |
| `Worksheet.ProductAppend` | src/day06/mod.rs:86 | the product of two lists written one after the other is the product of their products |
| `Worksheet.ParseOperations` | src/day06/mod.rs:36-41 | `parse_operations` gives one operation per word of the last line, its first character, never whitespace |
| `Worksheet.ParseOperationsOfLine` | src/day06/mod.rs:36-41 | a last line of operations separated by spaces parses back to those operations |
| `Worksheet.ParseAll` | src/day06/mod.rs:48-50 | a row of tokens parses iff every token is a number, each to its value |
| `Worksheet.ParseNumbers` | src/day06/mod.rs:43-53 | `parse_numbers` succeeds iff every line but the last parses, giving one row per such line with that line's numbers; the last line is never read |
| `Worksheet.ParseRows` | src/day06/mod.rs:43-53 | the number lines parse iff every line's words do, one row per line |
| `Worksheet.ParseNumberLine` | src/day06/mod.rs:43-53 | a row of numbers written with spaces parses back to the row |
| `Worksheet.ParseNumbersOfLines` | src/day06/mod.rs:43-53 | `parse_numbers` reads written rows back, whatever the last line holds |
| `Worksheet.Column` | src/day06/mod.rs:18 | problem i takes the i-th number of every row, top to bottom |
| `Worksheet.Answers` | src/day06/mod.rs:15-22 | one answer per operation |
| `Worksheet.AnswersSum` | src/day06/mod.rs:9-53 | `answers_sum` fails exactly when there is no line at all (`lines.len() - 1` underflows), a token is not a number, or a row has fewer numbers than there are operations |
| `Worksheet.AnswersSumOfWorksheet` | src/day06/mod.rs:9-23 | a worksheet written by rows, each row holding at least one number per operation, gives the sum over i of problem i (the i-th number of every row) solved with operation i |
| `Worksheet.ColumnTotals` | src/day06/mod.rs:15-22 | adding the column totals gives everything written on the rows |
| `Worksheet.AllAdditionsTotalEverything` | src/day06/mod.rs:9-23 | with rows as long as the operations and every operation '+', `answers_sum` is the total of all the numbers |
| `Worksheet.Transpose` | src/day06/mod.rs:56-70 | transposed string i is character i of every number line, top to bottom |
| `Worksheet.TransposeTwice` | src/day06/mod.rs:56-70 | transposing rows of equal length twice gives them back |
| `Worksheet.NumberColumns` | src/day06/mod.rs:56-70 | as many columns as the first line has characters, each as long as there are number lines |
| `Worksheet.BlankIsTrimmedEmpty` | src/day06/mod.rs:73 | a column is blank iff it trims to the empty string |
| `Worksheet.SplitBlank` | src/day06/mod.rs:72-73 | splitting at blank columns gives one group more than there are blank columns |
| `Worksheet.SplitBlankDropsBlanks` | src/day06/mod.rs:72-73 | no group holds a blank column |
| `Worksheet.SplitBlankKeepsColumns` | src/day06/mod.rs:72-73 | the groups, concatenated, are the non-blank columns in order |
| `Worksheet.SplitBlankJoin` | src/day06/mod.rs:72-73 | groups without blanks, joined by blank columns, split back into those groups |
| `Worksheet.Trims` | src/day06/mod.rs:76 | every column of a group is trimmed |
| `Worksheet.ParseGroups` | src/day06/mod.rs:74-79 | the groups parse iff each trimmed column of each group is a number, one list of numbers per group |
| `Worksheet.ParseNumbersRtl` | src/day06/mod.rs:55-80 | `parse_numbers_rtl` succeeds iff every number line is at least as long as the first and every trimmed non-blank column parses, and then yields the groups' numbers, one problem per blank-separated group |
| `Worksheet.RtlAnswersSum` | src/day06/mod.rs:25-56 | `rtl_answers_sum` fails exactly when there is no line at all (`lines.len() - 1` underflows), parsing fails, or there are more operations than problems |
| `Worksheet.NumberColumn` | src/day06/mod.rs:76 | a number written right-aligned fills a column of the given height |
| `Worksheet.ProblemColumns` | src/day06/mod.rs:74-78 | one column per number of a problem, in order |
| `Worksheet.WorksheetColumns` | src/day06/mod.rs:72-73 | the problems' columns joined by blank columns are all of the given height |
| `Worksheet.ParseNumberColumn` | src/day06/mod.rs:73-76 | a number's column is not blank, and trims and parses back to the number |
| `Worksheet.ParseProblemColumns` | src/day06/mod.rs:74-78 | a problem's columns hold no blank and parse back to the problem |
| `Worksheet.RtlAnswersSumOfWorksheet` | src/day06/mod.rs:25-80 | a worksheet written with each number right-aligned in its own column, problems separated by blank columns and the operations on the last line, gives the sum of every problem solved with its operation |
| `Beams.CountOf` | src/day07/mod.rs:10 | no more occurrences than characters |
| `Beams.SplitBeam` | src/day07/mod.rs:64-76 | `split_beam` marks the left neighbour (when x ≥ 1) and the right neighbour '|', changes nothing else and returns 1; it fails iff the right neighbour is past the row |
| `Beams.MoveBeam` | src/day07/mod.rs:47-62 | `move_beam` leaves the grid alone and returns 0 below the grid; otherwise '.' becomes '|' (0), '^' splits (1), anything else stays (0) |
| `Beams.MoveBeamRowAddsBeams` | src/day07/mod.rs:52-61 | one `move_beam` only turns cells into '|' and counts a split only at a '^' |
| `Beams.BeamsAddedTransitive` | src/day07/mod.rs:31-34 | adding beams twice is adding beams |
| `Beams.FlowAddsBeams` | src/day07/mod.rs:27-42 | scanning row y only turns cells of the row below into '|' and counts at most its splitters before the scan point |
| `Beams.FlowPanicStays` | src/day07/mod.rs:27-42 | once a scan panics, a longer scan panics too |
| `Beams.MoveBeams` | src/day07/mod.rs:24-45 | `move_beams(y)` does what the row-scan specification does: 'S' marks the cell below '|', '|' moves the beam below, and the splits are counted |
| `Beams.MoveBeamsSpecChangesRowBelow` | src/day07/mod.rs:24-45 | `move_beams(y)` changes only row y+1, only to '|', and counts at most that row's splitters |
| `Beams.Simulate` | src/day07/mod.rs:10 | the simulated grid has as many rows as the input |
| `Beams.SimulatePanicStays` | src/day07/mod.rs:10 | once a row panics, the whole run panics |
| `Beams.SimulateAddsBeams` | src/day07/mod.rs:10 | after rows 0..n the grid has only gained '|', the rows below n+1 are untouched, and the splits are at most the '^' cells in rows up to n+1 |
| `Beams.SimulateSplitsBounded` | src/day07/mod.rs:10 | a full run only adds beams, and counts at most as many splits as the input has '^' cells |
| `Beams.HowManyBeamSplits` | src/day07/mod.rs:5-15 | `how_many_beam_splits` returns the specification's count, at most the number of '^' cells, and fails iff the specification panics |
| `Circuits.ParseJunctionBox` | src/day08/mod.rs:115-125 | one line parses iff it has at least three comma-separated fields and the first three are numbers; the box takes them as x, y and z |
| `Circuits.ParseJunctionBoxes` | src/day08/mod.rs:115-125 | `parse_junction_boxes` succeeds iff every line parses, one box per line in order |
| `Circuits.ParseFormatJunctionBox` | src/day08/mod.rs:115-125 | a box written `x,y,z` parses back to itself |
| `Circuits.ParseFormatJunctionBoxes` | src/day08/mod.rs:115-125 | boxes written one per line parse back to those boxes, in order |
| `Circuits.RowPairs` | src/day08/mod.rs:15-27 | one row of the `flat_map`: the pairs (i, j..n-1) in order |
| `Circuits.PairsFrom` | src/day08/mod.rs:11-29 | the pairs p.0 < p.1 < n with p.0 from `from` on, each once, in generation order |
| `Circuits.PairsFromCount` | src/day08/mod.rs:11-29 | there are (n-from)(n-from-1)/2 such pairs |
| `Circuits.IndexPairs` | src/day08/mod.rs:11-29 | every index pair i < j < n exactly once, in generation order, n(n-1)/2 of them |
| `Circuits.Candidates` | src/day08/mod.rs:11-29 | one connection per index pair, in generation order, carrying its squared distance |
| `Circuits.Insert` | src/day08/mod.rs:30 | one insertion step of the sort keeps the elements |
| `Circuits.InsertSorted` | src/day08/mod.rs:30 | inserting into a sorted list keeps it sorted by distance |
| `Circuits.SortByDistance` | src/day08/mod.rs:30 | `sorted_by`: a permutation of its input, sorted by distance |
| `Circuits.InsertStable` | src/day08/mod.rs:30 | inserting a connection generated before all others keeps equal distances in generation order |
| `Circuits.SortByDistanceStable` | src/day08/mod.rs:30 | sorting connections listed in generation order keeps equal distances in generation order (stability) |
| `Circuits.SortedCandidatesCount` | src/day08/mod.rs:11-31 | N boxes give N(N-1)/2 sorted connections |
| `Circuits.SortedCandidatesEndpoints` | src/day08/mod.rs:11-31 | every connection joins two different indices i < j and carries their distance |
| `Circuits.SortedCandidatesComplete` | src/day08/mod.rs:11-31 | every index pair i < j has a connection |
| `Circuits.SortedCandidatesOrdered` | src/day08/mod.rs:11-31 | the list is sorted by distance with ties in generation order, and no index pair occurs twice |
| `Circuits.SortedConnections` | src/day08/mod.rs:11-31 | the sorted connections, each between the boxes at its two distinct indices |
| `Circuits.ConnectionCount` | src/day08/mod.rs:11-31 | there are exactly N(N-1)/2 connections |
| `Circuits.Union` | src/day08/mod.rs:46 | the boxes in some circuit |
| `Circuits.SizeSumDisjoint` | src/day08/mod.rs:55-60 | for pairwise disjoint circuits, the sizes add up to the number of boxes in their union |
| `Circuits.FirstHoldingOneEnd` | src/day08/mod.rs:68-71 | the `filter(..).find(..)`: the first circuit holding one end of the connection but not both, or `None` if there is none |
| `Circuits.AbsorbShape` | src/day08/mod.rs:67-81 | absorbing one connection only grows circuits or appends `{a, b}` |
| `Circuits.AbsorbJoins` | src/day08/mod.rs:67-81 | after absorbing a connection, both ends share a circuit |
| `Circuits.AbsorbUnion` | src/day08/mod.rs:67-81 | absorbing a connection adds exactly its two ends to the union |
| `Circuits.MakeCircuitsSpecNonEmpty` | src/day08/mod.rs:63-84 | no more circuits than connections, and none empty |
| `Circuits.MakeCircuitsSpecPairs` | src/day08/mod.rs:63-84 | when no connection joins a box to itself, every circuit has at least two boxes |
| `Circuits.MakeCircuitsSpecJoins` | src/day08/mod.rs:63-84 | for every processed connection, both ends share a circuit |
| `Circuits.MakeCircuitsSpecUnion` | src/day08/mod.rs:63-84 | the circuits hold exactly the ends of the processed connections |
| `Circuits.MakeCircuits` | src/day08/mod.rs:63-84 | `make_circuits` absorbs exactly the first n connections in order (n at most their number, as the slice requires) |
| `Circuits.AbsorbIfMeets` | src/day08/mod.rs:93-101 | the innermost loop: circuit c1 gains c2's boxes iff they meet, and c2 is then marked for removal |
| `Circuits.MergeCircuits` | src/day08/mod.rs:86-113 | `merge_circuits` computes the merge pass: each circuit not absorbed grows by what it absorbs, and absorbed circuits are dropped |
| `Circuits.GrowBounds` | src/day08/mod.rs:90-105 | growing a circuit keeps its boxes and adds only boxes of the list |
| `Circuits.MergeSpecCovers` | src/day08/mod.rs:86-113 | every input circuit lies within a merged circuit, and every merged circuit contains an input circuit (`Refines`/`Extends`) |
| `Circuits.MergeSpecUnion` | src/day08/mod.rs:86-113 | a merge pass keeps exactly the same boxes |
| `Circuits.MergeSpecDisjoint` | src/day08/mod.rs:86-113 | on pairwise disjoint circuits a merge pass changes nothing |
| `Circuits.MergeSpecShrinks` | src/day08/mod.rs:35-42 | on circuits that overlap, a merge pass strictly lowers the count, so the loop stops exactly at disjoint circuits |
| `Circuits.SettleDisjoint` | src/day08/mod.rs:35-42 | the `while merged` loop ends with pairwise disjoint circuits |
| `Circuits.SettleUnion` | src/day08/mod.rs:35-42 | the loop never adds circuits and keeps exactly the same boxes |
| `Circuits.SettleCovers` | src/day08/mod.rs:35-42 | the loop's input circuits each lie within one of its output circuits, and each output contains an input |
| `Circuits.MergeUntilStable` | src/day08/mod.rs:35-42 | the `while merged` loop computes the fixed point of merge passes |
| `Circuits.LonelyBoxes` | src/day08/mod.rs:44-47 | exactly the boxes in no circuit, with no duplicates when the boxes have none |
| `Circuits.Singletons` | src/day08/mod.rs:49-53 | one singleton circuit per lonely box |
| `Circuits.PadWithSingletons` | src/day08/mod.rs:49-53 | the padding loop appends those singletons in order |
| `Circuits.UnionSingletons` | src/day08/mod.rs:49-53 | the singletons hold exactly the lonely boxes |
| `Circuits.EndpointsAreBoxes` | src/day08/mod.rs:11-33 | the processed connections only join input boxes |
| `Circuits.FinalCircuitsCover` | src/day08/mod.rs:33-53 | after padding, every box is in some circuit and no other box is |
| `Circuits.FinalCircuitsNonEmpty` | src/day08/mod.rs:33-53 | after padding, no circuit is empty |
| `Circuits.FinalCircuitsJoin` | src/day08/mod.rs:33-53 | after padding, the ends of every processed connection share a circuit |
| `Circuits.FinalCircuitsPartition` | src/day08/mod.rs:33-53 | for distinct boxes, the final circuits are pairwise disjoint, so each box is in exactly one, and their sizes add up to the number of boxes |
| `Circuits.AbsorbConnected` | src/day08/mod.rs:67-81 | absorbing a processed connection keeps every circuit connected: its ends join a circuit that already holds one of them, or form a new circuit together |
| `Circuits.MakeCircuitsSpecConnected` | src/day08/mod.rs:63-84 | any two boxes of a circuit built by `make_circuits` are linked by a chain of the connections it processed |
| `Circuits.GrowConnected` | src/day08/mod.rs:90-105 | a circuit grows only by circuits that share a box with it, so connected circuits grow into a connected circuit |
| `Circuits.MergeSpecConnected` | src/day08/mod.rs:86-113 | a merge pass keeps every circuit connected |
| `Circuits.SettleConnected` | src/day08/mod.rs:35-42 | the `while merged` loop keeps every circuit connected |
| `Circuits.SingletonsConnected` | src/day08/mod.rs:49-53 | the padding circuits of one box are connected |
| `Circuits.FinalCircuitsConnected` | src/day08/mod.rs:33-53 | any two boxes of one final circuit are linked by a chain of the `n` nearest connections; with `FinalCircuitsJoin` and `FinalCircuitsPartition`, the final circuits are exactly the groups of boxes those connections link |
| `Circuits.Sizes` | src/day08/mod.rs:57 | one size per circuit |
| `Circuits.InsertDescendingSorted` | src/day08/mod.rs:57-58 | inserting into a descending list keeps it descending |
| `Circuits.SortDescending` | src/day08/mod.rs:57-58 | `sorted_by_key(len).rev()`: a permutation of the sizes, largest first |
| `Circuits.ThreeLargestProductSpec` | src/day08/mod.rs:55-60 | the product is over min(3, count) sizes taken from the circuits, each at least every size left out: up to three largest |
| `Circuits.ThreeLargestProductPositive` | src/day08/mod.rs:55-60 | the fold starts at 1, so with non-empty circuits the product is at least 1 |
| `Circuits.MultipliedThreeLargestCircuits` | src/day08/mod.rs:7-61 | `multiplied_three_largest_circuits` is the product of up to three largest sizes among the final circuits, at least 1 |
| `Rectangles.AreaProperties` | src/day09/mod.rs:14 | the inclusive area is (1 + \|dx\|)·(1 + \|dy\|), at least each side, and symmetric in the two tiles |
| `Rectangles.OptMaxOf` | src/day09/mod.rs:15 | the maximum of two optional values is one of them and at least both |
| `Rectangles.BestWithIsBest` | src/day09/mod.rs:11-16 | the best pair with a fixed first tile is `None` iff no distinct partner exists, and otherwise bounds all distinct pairs and is reached by one |
| `Rectangles.BestAmongNone` | src/day09/mod.rs:13-16 | the best over all pairs is `None` iff no pair is distinct |
| `Rectangles.BestAmongIsBest` | src/day09/mod.rs:11-16 | the best over all pairs bounds every distinct pair's score and is reached by one |
| `Rectangles.LargestAreaIsLargest` | src/day09/mod.rs:11-16 | `None` iff all tiles are equal; otherwise the area of some distinct pair, and no distinct pair's area is larger |
| `Rectangles.ParseTile` | src/day09/mod.rs:19-27 | a line parses iff it has a ',' and both sides of the first ',' are numbers |
| `Rectangles.ParseFormatTile` | src/day09/mod.rs:19-27 | a written tile `x,y` parses back to itself |
| `Rectangles.ParseCoords` | src/day09/mod.rs:19-27 | `parse_coords` succeeds iff every line does, one tile per line in order |
| `Rectangles.ParseFormatCoords` | src/day09/mod.rs:19-27 | written tiles parse back to themselves |
| `Rectangles.AreaOfLargestRectangle` | src/day09/mod.rs:7-17 | `None` iff parsing fails or no two tiles differ (where the program panics); otherwise the largest area over pairs of distinct tiles, at least 1 |
| `Lights.BinaryValueBound` | src/day10/mod.rs:40-43 | n lights spell a number below 2^n |
| `Lights.BinaryValueSwitchOn` | src/day10/mod.rs:44-47 | switching light i of n on adds 2^(n-1-i) |
| `Lights.EncodeDiagram` | src/day10/mod.rs:40-43 | the `u16` fold always fits in 16 bits |
| `Lights.EncodeDiagramValue` | src/day10/mod.rs:38-43 | up to 16 lights are encoded first light most significant: bit n-1-i is set iff light i is '#' |
| `Lights.DiagramLights` | src/day10/mod.rs:21 | light i is on iff character i of the diagram is '#' |
| `Lights.ButtonMask` | src/day10/mod.rs:44-47 | a button's fold fits in 16 bits |
| `Lights.Listed` | src/day10/mod.rs:44-47 | the lights a button lists, as n lights |
| `Lights.ButtonMaskListed` | src/day10/mod.rs:44-47 | with distinct indices below n ≤ 16, the fold gives the mask with bit n-1-b set for each listed b |
| `Lights.ListedFits` | src/day10/mod.rs:44-47 | the mask of up to 16 lights fits in 16 bits |
| `Lights.ButtonMasks` | src/day10/mod.rs:44-47 | all buttons fold iff each does, one mask per button |
| `Lights.ParseMachine` | src/day10/mod.rs:16-50 | `parse_machine` after the regex succeeds iff every button's fold does; the target is the diagram's fold and button k's mask is its fold |
| `Lights.ParseMachineWellFormed` | src/day10/mod.rs:16-50 | a diagram of at most 16 lights with buttons listing distinct lights of it always parses: the target is the binary number of its '#' lights, and each mask has exactly the button's lights on |
| `Lights.PressTwice` | src/day10/mod.rs:70 | pressing the same button twice restores the state |
| `Lights.ApplySnoc` | src/day10/mod.rs:70 | one more press XORs that button's mask into the state |
| `Lights.FewestDark` | src/day10/mod.rs:61-67 | an all-off diagram needs 0 presses |
| `Lights.FewestUnique` | src/day10/mod.rs:62-77 | the fewest number of presses is unique |
| `Lights.LevelApply` | src/day10/mod.rs:62-77 | the state after k presses is in level k of the search |
| `Lights.LevelWitness` | src/day10/mod.rs:62-77 | every state in level k is reached by some k presses |
| `Lights.SolvableFewest` | src/day10/mod.rs:62-77 | a diagram reached by k presses has a fewest count of at most k |
| `Lights.FirstLevelFewest` | src/day10/mod.rs:62-77 | the first level holding the diagram gives the fewest presses |
| `Lights.Dequeued` | src/day10/mod.rs:64 | the front of the FIFO queue is in the current level, and the search then expands it |
| `Lights.Pressed` | src/day10/mod.rs:69-75 | one button press during expansion enqueues the new state at the next level iff it was not visited |
| `Lights.NextLayer` | src/day10/mod.rs:64-77 | when the queue front moves to the next press count, the search invariant holds one level deeper |
| `Lights.Found` | src/day10/mod.rs:65-66 | the first dequeued state equal to the diagram carries the fewest presses |
| `Lights.Exhausted` | src/day10/mod.rs:79 | an empty queue without the diagram means no presses reach it |
| `Lights.Progress` | src/day10/mod.rs:72-75 | the visited set only grows toward the 2^16 states, which bounds the loop |
| `Lights.PressEach` | src/day10/mod.rs:69-76 | the `for` loop over the buttons keeps the search invariant and only adds visited states |
| `Lights.FewestButtonPresses` | src/day10/mod.rs:59-80 | `fewest_button_presses` returns the fewest presses whose XOR is the diagram, and `None` (the panic) iff no presses reach it |
| `Lights.SolvableHasFewest` | src/day10/mod.rs:59-80 | a reachable diagram has a fewest count |
| `Lights.FewestOf` | src/day10/mod.rs:59-80 | the fewest presses of a solvable machine |
| `Lights.TotalSnoc` | src/day10/mod.rs:9 | one more solvable machine adds its fewest count to the total |
| `Lights.SumFewestButtonPresses` | src/day10/mod.rs:5-10 | the total is the sum of every machine's fewest presses, and `None` iff some machine cannot be solved |

## Left out

- Reading input (`read_input`, `read`, src/lib.rs:20-29) is left out, and no
  sample answer is reproduced. Most puzzle models start from the lines. Day 04
  starts from a `CartesianGrid` built from them. Day 08's
  `Circuits.MultipliedThreeLargestCircuits` starts from the boxes that
  `Circuits.ParseJunctionBoxes` reads from the lines.
  `InvalidIds.SampleRange`, `Joltage.OrderMatters` and
  `Grid.CartesianGrid.CoordsBetweenVerticalLeavesColumn` are the only concrete
  checks.
- Printing (`CartesianGrid::print`, `diagram.print()` in day 07) is left out.
- The day 10 regex and the parsing of its captures are left out.
  `Lights.ParseMachine` starts from the captured diagram and the button index
  lists. The joltage requirements, which nothing reads, are not modelled.
- `remove_first` is modelled as taking the front of a sequence; its source is
  not part of this model. The bound of 2^16 + 1 loop rounds is not stated as a
  number. `Lights.Progress` gives the measure (the unvisited states), which
  shrinks with every new visit.
- The day 08 distance is an `f32` square root. The model compares squared
  integer distances instead. These order pairs the same way, except that
  `f32` rounding can turn near-ties into ties. Those ties the model does not
  reproduce.
- `HashSet` hashing and iteration order are left out. A circuit is a Dafny
  `set`. No result depends on the iteration order.
- Circuits.AbsorbIfMeets: `merge_circuits` pushes `c2` onto `to_remove` once
  per shared box. The model records only membership, which is all the final
  filter reads.
- Machine widths are left out: `u64`/`usize`/`isize` sums and products, the
  `i32` sum inside `rotate`, and `Mul<i32> for Coords` casting a negative
  factor. Numbers are unbounded, so overflow panics are not modelled. The one
  exception is the day 10 state, which is `u16`.
- ParseUnsigned and ParseInteger accept a leading '+' like Rust's `parse`, but
  do not reject values beyond `u64`/`i32`.
- Worksheet.AnswersSum and Worksheet.RtlAnswersSum state in their own contracts
  only when they fail. Their values on well-formed worksheets are stated by
  `Worksheet.AnswersSumOfWorksheet`, `Worksheet.RtlAnswersSumOfWorksheet` and
  `Worksheet.AllAdditionsTotalEverything`.
- Text.Words: its own contract gives the shape of each word. That the words are
  the maximal runs is stated by `Text.WordsOfSpaced`.
- Day 06 indexes by characters where the program uses `lines[0].len()` (bytes).
  The two agree on ASCII input.
- Grid `is_boundary` is used by no modelled puzzle. It is characterised by
  `Grid.CartesianGrid.BoundaryOfCell` only.

## Findings

| source | as written | input that shows it | evidently intended | confidence | as-written member | corrected member |
|---|---|---|---|---|---|---|
| src/lib.rs:294-300 | the vertical branch of `get_coords_between` builds `Coords(from.1, y)`, taking x from `from`'s y | from (1,0) to (1,2): yields (0,0), (0,1) | the cells of column `from.0`: (1,0), (1,1) | high, not executed | `Grid.CartesianGrid.CoordsBetween` (and `Grid.CartesianGrid.CoordsBetweenVerticalLeavesColumn`) | `Grid.CartesianGrid.CoordsBetweenCorrected` |

=== FILE: beams.dfy ===
/** Tachyon beams in a manifold diagram (`BeamDiagram` for `CartesianGrid<char>`).
    'S' is the source, '.' empty space, '^' a splitter and '|' a beam. Rows are
    processed top to bottom; a beam in row y flows into row y + 1, and a splitter it
    meets there emits beams to its left and right and counts as one split.

    Every place where the program panics (`unwrap` on a missing row, an index past the
    end of a row) makes the operations below report `ok == false`, or `None` in the
    functions that specify them. */
module Beams {
  import opened Wrappers
  import opened Grid

  // ===========================================================================
  // The effect on one row, as functions

  /** `split_beam` on row `row` at column x: beams to the left (when there is a
      column to the left) and to the right, which must lie inside the row. */
  function SplitRow(row: seq<char>, x: nat): Option<seq<char>>
    requires x < |row|
  {
    if x + 1 >= |row| then None
    else
      var left := if x >= 1 then row[x - 1 := '|'] else row;
      Some(left[x + 1 := '|'])
  }

  /** `move_beam` on row `row` at column x: nothing outside the row, a split on '^',
      a beam on '.', and nothing on any other character. The number is the splits. */
  function MoveBeamRow(row: seq<char>, x: nat): Option<(seq<char>, nat)> {
    if x >= |row| then Some((row, 0))
    else if row[x] == '^' then
      match SplitRow(row, x)
      case None => None
      case Some(r) => Some((r, 1))
    else if row[x] == '.' then Some((row[x := '|'], 0))
    else Some((row, 0))
  }

  /** `move_beams` for the first n cells of row `above` onto the row `below` it: a
      source marks the cell below (which must exist), a beam moves into the cell
      below. The result is the new row below and the splits counted. */
  function Flow(above: seq<char>, below: seq<char>, n: nat): Option<(seq<char>, nat)>
    requires n <= |above|
  {
    if n == 0 then Some((below, 0))
    else
      match Flow(above, below, n - 1)
      case None => None
      case Some(state) =>
        var (row, splits) := state;
        var x := n - 1;
        if above[x] == 'S' then
          if x < |row| then Some((row[x := '|'], splits)) else None
        else if above[x] == '|' then
          match MoveBeamRow(row, x)
          case None => None
          case Some(moved) => Some((moved.0, splits + moved.1))
        else Some((row, splits))
  }

  /** Once a row's flow panics, it panics however many more cells follow. */
  lemma {:induction false} FlowPanicStays(above: seq<char>, below: seq<char>, k: nat, n: nat)
    requires k <= n <= |above| && Flow(above, below, k).None?
    ensures Flow(above, below, n).None?
    decreases n
  {
    if k < n {
      FlowPanicStays(above, below, k, n - 1);
    }
  }

  /** `move_beams` on the last row: a source there has no cell below and panics,
      and a beam leaves the grid. */
  predicate LastRowFlows(above: seq<char>, n: nat)
    requires n <= |above|
  {
    'S' !in above[..n]
  }

  /** `move_beams(y)` on a whole grid: the new grid and the splits. */
  function MoveBeamsSpec(grid: seq<seq<char>>, y: nat): Option<(seq<seq<char>>, nat)>
    requires y < |grid|
  {
    if y + 1 < |grid| then
      match Flow(grid[y], grid[y + 1], |grid[y]|)
      case None => None
      case Some(r) => Some((grid[y + 1 := r.0], r.1))
    else if LastRowFlows(grid[y], |grid[y]|) then Some((grid, 0))
    else None
  }

  /** `how_many_beam_splits` after the first n rows: the grid and the total splits. */
  function Simulate(grid: seq<seq<char>>, n: nat): Option<(seq<seq<char>>, nat)>
    requires n <= |grid|
    ensures Simulate(grid, n).Some? ==> |Simulate(grid, n).value.0| == |grid|
  {
    if n == 0 then Some((grid, 0))
    else
      match Simulate(grid, n - 1)
      case None => None
      case Some(state) =>
        match MoveBeamsSpec(state.0, n - 1)
        case None => None
        case Some(next) => Some((next.0, state.1 + next.1))
  }

  lemma {:induction false} SimulatePanicStays(grid: seq<seq<char>>, k: nat, n: nat)
    requires k <= n <= |grid| && Simulate(grid, k).None?
    ensures Simulate(grid, n).None?
    decreases n
  {
    if k < n {
      SimulatePanicStays(grid, k, n - 1);
    }
  }

  // ===========================================================================
  // What the simulation preserves

  /** The number of times c occurs in s. */
  function CountOf(c: char, s: seq<char>): (k: nat)
    ensures k <= |s|
  {
    if s == [] then 0 else CountOf(c, s[..|s| - 1]) + (if s[|s| - 1] == c then 1 else 0)
  }

  /** The number of splitters in the rows. */
  function Splitters(rows: seq<seq<char>>): nat {
    if rows == [] then 0 else Splitters(rows[..|rows| - 1]) + CountOf('^', rows[|rows| - 1])
  }

  /** `row` is `original` with some cells turned into beams. */
  predicate BeamsAdded(original: seq<char>, row: seq<char>) {
    |row| == |original| && forall i :: 0 <= i < |row| ==> row[i] == original[i] || row[i] == '|'
  }

  /** `grid` is `original` with some cells turned into beams. */
  predicate GridBeamsAdded(original: seq<seq<char>>, grid: seq<seq<char>>) {
    |grid| == |original| && forall y :: 0 <= y < |grid| ==> BeamsAdded(original[y], grid[y])
  }

  lemma BeamsAddedTransitive(a: seq<char>, b: seq<char>, c: seq<char>)
    requires BeamsAdded(a, b) && BeamsAdded(b, c)
    ensures BeamsAdded(a, c)
  {
  }

  /** A move only turns cells of the row into beams, and splits at most once, on a
      splitter. */
  lemma MoveBeamRowAddsBeams(row: seq<char>, x: nat)
    requires MoveBeamRow(row, x).Some?
    ensures BeamsAdded(row, MoveBeamRow(row, x).value.0)
    ensures MoveBeamRow(row, x).value.1 <= 1
    ensures MoveBeamRow(row, x).value.1 == 1 ==> x < |row| && row[x] == '^'
  {
  }

  lemma CountOfSnoc(c: char, s: seq<char>, n: nat)
    requires n < |s|
    ensures CountOf(c, s[..n + 1]) == CountOf(c, s[..n]) + (if s[n] == c then 1 else 0)
  {
    assert s[..n + 1][..n] == s[..n];
  }

  lemma {:induction false} CountOfPrefix(c: char, s: seq<char>, n: nat)
    requires n <= |s|
    ensures CountOf(c, s[..n]) <= CountOf(c, s)
    decreases |s| - n
  {
    if n < |s| {
      CountOfSnoc(c, s, n);
      CountOfPrefix(c, s, n + 1);
    } else {
      assert s[..n] == s;
    }
  }

  /** The splitters among the first n cells of `row` (all of them when n is past its end). */
  function SplittersBefore(row: seq<char>, n: nat): nat {
    CountOf('^', row[..if n <= |row| then n else |row|])
  }

  /** `move_beams` over the first n cells only turns cells of the row below into
      beams, and counts at most one split per splitter among its first n cells. */
  lemma {:induction false} FlowAddsBeams(above: seq<char>, below: seq<char>, n: nat)
    requires n <= |above| && Flow(above, below, n).Some?
    ensures BeamsAdded(below, Flow(above, below, n).value.0)
    ensures Flow(above, below, n).value.1 <= SplittersBefore(below, n)
  {
    if n > 0 {
      FlowAddsBeams(above, below, n - 1);
      var (row, splits) := Flow(above, below, n - 1).value;
      var x := n - 1;
      if x < |below| {
        CountOfSnoc('^', below, x);
      }
      if above[x] == '|' {
        MoveBeamRowAddsBeams(row, x);
        BeamsAddedTransitive(below, row, MoveBeamRow(row, x).value.0);
      }
    }
  }

  /** `move_beams(y)` only changes row y + 1, only into beams, and counts at most
      the splitters of row y + 1. */
  lemma MoveBeamsSpecChangesRowBelow(grid: seq<seq<char>>, y: nat)
    requires y < |grid| && MoveBeamsSpec(grid, y).Some?
    ensures GridBeamsAdded(grid, MoveBeamsSpec(grid, y).value.0)
    ensures forall r :: 0 <= r < |grid| && r != y + 1 ==> MoveBeamsSpec(grid, y).value.0[r] == grid[r]
    ensures y + 1 < |grid| ==> MoveBeamsSpec(grid, y).value.1 <= CountOf('^', grid[y + 1])
    ensures y + 1 == |grid| ==> MoveBeamsSpec(grid, y).value.1 == 0
  {
    if y + 1 < |grid| {
      FlowAddsBeams(grid[y], grid[y + 1], |grid[y]|);
      CountOfPrefix('^', grid[y + 1], if |grid[y]| <= |grid[y + 1]| then |grid[y]| else |grid[y + 1]|);
    }
  }

  lemma SplittersSnoc(rows: seq<seq<char>>, n: nat)
    requires n < |rows|
    ensures Splitters(rows[..n + 1]) == Splitters(rows[..n]) + CountOf('^', rows[n])
  {
    assert rows[..n + 1][..n] == rows[..n];
  }

  /** After the first n rows, the grid is the original with some cells turned into
      beams, the rows from n on are untouched, and the splits are at most the
      splitters of the first n rows. */
  lemma {:induction false} SimulateAddsBeams(grid: seq<seq<char>>, n: nat)
    requires n <= |grid| && Simulate(grid, n).Some?
    ensures GridBeamsAdded(grid, Simulate(grid, n).value.0)
    ensures forall r :: n < r < |grid| ==> Simulate(grid, n).value.0[r] == grid[r]
    ensures Simulate(grid, n).value.1 <= Splitters(grid[..if n < |grid| then n + 1 else |grid|])
  {
    if n > 0 {
      SimulateAddsBeams(grid, n - 1);
      var (g, s) := Simulate(grid, n - 1).value;
      MoveBeamsSpecChangesRowBelow(g, n - 1);
      if n < |grid| {
        SplittersSnoc(grid, n);
      }
      var g' := MoveBeamsSpec(g, n - 1).value.0;
      forall y | 0 <= y < |grid|
        ensures BeamsAdded(grid[y], g'[y])
      {
        BeamsAddedTransitive(grid[y], g[y], g'[y]);
      }
    }
  }

  /** The splits of the whole diagram are at most its splitters. */
  lemma SimulateSplitsBounded(grid: seq<seq<char>>)
    requires Simulate(grid, |grid|).Some?
    ensures GridBeamsAdded(grid, Simulate(grid, |grid|).value.0)
    ensures Simulate(grid, |grid|).value.1 <= Splitters(grid)
  {
    SimulateAddsBeams(grid, |grid|);
    assert grid[..|grid|] == grid;
  }

  // ===========================================================================
  // The methods on the grid

  /** `split_beam`: one split, with beams set beside `src`. */
  method SplitBeam(g: CartesianGrid<char>, src: Coords) returns (splits: nat, ok: bool)
    requires g.CoordsInGrid(src)
    modifies g
    ensures ok <==> SplitRow(old(g.grid)[src.y], src.x).Some?
    ensures ok ==> g.grid == old(g.grid)[src.y := SplitRow(old(g.grid)[src.y], src.x).value]
    ensures ok ==> splits == 1
  {
    var row := g.grid[src.y];
    var left := ToCoords(SubX(src, 1));
    if left.Some? {
      g.Set(left.value, '|');
    }
    var right := ToCoords(AddX(src, 1));
    if !g.CoordsInGrid(right.value) {
      return 0, false;
    }
    g.Set(right.value, '|');
    return 1, true;
  }

  /** `move_beam`: a cell outside the grid is left alone and counts nothing. */
  method MoveBeam(g: CartesianGrid<char>, c: Coords) returns (splits: nat, ok: bool)
    modifies g
    ensures c.y >= |old(g.grid)| ==> ok && splits == 0 && g.grid == old(g.grid)
    ensures c.y < |old(g.grid)| ==> (ok <==> MoveBeamRow(old(g.grid)[c.y], c.x).Some?)
    ensures c.y < |old(g.grid)| && ok ==>
      var (row, k) := MoveBeamRow(old(g.grid)[c.y], c.x).value;
      g.grid == old(g.grid)[c.y := row] && splits == k
  {
    if !g.CoordsInGrid(c) {
      return 0, true;
    }
    var u := g.Get(c);
    if u == '^' {
      splits, ok := SplitBeam(g, c);
    } else if u == '.' {
      g.Set(c, '|');
      splits, ok := 0, true;
    } else {
      splits, ok := 0, true;
    }
  }

  /** `move_beams(y)`: moves every source and beam of row y into row y + 1. */
  method MoveBeams(g: CartesianGrid<char>, y: nat) returns (splits: nat, ok: bool)
    requires y < |g.grid|
    modifies g
    ensures ok <==> MoveBeamsSpec(old(g.grid), y).Some?
    ensures ok ==> g.grid == MoveBeamsSpec(old(g.grid), y).value.0 && splits == MoveBeamsSpec(old(g.grid), y).value.1
  {
    ghost var grid0 := g.grid;
    var above := g.grid[y];
    var cells := g.CoordsAtY(y);
    splits := 0;
    for x := 0 to |cells|
      invariant |g.grid| == |grid0| && g.grid[y] == above
      invariant y + 1 < |grid0| ==> Flow(above, grid0[y + 1], x) == Some((g.grid[y + 1], splits))
      invariant y + 1 < |grid0| ==> g.grid == grid0[y + 1 := g.grid[y + 1]]
      invariant y + 1 == |grid0| ==> LastRowFlows(above, x) && g.grid == grid0 && splits == 0
    {
      assert above[..x + 1] == above[..x] + [above[x]];
      var c := cells[x];
      var u := g.Get(c);
      if u == 'S' {
        var below := ToCoords(AddY(c, 1)).value;
        if !g.CoordsInGrid(below) {
          if y + 1 < |grid0| {
            FlowPanicStays(above, grid0[y + 1], x + 1, |above|);
          } else {
            assert above[x] in above[..|above|];
          }
          return 0, false;
        }
        g.Set(below, '|');
      } else if u == '|' {
        var k, moved := MoveBeam(g, ToCoords(AddY(c, 1)).value);
        if !moved {
          FlowPanicStays(above, grid0[y + 1], x + 1, |above|);
          return 0, false;
        }
        splits := splits + k;
      }
    }
    assert above[..|above|] == above;
    return splits, true;
  }

  /** `how_many_beam_splits` without the printing: builds the grid from the lines
      and moves the beams down one row at a time, summing the splits. */
  method HowManyBeamSplits(lines: seq<string>) returns (splits: nat, ok: bool)
    ensures ok <==> Simulate(lines, |lines|).Some?
    ensures ok ==> splits == Simulate(lines, |lines|).value.1
    ensures ok ==> splits <= Splitters(lines)
  {
    var diagram := new CartesianGrid.From(lines);
    splits := 0;
    for y := 0 to diagram.Height()
      invariant Simulate(lines, y) == Some((diagram.grid, splits))
    {
      var k, moved := MoveBeams(diagram, y);
      if !moved {
        SimulatePanicStays(lines, y + 1, |lines|);
        return 0, false;
      }
      splits := splits + k;
    }
    SimulateSplitsBounded(lines);
    return splits, true;
  }
}

=== FILE: circuits.dfy ===
/** The junction-box circuit builder: every pair of boxes becomes a connection,
    the connections are sorted by distance (stably), the first `n` are absorbed
    into a list of circuits, overlapping circuits are merged until none overlap,
    untouched boxes become singleton circuits, and the sizes of up to three largest
    circuits are multiplied.

    Distances are compared through the integer squared distance, which orders
    pairs as the square root does. */
module Circuits {
  import opened Wrappers
  import opened Text

  /** `JunctionBox { x, y, z }` */
  datatype JunctionBox = JunctionBox(x: nat, y: nat, z: nat)

  /** `Connection { a, b }` */
  datatype Connection = Connection(a: JunctionBox, b: JunctionBox)

  /** `HashSet<JunctionBox>` */
  type Circuit = set<JunctionBox>

  // ===========================================================================
  // Parsing: one "x,y,z" line per box

  /** `parse_junction_boxes` for one line: the first three comma-separated fields,
      each parsed as `usize`. `None` where the program panics: fewer than three
      fields, or a field that is not a number. Fields after the third are ignored. */
  function ParseJunctionBox(line: string): (b: Option<JunctionBox>)
    ensures b.Some? <==> (|Split(line, ',')| >= 3 && ParseUnsigned(Split(line, ',')[0]).Some?
                          && ParseUnsigned(Split(line, ',')[1]).Some? && ParseUnsigned(Split(line, ',')[2]).Some?)
    ensures b.Some? ==> b.value.x == ParseUnsigned(Split(line, ',')[0]).value
    ensures b.Some? ==> b.value.y == ParseUnsigned(Split(line, ',')[1]).value
    ensures b.Some? ==> b.value.z == ParseUnsigned(Split(line, ',')[2]).value
  {
    var parts := Split(line, ',');
    if |parts| < 3 then None
    else
      match (ParseUnsigned(parts[0]), ParseUnsigned(parts[1]), ParseUnsigned(parts[2]))
      case (Some(x), Some(y), Some(z)) => Some(JunctionBox(x, y, z))
      case _ => None
  }

  /** `parse_junction_boxes`: one box per line, in order; `None` where any line
      panics. */
  function ParseJunctionBoxes(lines: seq<string>): (r: Option<seq<JunctionBox>>)
    ensures r.Some? <==> forall k :: 0 <= k < |lines| ==> ParseJunctionBox(lines[k]).Some?
    ensures r.Some? ==> |r.value| == |lines|
    ensures r.Some? ==> forall k :: 0 <= k < |lines| ==> Some(r.value[k]) == ParseJunctionBox(lines[k])
  {
    if lines == [] then Some([])
    else
      match (ParseJunctionBox(lines[0]), ParseJunctionBoxes(lines[1..]))
      case (Some(b), Some(bs)) => Some([b] + bs)
      case _ => None
  }

  function FormatJunctionBox(b: JunctionBox): string {
    Join([NatToString(b.x), NatToString(b.y), NatToString(b.z)], ',')
  }

  /** Parsing a printed box gives the box back. */
  lemma ParseFormatJunctionBox(b: JunctionBox)
    ensures ParseJunctionBox(FormatJunctionBox(b)) == Some(b)
  {
    var fields := [NatToString(b.x), NatToString(b.y), NatToString(b.z)];
    NumeralWithout(fields[0], ',');
    NumeralWithout(fields[1], ',');
    NumeralWithout(fields[2], ',');
    SplitJoin(fields, ',');
    ParseUnsignedToString(b.x);
    ParseUnsignedToString(b.y);
    ParseUnsignedToString(b.z);
  }

  /** Parsing printed boxes, one per line, gives the boxes back in order. */
  lemma ParseFormatJunctionBoxes(boxes: seq<JunctionBox>)
    ensures ParseJunctionBoxes(seq(|boxes|, k requires 0 <= k < |boxes| => FormatJunctionBox(boxes[k]))) == Some(boxes)
  {
    var lines := seq(|boxes|, k requires 0 <= k < |boxes| => FormatJunctionBox(boxes[k]));
    forall k | 0 <= k < |boxes|
      ensures ParseJunctionBox(lines[k]) == Some(boxes[k])
    {
      ParseFormatJunctionBox(boxes[k]);
    }
    var r := ParseJunctionBoxes(lines);
    assert r.Some? && r.value == boxes;
  }

  // ===========================================================================
  // Connection generation (the iterator chain of multiplied_three_largest_circuits)

  function AbsDiff(a: nat, b: nat): nat {
    if a <= b then b - a else a - b
  }

  /** The squared Euclidean distance between two boxes. */
  function SquaredDistance(p: JunctionBox, q: JunctionBox): nat {
    AbsDiff(p.x, q.x) * AbsDiff(p.x, q.x) + AbsDiff(p.y, q.y) * AbsDiff(p.y, q.y)
      + AbsDiff(p.z, q.z) * AbsDiff(p.z, q.z)
  }

  /** Generation order of index pairs: by first index, then by second. */
  predicate LexLess(p: (nat, nat), q: (nat, nat)) {
    p.0 < q.0 || (p.0 == q.0 && p.1 < q.1)
  }

  /** The pairs (i, j), j from `j` up to `n - 1`: one row of the `flat_map`. */
  function RowPairs(i: nat, j: nat, n: nat): (r: seq<(nat, nat)>)
    ensures |r| == if j <= n then n - j else 0
    ensures forall p :: p in r <==> p.0 == i && j <= p.1 < n
    ensures forall k, l :: 0 <= k < l < |r| ==> LexLess(r[k], r[l])
    ensures forall k :: 0 <= k < |r| ==> r[k].0 == i && r[k].1 == j + k
    decreases n - j
  {
    if j >= n then [] else [(i, j)] + RowPairs(i, j + 1, n)
  }

  /** The pairs (i, j), `from <= i < j < n`, in generation order. */
  function PairsFrom(from: nat, n: nat): (r: seq<(nat, nat)>)
    ensures forall p :: p in r <==> from <= p.0 < p.1 < n
    ensures forall k, l :: 0 <= k < l < |r| ==> LexLess(r[k], r[l])
    decreases n - from
  {
    if from >= n then []
    else
      var row, rest := RowPairs(from, from + 1, n), PairsFrom(from + 1, n);
      assert forall l :: 0 <= l < |rest| ==> rest[l] in rest;
      row + rest
  }

  lemma {:induction false} PairsFromCount(from: nat, n: nat)
    requires from <= n
    ensures 2 * |PairsFrom(from, n)| == (n - from) * (n - from - 1)
    decreases n - from
  {
    if from < n {
      PairsFromCount(from + 1, n);
      assert |PairsFrom(from, n)| == |RowPairs(from, from + 1, n)| + |PairsFrom(from + 1, n)|;
      TriangleStep(n - from);
    }
  }

  lemma TriangleStep(m: int)
    ensures 2 * (m - 1) + (m - 1) * (m - 2) == m * (m - 1)
  {
  }

  /** Every unordered index pair, each once, in generation order. */
  function IndexPairs(n: nat): (r: seq<(nat, nat)>)
    ensures forall p :: p in r <==> p.0 < p.1 < n
    ensures forall k, l :: 0 <= k < l < |r| ==> LexLess(r[k], r[l])
    ensures |r| == n * (n - 1) / 2
  {
    PairsFromCount(0, n);
    PairsFrom(0, n)
  }

  /** A generated connection before sorting: the indices of its boxes and its
      squared length (the tuple `(Connection, f32)` of the chain). */
  datatype Candidate = Candidate(i: nat, j: nat, dist: nat)

  function Pair(c: Candidate): (nat, nat) { (c.i, c.j) }

  /** The connections of the `flat_map`, in generation order. */
  function Candidates(boxes: seq<JunctionBox>): (cs: seq<Candidate>)
    ensures |cs| == |IndexPairs(|boxes|)|
    ensures forall k :: 0 <= k < |cs| ==> Pair(cs[k]) == IndexPairs(|boxes|)[k]
    ensures forall c :: c in cs ==> c.i < c.j < |boxes| && c.dist == SquaredDistance(boxes[c.i], boxes[c.j])
  {
    var ps := IndexPairs(|boxes|);
    assert forall k :: 0 <= k < |ps| ==> ps[k] in ps;
    seq(|ps|, k requires 0 <= k < |ps| => Candidate(ps[k].0, ps[k].1, SquaredDistance(boxes[ps[k].0], boxes[ps[k].1])))
  }

  predicate SortedByDistance(cs: seq<Candidate>) {
    forall k, l :: 0 <= k < l < |cs| ==> cs[k].dist <= cs[l].dist
  }

  /** Nearer first; among equally distant connections, the earlier-generated first. */
  predicate Before(c: Candidate, d: Candidate) {
    c.dist < d.dist || (c.dist == d.dist && LexLess(Pair(c), Pair(d)))
  }

  /** Places `c` in front of the first connection that is not nearer than it. */
  function Insert(c: Candidate, cs: seq<Candidate>): (r: seq<Candidate>)
    ensures multiset(r) == multiset(cs) + multiset{c}
  {
    if cs == [] || c.dist <= cs[0].dist then [c] + cs
    else
      assert cs == [cs[0]] + cs[1..];
      [cs[0]] + Insert(c, cs[1..])
  }

  lemma SortedCons(c: Candidate, cs: seq<Candidate>)
    requires SortedByDistance(cs)
    requires forall l :: 0 <= l < |cs| ==> c.dist <= cs[l].dist
    ensures SortedByDistance([c] + cs)
  {
    var r := [c] + cs;
    forall k, l | 0 <= k < l < |r| ensures r[k].dist <= r[l].dist {
      assert r[l] == cs[l - 1];
      if k > 0 { assert r[k] == cs[k - 1]; }
    }
  }

  /** An element of `cs` other than its head. */
  lemma InTail(cs: seq<Candidate>, d: Candidate)
    requires cs != [] && d in multiset(cs[1..])
    ensures exists m :: 1 <= m < |cs| && cs[m] == d
  {
    var m :| 0 <= m < |cs[1..]| && cs[1..][m] == d;
    assert cs[m + 1] == d;
  }

  lemma {:induction false} InsertSorted(c: Candidate, cs: seq<Candidate>)
    requires SortedByDistance(cs)
    ensures SortedByDistance(Insert(c, cs))
  {
    if cs == [] || c.dist <= cs[0].dist {
      SortedCons(c, cs);
    } else {
      InsertSorted(c, cs[1..]);
      var rest := Insert(c, cs[1..]);
      forall l | 0 <= l < |rest| ensures cs[0].dist <= rest[l].dist {
        assert rest[l] in multiset(rest);
        if rest[l] != c { InTail(cs, rest[l]); }
      }
      SortedCons(cs[0], rest);
    }
  }

  /** `sorted_by` on the distance: a stable sort (insertion sort). */
  function SortByDistance(cs: seq<Candidate>): (r: seq<Candidate>)
    ensures multiset(r) == multiset(cs)
    ensures SortedByDistance(r)
  {
    if cs == [] then []
    else
      assert cs == [cs[0]] + cs[1..];
      var rest := SortByDistance(cs[1..]);
      InsertSorted(cs[0], rest);
      Insert(cs[0], rest)
  }

  /** Ordered by distance and, among equal distances, by generation order. */
  predicate Ordered(cs: seq<Candidate>) {
    forall k, l :: 0 <= k < l < |cs| ==> Before(cs[k], cs[l])
  }

  lemma OrderedCons(c: Candidate, cs: seq<Candidate>)
    requires Ordered(cs)
    requires forall l :: 0 <= l < |cs| ==> Before(c, cs[l])
    ensures Ordered([c] + cs)
  {
    var r := [c] + cs;
    forall k, l | 0 <= k < l < |r| ensures Before(r[k], r[l]) {
      assert r[l] == cs[l - 1];
      if k > 0 { assert r[k] == cs[k - 1]; }
    }
  }

  lemma {:induction false} InsertStable(c: Candidate, cs: seq<Candidate>)
    requires Ordered(cs)
    requires forall k :: 0 <= k < |cs| ==> LexLess(Pair(c), Pair(cs[k]))
    ensures Ordered(Insert(c, cs))
  {
    if cs == [] || c.dist <= cs[0].dist {
      forall l | 0 <= l < |cs| ensures Before(c, cs[l]) {
        if l > 0 { assert Before(cs[0], cs[l]); }
      }
      OrderedCons(c, cs);
    } else {
      InsertStable(c, cs[1..]);
      var rest := Insert(c, cs[1..]);
      forall l | 0 <= l < |rest| ensures Before(cs[0], rest[l]) {
        assert rest[l] in multiset(rest);
        if rest[l] != c { InTail(cs, rest[l]); }
      }
      OrderedCons(cs[0], rest);
    }
  }

  /** The sort is stable: sorting connections given in generation order yields them
      by distance and, among equal distances, still in generation order. */
  lemma {:induction false} SortByDistanceStable(cs: seq<Candidate>)
    requires forall k, l :: 0 <= k < l < |cs| ==> LexLess(Pair(cs[k]), Pair(cs[l]))
    ensures Ordered(SortByDistance(cs))
  {
    if cs != [] {
      SortByDistanceStable(cs[1..]);
      var t := SortByDistance(cs[1..]);
      forall k | 0 <= k < |t| ensures LexLess(Pair(cs[0]), Pair(t[k])) {
        assert t[k] in multiset(t);
        InTail(cs, t[k]);
      }
      InsertStable(cs[0], t);
    }
  }

  /** The generated connections in the order they are processed. */
  function SortedCandidates(boxes: seq<JunctionBox>): seq<Candidate> {
    SortByDistance(Candidates(boxes))
  }

  /** There are N·(N−1)/2 connections. */
  lemma SortedCandidatesCount(boxes: seq<JunctionBox>)
    ensures |SortedCandidates(boxes)| == |boxes| * (|boxes| - 1) / 2
  {
    var cs := Candidates(boxes);
    var r := SortedCandidates(boxes);
    assert |r| == |multiset(r)| == |multiset(cs)| == |cs|;
  }

  /** Every connection joins two boxes by index i < j and carries their distance. */
  lemma SortedCandidatesEndpoints(boxes: seq<JunctionBox>)
    ensures forall c :: c in SortedCandidates(boxes) ==>
      c.i < c.j < |boxes| && c.dist == SquaredDistance(boxes[c.i], boxes[c.j])
  {
    var r := SortedCandidates(boxes);
    forall c | c in r ensures c.i < c.j < |boxes| && c.dist == SquaredDistance(boxes[c.i], boxes[c.j]) {
      assert c in multiset(r);
    }
  }

  /** Some connection of `r` joins boxes i and j. */
  predicate Connects(r: seq<Candidate>, i: nat, j: nat) {
    exists k :: 0 <= k < |r| && Pair(r[k]) == (i, j)
  }

  /** Every index pair i < j has a connection. */
  lemma SortedCandidatesComplete(boxes: seq<JunctionBox>)
    ensures forall i, j :: 0 <= i < j < |boxes| ==> Connects(SortedCandidates(boxes), i, j)
  {
    forall i, j | 0 <= i < j < |boxes| ensures Connects(SortedCandidates(boxes), i, j) {
      CandidateOf(boxes, i, j);
    }
  }

  lemma CandidateOf(boxes: seq<JunctionBox>, i: nat, j: nat)
    requires i < j < |boxes|
    ensures Connects(SortedCandidates(boxes), i, j)
  {
    var cs := Candidates(boxes);
    var m := PairAt(|boxes|, i, j);
    var k := Moved(cs[m], cs, SortedCandidates(boxes));
  }

  lemma PairAt(n: nat, i: nat, j: nat) returns (m: nat)
    requires i < j < n
    ensures m < |IndexPairs(n)| && IndexPairs(n)[m] == (i, j)
  {
    var ps := IndexPairs(n);
    assert (i, j) in ps;
    m :| 0 <= m < |ps| && ps[m] == (i, j);
  }

  /** Where an element of `a` went in a permutation `b` of it. */
  lemma Moved<T>(x: T, a: seq<T>, b: seq<T>) returns (k: nat)
    requires x in a && multiset(a) == multiset(b)
    ensures k < |b| && b[k] == x
  {
    assert x in multiset(a);
    assert x in b;
    k :| 0 <= k < |b| && b[k] == x;
  }

  /** The connections come nearest first, equal distances in generation order, and
      no index pair comes twice. */
  lemma SortedCandidatesOrdered(boxes: seq<JunctionBox>)
    ensures var r := SortedCandidates(boxes);
      && Ordered(r)
      && (forall k, l :: 0 <= k < l < |r| ==> Pair(r[k]) != Pair(r[l]))
  {
    var r := SortedCandidates(boxes);
    SortByDistanceStable(Candidates(boxes));
    SortedCandidatesEndpoints(boxes);
    forall k, l | 0 <= k < l < |r| ensures Pair(r[k]) != Pair(r[l]) {
      assert r[k] in r && r[l] in r;
      assert Before(r[k], r[l]);
    }
  }

  /** The connections of the `flat_map` + `sorted_by` chain, nearest first. */
  function SortedConnections(boxes: seq<JunctionBox>): (conns: seq<Connection>)
    ensures |conns| == |SortedCandidates(boxes)|
    ensures forall k :: 0 <= k < |conns| ==> SortedCandidates(boxes)[k].i < SortedCandidates(boxes)[k].j < |boxes|
    ensures forall k :: 0 <= k < |conns| ==>
      conns[k] == Connection(boxes[SortedCandidates(boxes)[k].i], boxes[SortedCandidates(boxes)[k].j])
  {
    var r := SortedCandidates(boxes);
    SortedCandidatesEndpoints(boxes);
    assert forall k :: 0 <= k < |r| ==> r[k] in r;
    seq(|r|, k requires 0 <= k < |r| => Connection(boxes[r[k].i], boxes[r[k].j]))
  }

  /** There are N·(N−1)/2 connections. */
  lemma ConnectionCount(boxes: seq<JunctionBox>)
    ensures |SortedConnections(boxes)| == |boxes| * (|boxes| - 1) / 2
  {
    SortedCandidatesCount(boxes);
  }

  // ===========================================================================
  // Unions of circuit lists

  /** All boxes of all circuits. */
  function Union(cs: seq<Circuit>): (u: set<JunctionBox>)
    ensures forall p :: p in u <==> exists k :: 0 <= k < |cs| && p in cs[k]
  {
    if cs == [] then {}
    else
      var rest := Union(cs[1..]);
      assert forall p, k :: 0 <= k < |cs[1..]| && p in cs[1..][k] ==> p in cs[k + 1];
      cs[0] + rest
  }

  predicate PairwiseDisjoint(cs: seq<Circuit>) {
    forall k, l :: 0 <= k < l < |cs| ==> cs[k] * cs[l] == {}
  }

  /** Some circuit of `cs` holds both `a` and `b`. */
  predicate Together(a: JunctionBox, b: JunctionBox, cs: seq<Circuit>) {
    exists c :: 0 <= c < |cs| && a in cs[c] && b in cs[c]
  }

  /** `c` lies within some circuit of `ds`. */
  predicate Within(c: Circuit, ds: seq<Circuit>) {
    exists k :: 0 <= k < |ds| && c <= ds[k]
  }

  /** Every circuit of `cs` lies within some circuit of `ds`. */
  predicate Refines(cs: seq<Circuit>, ds: seq<Circuit>) {
    forall i :: 0 <= i < |cs| ==> Within(cs[i], ds)
  }

  lemma RefinesTransitive(as_: seq<Circuit>, bs: seq<Circuit>, cs: seq<Circuit>)
    requires Refines(as_, bs) && Refines(bs, cs)
    ensures Refines(as_, cs)
  {
    forall i | 0 <= i < |as_| ensures Within(as_[i], cs) {
      var j :| 0 <= j < |bs| && as_[i] <= bs[j];
      assert Within(bs[j], cs);
      var k :| 0 <= k < |cs| && bs[j] <= cs[k];
      assert as_[i] <= cs[k];
    }
  }

  lemma TogetherRefines(a: JunctionBox, b: JunctionBox, cs: seq<Circuit>, ds: seq<Circuit>)
    requires Together(a, b, cs) && Refines(cs, ds)
    ensures Together(a, b, ds)
  {
    var c :| 0 <= c < |cs| && a in cs[c] && b in cs[c];
    assert Within(cs[c], ds);
    var k :| 0 <= k < |ds| && cs[c] <= ds[k];
    assert a in ds[k] && b in ds[k];
  }

  /** `d` contains some circuit of `cs`. */
  predicate ContainsOne(d: Circuit, cs: seq<Circuit>) {
    exists i :: 0 <= i < |cs| && cs[i] <= d
  }

  /** Every circuit of `ds` contains some circuit of `cs`. */
  predicate Extends(ds: seq<Circuit>, cs: seq<Circuit>) {
    forall k :: 0 <= k < |ds| ==> ContainsOne(ds[k], cs)
  }

  lemma ExtendsTransitive(as_: seq<Circuit>, bs: seq<Circuit>, cs: seq<Circuit>)
    requires Extends(as_, bs) && Extends(bs, cs)
    ensures Extends(as_, cs)
  {
    forall k | 0 <= k < |as_| ensures ContainsOne(as_[k], cs) {
      var j :| 0 <= j < |bs| && bs[j] <= as_[k];
      assert ContainsOne(bs[j], cs);
      var i :| 0 <= i < |cs| && cs[i] <= bs[j];
      assert cs[i] <= as_[k];
    }
  }

  /** The sum of the circuit sizes. */
  function SizeSum(cs: seq<Circuit>): nat {
    if cs == [] then 0 else |cs[0]| + SizeSum(cs[1..])
  }

  /** The sizes of pairwise disjoint circuits add up to the number of boxes they hold. */
  lemma {:induction false} SizeSumDisjoint(cs: seq<Circuit>)
    requires PairwiseDisjoint(cs)
    ensures SizeSum(cs) == |Union(cs)|
  {
    if cs != [] {
      SizeSumDisjoint(cs[1..]);
      assert cs[0] * Union(cs[1..]) == {};
    }
  }

  // ===========================================================================
  // make_circuits

  /** The filter of make_circuits: the circuit holds one end of the connection, not both. */
  predicate HoldsOneEnd(c: Circuit, conn: Connection) {
    !(conn.a in c && conn.b in c) && (conn.a in c || conn.b in c)
  }

  /** The `filter` + `find`: the first circuit from `from` on that holds exactly one end. */
  function FirstHoldingOneEnd(cs: seq<Circuit>, conn: Connection, from: nat): (r: Option<nat>)
    ensures r.Some? ==> from <= r.value < |cs| && HoldsOneEnd(cs[r.value], conn)
    ensures r.Some? ==> forall k :: from <= k < r.value ==> !HoldsOneEnd(cs[k], conn)
    ensures r.None? ==> forall k :: from <= k < |cs| ==> !HoldsOneEnd(cs[k], conn)
    decreases |cs| - from
  {
    if from >= |cs| then None
    else if HoldsOneEnd(cs[from], conn) then Some(from)
    else FirstHoldingOneEnd(cs, conn, from + 1)
  }

  /** One step of make_circuits: both ends go into the first circuit holding exactly
      one of them; otherwise a new circuit of the two is appended (also when some
      circuit already holds both). */
  function Absorb(cs: seq<Circuit>, conn: Connection): seq<Circuit> {
    match FirstHoldingOneEnd(cs, conn, 0)
    case Some(c) => cs[c := cs[c] + {conn.a, conn.b}]
    case None => cs + [{conn.a, conn.b}]
  }

  /** make_circuits as a fold of `Absorb` over the processed connections. */
  function MakeCircuitsSpec(conns: seq<Connection>): seq<Circuit> {
    if conns == [] then [] else Absorb(MakeCircuitsSpec(conns[..|conns| - 1]), conns[|conns| - 1])
  }

  /** The boxes that are an end of some connection. */
  function Endpoints(conns: seq<Connection>): set<JunctionBox> {
    (set c | c in conns :: c.a) + (set c | c in conns :: c.b)
  }

  /** One step keeps every circuit (possibly grown) in place and adds at most one
      circuit, made of the two ends. */
  lemma AbsorbShape(cs: seq<Circuit>, conn: Connection)
    ensures var r := Absorb(cs, conn);
      && |cs| <= |r| <= |cs| + 1
      && (forall k :: 0 <= k < |cs| ==> cs[k] <= r[k])
      && (forall k :: |cs| <= k < |r| ==> r[k] == {conn.a, conn.b})
  {
  }

  /** One step puts both ends of the connection into one circuit. */
  lemma AbsorbJoins(cs: seq<Circuit>, conn: Connection)
    ensures Together(conn.a, conn.b, Absorb(cs, conn))
  {
    var r := Absorb(cs, conn);
    match FirstHoldingOneEnd(cs, conn, 0)
    case Some(c) =>
      assert conn.a in r[c] && conn.b in r[c];
    case None =>
      assert conn.a in r[|cs|] && conn.b in r[|cs|];
  }

  /** One step adds exactly the two ends to the boxes held. */
  lemma AbsorbUnion(cs: seq<Circuit>, conn: Connection)
    ensures Union(Absorb(cs, conn)) == Union(cs) + {conn.a, conn.b}
  {
    var r := Absorb(cs, conn);
    AbsorbShape(cs, conn);
    AbsorbJoins(cs, conn);
    forall p | p in Union(r) ensures p in Union(cs) + {conn.a, conn.b} {
      var k :| 0 <= k < |r| && p in r[k];
      match FirstHoldingOneEnd(cs, conn, 0)
      case Some(c) =>
        if k != c || p in cs[c] { assert p in cs[k]; }
      case None =>
        if k < |cs| { assert p in cs[k]; }
    }
    forall p | p in Union(cs) ensures p in Union(r) {
      var k :| 0 <= k < |cs| && p in cs[k];
      assert p in r[k];
    }
    var c :| 0 <= c < |r| && conn.a in r[c] && conn.b in r[c];
    assert conn.a in Union(r) && conn.b in Union(r);
  }

  lemma SubsetSize(s: Circuit, t: Circuit)
    requires s <= t
    ensures |s| <= |t|
  {
    assert t == s + (t - s);
  }

  lemma PairSize(a: JunctionBox, b: JunctionBox)
    requires a != b
    ensures |{a, b}| == 2
  {
    assert {a, b} == {a} + {b};
  }

  lemma MakeCircuitsSpecStep(conns: seq<Connection>)
    requires conns != []
    ensures var init, conn := conns[..|conns| - 1], conns[|conns| - 1];
      && conns == init + [conn]
      && MakeCircuitsSpec(conns) == Absorb(MakeCircuitsSpec(init), conn)
  {
  }

  /** make_circuits yields at most one circuit per connection, none of them empty. */
  lemma {:induction false} MakeCircuitsSpecNonEmpty(conns: seq<Connection>)
    ensures var cs := MakeCircuitsSpec(conns);
      |cs| <= |conns| && forall k :: 0 <= k < |cs| ==> cs[k] != {}
  {
    if conns != [] {
      var init, conn := conns[..|conns| - 1], conns[|conns| - 1];
      MakeCircuitsSpecNonEmpty(init);
      MakeCircuitsSpecStep(conns);
      var cs0, cs := MakeCircuitsSpec(init), MakeCircuitsSpec(conns);
      AbsorbShape(cs0, conn);
      forall k | 0 <= k < |cs| ensures cs[k] != {} {
        if k < |cs0| {
          assert cs0[k] != {} && cs0[k] <= cs[k];
        } else {
          assert conn.a in cs[k];
        }
      }
    }
  }

  /** When no connection joins a box to an equal box, every circuit of make_circuits
      holds at least two boxes. */
  lemma {:induction false} MakeCircuitsSpecPairs(conns: seq<Connection>)
    requires forall k :: 0 <= k < |conns| ==> conns[k].a != conns[k].b
    ensures var cs := MakeCircuitsSpec(conns);
      forall k :: 0 <= k < |cs| ==> |cs[k]| >= 2
  {
    if conns != [] {
      var init, conn := conns[..|conns| - 1], conns[|conns| - 1];
      assert forall k :: 0 <= k < |init| ==> init[k] == conns[k];
      MakeCircuitsSpecPairs(init);
      MakeCircuitsSpecStep(conns);
      var cs0, cs := MakeCircuitsSpec(init), MakeCircuitsSpec(conns);
      AbsorbShape(cs0, conn);
      PairSize(conn.a, conn.b);
      forall k | 0 <= k < |cs| ensures |cs[k]| >= 2 {
        if k < |cs0| {
          SubsetSize(cs0[k], cs[k]);
        }
      }
    }
  }

  /** After make_circuits both ends of every processed connection share a circuit. */
  lemma {:induction false} MakeCircuitsSpecJoins(conns: seq<Connection>)
    ensures forall k :: 0 <= k < |conns| ==> Together(conns[k].a, conns[k].b, MakeCircuitsSpec(conns))
  {
    if conns != [] {
      var init, conn := conns[..|conns| - 1], conns[|conns| - 1];
      MakeCircuitsSpecJoins(init);
      MakeCircuitsSpecStep(conns);
      var cs0, cs := MakeCircuitsSpec(init), MakeCircuitsSpec(conns);
      AbsorbShape(cs0, conn);
      AbsorbJoins(cs0, conn);
      forall k | 0 <= k < |conns| ensures Together(conns[k].a, conns[k].b, cs) {
        if k < |init| {
          assert init[k] == conns[k];
          assert Together(init[k].a, init[k].b, cs0);
          var c :| 0 <= c < |cs0| && init[k].a in cs0[c] && init[k].b in cs0[c];
          assert cs0[c] <= cs[c];
        }
      }
    }
  }

  /** After make_circuits the circuits hold exactly the ends of the processed connections. */
  lemma {:induction false} MakeCircuitsSpecUnion(conns: seq<Connection>)
    ensures Union(MakeCircuitsSpec(conns)) == Endpoints(conns)
  {
    if conns != [] {
      var init, conn := conns[..|conns| - 1], conns[|conns| - 1];
      MakeCircuitsSpecUnion(init);
      MakeCircuitsSpecStep(conns);
      AbsorbUnion(MakeCircuitsSpec(init), conn);
      assert Endpoints(conns) == Endpoints(init) + {conn.a, conn.b};
    }
  }

  /** `make_circuits`: absorbs the first `n` connections into a list of circuits;
      slicing past the end of the list panics. */
  method MakeCircuits(connections: seq<Connection>, n: nat) returns (circuits: seq<Circuit>)
    requires n <= |connections|
    ensures circuits == MakeCircuitsSpec(connections[..n])
  {
    circuits := [];
    var available := connections[..n];
    for k := 0 to |available|
      invariant circuits == MakeCircuitsSpec(available[..k])
    {
      var conn := available[k];
      assert available[..k + 1] == available[..k] + [conn];
      ghost var absorbed := Absorb(circuits, conn);
      match FirstHoldingOneEnd(circuits, conn, 0)
      case Some(c) =>
        assert absorbed == circuits[c := circuits[c] + {conn.a, conn.b}];
        assert circuits[c] + {conn.a} + {conn.b} == circuits[c] + {conn.a, conn.b};
        circuits := circuits[c := circuits[c] + {conn.a}];
        circuits := circuits[c := circuits[c] + {conn.b}];
      case None =>
        circuits := circuits + [{conn.a, conn.b}];
      MakeCircuitsSpecStep(available[..k + 1]);
    }
    assert available[..|available|] == available;
  }
  // ===========================================================================
  // merge_circuits

  /** Circuits `cs[lo..hi]` taken into `s` one by one, each when it meets what `s`
      has become by then. */
  ghost function Grow(s: Circuit, cs: seq<Circuit>, lo: nat, hi: nat): Circuit
    requires lo <= hi <= |cs|
    decreases hi
  {
    if hi == lo then s
    else
      var t := Grow(s, cs, lo, hi - 1);
      if t * cs[hi - 1] != {} then t + cs[hi - 1] else t
  }

  /** What circuit `c` holds at the end of a pass. */
  ghost function Grown(cs: seq<Circuit>, c: nat): Circuit
    requires c < |cs|
  {
    Grow(cs[c], cs, c + 1, |cs|)
  }

  /** In a pass, circuit `c1` takes in circuit `c2`, which is marked for removal. */
  ghost predicate Absorbs(cs: seq<Circuit>, c1: nat, c2: nat) {
    c1 < c2 < |cs| && Grow(cs[c1], cs, c1 + 1, c2) * cs[c2] != {}
  }

  ghost predicate Removed(cs: seq<Circuit>, c2: nat) {
    exists c1 :: 0 <= c1 < c2 && Absorbs(cs, c1, c2)
  }

  /** The indices from `i` on that a pass does not remove, in order. */
  ghost function KeptFrom(cs: seq<Circuit>, i: nat): (r: seq<nat>)
    ensures i <= |cs| ==> |r| <= |cs| - i
    ensures forall k :: 0 <= k < |r| ==> i <= r[k] < |cs|
    decreases |cs| - i
  {
    if i >= |cs| then []
    else if Removed(cs, i) then KeptFrom(cs, i + 1)
    else [i] + KeptFrom(cs, i + 1)
  }

  /** The kept indices are exactly those not removed, in increasing order. */
  lemma {:induction false} KeptFromMembers(cs: seq<Circuit>, i: nat)
    ensures forall k :: 0 <= k < |KeptFrom(cs, i)| ==> !Removed(cs, KeptFrom(cs, i)[k])
    ensures forall j :: i <= j < |cs| && !Removed(cs, j) ==> j in KeptFrom(cs, i)
    ensures forall k, l :: 0 <= k < l < |KeptFrom(cs, i)| ==> KeptFrom(cs, i)[k] < KeptFrom(cs, i)[l]
    decreases |cs| - i
  {
    if i < |cs| {
      KeptFromMembers(cs, i + 1);
    }
  }

  ghost function GrownAt(cs: seq<Circuit>, ks: seq<nat>): (r: seq<Circuit>)
    requires forall k :: 0 <= k < |ks| ==> ks[k] < |cs|
    ensures |r| == |ks| && forall k :: 0 <= k < |ks| ==> r[k] == Grown(cs, ks[k])
  {
    seq(|ks|, k requires 0 <= k < |ks| => Grown(cs, ks[k]))
  }

  /** One pass of merge_circuits: every circuit not taken in by an earlier one,
      grown by the circuits it takes in. */
  ghost function MergeSpec(cs: seq<Circuit>): (r: seq<Circuit>)
    ensures |r| <= |cs|
  {
    GrownAt(cs, KeptFrom(cs, 0))
  }

  /** The `filter` + `map` chain: the circuits whose index is not marked. */
  function Unmarked(merged: seq<Circuit>, toRemove: seq<nat>, i: nat): seq<Circuit>
    decreases |merged| - i
  {
    if i >= |merged| then []
    else if i in toRemove then Unmarked(merged, toRemove, i + 1)
    else [merged[i]] + Unmarked(merged, toRemove, i + 1)
  }

  lemma {:induction false} UnmarkedKept(cs: seq<Circuit>, merged: seq<Circuit>, toRemove: seq<nat>, i: nat)
    requires |merged| == |cs|
    requires forall k :: 0 <= k < |cs| ==> merged[k] == Grown(cs, k)
    requires forall k :: 0 <= k < |cs| ==> (k in toRemove <==> Removed(cs, k))
    ensures Unmarked(merged, toRemove, i) == GrownAt(cs, KeptFrom(cs, i))
    decreases |cs| - i
  {
    if i < |cs| {
      UnmarkedKept(cs, merged, toRemove, i + 1);
      if !Removed(cs, i) {
        GrownAtCons(cs, i, KeptFrom(cs, i + 1));
      }
    }
  }

  lemma GrownAtCons(cs: seq<Circuit>, k: nat, ks: seq<nat>)
    requires k < |cs| && forall l :: 0 <= l < |ks| ==> ks[l] < |cs|
    ensures GrownAt(cs, [k] + ks) == [Grown(cs, k)] + GrownAt(cs, ks)
  {
  }

  /** The innermost loop of `merge_circuits`: for each box of circuit c1 (as it was
      before the loop) that circuit c2 holds, circuit c2 is added to circuit c1 and
      c2 is marked for removal. */
  method AbsorbIfMeets(merged: seq<Circuit>, toRemove: seq<nat>, c1: nat, c2: nat)
    returns (merged': seq<Circuit>, toRemove': seq<nat>)
    requires c1 < c2 < |merged|
    ensures merged' == merged[c1 := if merged[c1] * merged[c2] != {} then merged[c1] + merged[c2] else merged[c1]]
    ensures forall i: nat :: i in toRemove' <==> i in toRemove || (i == c2 && merged[c1] * merged[c2] != {})
  {
    merged', toRemove' := merged, toRemove;
    var before := merged[c1];
    var pending := before;
    ghost var hit := false;
    while pending != {}
      invariant pending <= before
      invariant hit == ((before - pending) * merged[c2] != {})
      invariant merged' == merged[c1 := if hit then before + merged[c2] else before]
      invariant forall i: nat :: i in toRemove' <==> i in toRemove || (i == c2 && hit)
      decreases pending
    {
      var j1 :| j1 in pending;
      assert before - (pending - {j1}) == (before - pending) + {j1};
      if j1 in merged'[c2] {
        var circuit := merged'[c2];
        merged' := merged'[c1 := merged'[c1] + circuit];
        toRemove' := toRemove' + [c2];
        assert j1 in (before - (pending - {j1})) * merged[c2];
        hit := true;
      }
      pending := pending - {j1};
    }
    assert before - pending == before;
  }

  /** `merge_circuits`: for every pair c1 < c2 whose circuits (as grown so far) meet,
      circuit c2 is added to circuit c1 and marked; the unmarked circuits are kept. */
  method MergeCircuits(circuits: seq<Circuit>) returns (result: seq<Circuit>)
    ensures result == MergeSpec(circuits)
  {
    var merged := circuits;
    var toRemove: seq<nat> := [];
    var n := |merged|;
    for c1 := 0 to n
      invariant |merged| == n
      invariant forall k :: 0 <= k < c1 ==> merged[k] == Grown(circuits, k)
      invariant forall k :: c1 <= k < n ==> merged[k] == circuits[k]
      invariant forall i: nat :: i in toRemove <==> exists k: nat :: k < c1 && Absorbs(circuits, k, i)
    {
      for c2 := 0 to n
        invariant |merged| == n
        invariant forall k :: 0 <= k < c1 ==> merged[k] == Grown(circuits, k)
        invariant merged[c1] == Grow(circuits[c1], circuits, c1 + 1, if c2 <= c1 then c1 + 1 else c2)
        invariant forall k :: c1 < k < n ==> merged[k] == circuits[k]
        invariant forall i: nat :: i in toRemove <==>
          (exists k: nat :: k < c1 && Absorbs(circuits, k, i)) || (c1 < i < c2 && Absorbs(circuits, c1, i))
      {
        if c2 > c1 {
          merged, toRemove := AbsorbIfMeets(merged, toRemove, c1, c2);
        }
      }
    }
    forall i | 0 <= i < n ensures i in toRemove <==> Removed(circuits, i) {
      if i in toRemove {
        var k: nat :| k < n && Absorbs(circuits, k, i);
      }
    }
    result := Unmarked(merged, toRemove, 0);
    UnmarkedKept(circuits, merged, toRemove, 0);
  }

  // ---------------------------------------------------------------------------
  // What one pass achieves

  lemma {:induction false} GrowMonotone(s: Circuit, t: Circuit, cs: seq<Circuit>, lo: nat, hi: nat)
    requires lo <= hi <= |cs| && s <= t
    ensures Grow(s, cs, lo, hi) <= Grow(t, cs, lo, hi)
    decreases hi
  {
    if hi > lo {
      GrowMonotone(s, t, cs, lo, hi - 1);
    }
  }

  lemma {:induction false} GrowSplit(s: Circuit, cs: seq<Circuit>, lo: nat, mid: nat, hi: nat)
    requires lo <= mid <= hi <= |cs|
    ensures Grow(s, cs, lo, hi) == Grow(Grow(s, cs, lo, mid), cs, mid, hi)
    decreases hi
  {
    if hi > mid {
      GrowSplit(s, cs, lo, mid, hi - 1);
    }
  }

  /** Growing only adds, and only boxes of the circuits passed over. */
  lemma {:induction false} GrowBounds(s: Circuit, cs: seq<Circuit>, lo: nat, hi: nat)
    requires lo <= hi <= |cs|
    ensures s <= Grow(s, cs, lo, hi)
    ensures Grow(s, cs, lo, hi) <= s + Union(cs)
    decreases hi
  {
    if hi > lo {
      GrowBounds(s, cs, lo, hi - 1);
      InUnion(cs, hi - 1);
    }
  }

  lemma InUnion(cs: seq<Circuit>, k: nat)
    requires k < |cs|
    ensures cs[k] <= Union(cs)
  {
  }

  /** A circuit that takes in another ends the pass holding all the other ends the pass holding. */
  lemma AbsorbedWithin(cs: seq<Circuit>, c1: nat, c2: nat)
    requires Absorbs(cs, c1, c2)
    ensures Grown(cs, c2) <= Grown(cs, c1)
  {
    var g := Grow(cs[c1], cs, c1 + 1, c2 + 1);
    GrowSplit(cs[c1], cs, c1 + 1, c2 + 1, |cs|);
    GrowMonotone(cs[c2], g, cs, c2 + 1, |cs|);
  }

  /** Whatever a removed circuit holds at the end of the pass, some kept circuit holds too. */
  lemma {:induction false} ReachesKept(cs: seq<Circuit>, i: nat)
    requires i < |cs|
    ensures exists k :: 0 <= k <= i && !Removed(cs, k) && Grown(cs, i) <= Grown(cs, k)
    decreases i
  {
    if Removed(cs, i) {
      var c: nat :| c < i && Absorbs(cs, c, i);
      AbsorbedWithin(cs, c, i);
      ReachesKept(cs, c);
      var k :| 0 <= k <= c && !Removed(cs, k) && Grown(cs, c) <= Grown(cs, k);
    } else {
      assert Grown(cs, i) <= Grown(cs, i);
    }
  }

  /** After a pass, every input circuit lies within one output circuit, and every
      output circuit contains an input circuit. */
  lemma MergeSpecCovers(cs: seq<Circuit>)
    ensures Refines(cs, MergeSpec(cs)) && Extends(MergeSpec(cs), cs)
  {
    forall i | 0 <= i < |cs| ensures Within(cs[i], MergeSpec(cs)) {
      MergeSpecWithin(cs, i);
    }
    MergeSpecExtends(cs);
  }

  lemma MergeSpecWithin(cs: seq<Circuit>, i: nat)
    requires i < |cs|
    ensures Within(cs[i], MergeSpec(cs))
  {
    var m, ks := MergeSpec(cs), KeptFrom(cs, 0);
    KeptFromMembers(cs, 0);
    ReachesKept(cs, i);
    var j :| 0 <= j <= i && !Removed(cs, j) && Grown(cs, i) <= Grown(cs, j);
    var k :| 0 <= k < |ks| && ks[k] == j;
    GrowBounds(cs[i], cs, i + 1, |cs|);
    assert cs[i] <= m[k];
  }

  lemma MergeSpecExtends(cs: seq<Circuit>)
    ensures Extends(MergeSpec(cs), cs)
  {
    var m, ks := MergeSpec(cs), KeptFrom(cs, 0);
    forall k | 0 <= k < |m| ensures ContainsOne(m[k], cs) {
      GrowBounds(cs[ks[k]], cs, ks[k] + 1, |cs|);
      assert cs[ks[k]] <= m[k];
    }
  }

  /** A pass neither loses nor invents boxes. */
  lemma MergeSpecUnion(cs: seq<Circuit>)
    ensures Union(MergeSpec(cs)) == Union(cs)
  {
    MergeSpecGains(cs);
    MergeSpecInvents(cs);
  }

  lemma MergeSpecGains(cs: seq<Circuit>)
    ensures Union(cs) <= Union(MergeSpec(cs))
  {
    var m := MergeSpec(cs);
    MergeSpecCovers(cs);
    forall p | p in Union(cs) ensures p in Union(m) {
      var i :| 0 <= i < |cs| && p in cs[i];
      assert Within(cs[i], m);
      var k :| 0 <= k < |m| && cs[i] <= m[k];
      assert p in m[k];
    }
  }

  lemma MergeSpecInvents(cs: seq<Circuit>)
    ensures Union(MergeSpec(cs)) <= Union(cs)
  {
    var m, ks := MergeSpec(cs), KeptFrom(cs, 0);
    forall k | 0 <= k < |m| ensures m[k] <= Union(cs) {
      GrowBounds(cs[ks[k]], cs, ks[k] + 1, |cs|);
      InUnion(cs, ks[k]);
    }
    forall p | p in Union(m) ensures p in Union(cs) {
      var k :| 0 <= k < |m| && p in m[k];
    }
  }

  lemma {:induction false} GrowDisjoint(cs: seq<Circuit>, c: nat, hi: nat)
    requires PairwiseDisjoint(cs) && c < hi <= |cs|
    ensures Grow(cs[c], cs, c + 1, hi) == cs[c]
    decreases hi
  {
    if hi > c + 1 {
      GrowDisjoint(cs, c, hi - 1);
    }
  }

  lemma {:induction false} KeptFromAll(cs: seq<Circuit>, i: nat)
    requires i <= |cs| && forall j :: i <= j < |cs| ==> !Removed(cs, j)
    ensures |KeptFrom(cs, i)| == |cs| - i
    ensures forall k :: 0 <= k < |cs| - i ==> KeptFrom(cs, i)[k] == i + k
    decreases |cs| - i
  {
    if i < |cs| {
      KeptFromAll(cs, i + 1);
    }
  }

  /** A pass over circuits that do not overlap changes nothing. */
  lemma MergeSpecDisjoint(cs: seq<Circuit>)
    requires PairwiseDisjoint(cs)
    ensures MergeSpec(cs) == cs
  {
    forall j | 0 <= j < |cs| ensures !Removed(cs, j) {
      forall c: nat | c < j ensures !Absorbs(cs, c, j) {
        GrowDisjoint(cs, c, j);
      }
    }
    KeptFromAll(cs, 0);
    forall k | 0 <= k < |cs| ensures Grown(cs, k) == cs[k] {
      if k + 1 < |cs| { GrowDisjoint(cs, k, |cs|); }
    }
  }

  lemma {:induction false} KeptFromMissing(cs: seq<Circuit>, i: nat, j: nat)
    requires i <= j < |cs| && KeptFrom(cs, j) == KeptFrom(cs, j + 1)
    ensures |KeptFrom(cs, i)| < |cs| - i
    decreases |cs| - i
  {
    if i < j {
      KeptFromMissing(cs, i + 1, j);
      KeptFromStep(cs, i);
    }
  }

  lemma KeptFromStep(cs: seq<Circuit>, i: nat)
    requires i < |cs|
    ensures |KeptFrom(cs, i)| <= |KeptFrom(cs, i + 1)| + 1
  {
  }

  lemma KeptFromDrops(cs: seq<Circuit>, i: nat)
    requires i < |cs| && Removed(cs, i)
    ensures KeptFrom(cs, i) == KeptFrom(cs, i + 1)
  {
  }

  /** A pass over circuits of which two overlap leaves fewer circuits. */
  lemma MergeSpecShrinks(cs: seq<Circuit>)
    requires !PairwiseDisjoint(cs)
    ensures |MergeSpec(cs)| < |cs|
  {
    var k, l :| 0 <= k < l < |cs| && cs[k] * cs[l] != {};
    GrowBounds(cs[k], cs, k + 1, l);
    assert Absorbs(cs, k, l);
    KeptFromDrops(cs, l);
    KeptFromMissing(cs, 0, l);
  }

  // ---------------------------------------------------------------------------
  // Merging until nothing changes

  /** The `while merged` loop: passes until one leaves the number of circuits unchanged. */
  ghost function Settle(cs: seq<Circuit>): seq<Circuit>
    decreases |cs|
  {
    var m := MergeSpec(cs);
    if |m| == |cs| then m else Settle(m)
  }

  /** The settled circuits do not overlap. */
  lemma {:induction false} SettleDisjoint(cs: seq<Circuit>)
    ensures PairwiseDisjoint(Settle(cs))
    decreases |cs|
  {
    var m := MergeSpec(cs);
    if |m| == |cs| {
      if !PairwiseDisjoint(cs) { MergeSpecShrinks(cs); }
      MergeSpecDisjoint(cs);
    } else {
      SettleDisjoint(m);
    }
  }

  /** Settling neither loses nor invents boxes, nor adds circuits. */
  lemma {:induction false} SettleUnion(cs: seq<Circuit>)
    ensures |Settle(cs)| <= |cs|
    ensures Union(Settle(cs)) == Union(cs)
    decreases |cs|
  {
    var m := MergeSpec(cs);
    MergeSpecUnion(cs);
    if |m| != |cs| {
      SettleUnion(m);
    }
  }

  /** Every input circuit lies within one settled circuit, and every settled circuit
      contains an input circuit. */
  lemma {:induction false} SettleCovers(cs: seq<Circuit>)
    ensures Refines(cs, Settle(cs)) && Extends(Settle(cs), cs)
    decreases |cs|
  {
    var m := MergeSpec(cs);
    MergeSpecCovers(cs);
    if |m| != |cs| {
      SettleCovers(m);
      assert Settle(cs) == Settle(m);
      RefinesTransitive(cs, m, Settle(m));
      ExtendsTransitive(Settle(m), m, cs);
    }
  }
  // ---------------------------------------------------------------------------
  // Every circuit is held together by processed connections

  /** A processed connection joins `p` and `q`, in either direction. */
  ghost predicate Edge(conns: seq<Connection>, p: JunctionBox, q: JunctionBox) {
    Connection(p, q) in conns || Connection(q, p) in conns
  }

  /** Each box of the path is joined to the next by a processed connection. */
  ghost predicate IsPath(conns: seq<Connection>, path: seq<JunctionBox>) {
    |path| >= 1 && forall i :: 0 <= i < |path| - 1 ==> Edge(conns, path[i], path[i + 1])
  }

  /** `a` reaches `b` through a chain of processed connections. */
  ghost predicate Linked(conns: seq<Connection>, a: JunctionBox, b: JunctionBox) {
    exists path :: IsPath(conns, path) && path[0] == a && path[|path| - 1] == b
  }

  lemma LinkedSelf(conns: seq<Connection>, p: JunctionBox)
    ensures Linked(conns, p, p)
  {
    assert IsPath(conns, [p]);
  }

  lemma LinkedEdge(conns: seq<Connection>, p: JunctionBox, q: JunctionBox)
    requires Edge(conns, p, q)
    ensures Linked(conns, p, q) && Linked(conns, q, p)
  {
    assert IsPath(conns, [p, q]);
    assert IsPath(conns, [q, p]);
  }

  lemma LinkedSymmetric(conns: seq<Connection>, p: JunctionBox, q: JunctionBox)
    requires Linked(conns, p, q)
    ensures Linked(conns, q, p)
  {
    var path :| IsPath(conns, path) && path[0] == p && path[|path| - 1] == q;
    var n := |path|;
    var back := seq(n, i requires 0 <= i < n => path[n - 1 - i]);
    forall i | 0 <= i < n - 1
      ensures Edge(conns, back[i], back[i + 1])
    {
      assert Edge(conns, path[n - 2 - i], path[n - 1 - i]);
    }
    assert IsPath(conns, back);
  }

  lemma LinkedTransitive(conns: seq<Connection>, p: JunctionBox, q: JunctionBox, r: JunctionBox)
    requires Linked(conns, p, q) && Linked(conns, q, r)
    ensures Linked(conns, p, r)
  {
    var first :| IsPath(conns, first) && first[0] == p && first[|first| - 1] == q;
    var second :| IsPath(conns, second) && second[0] == q && second[|second| - 1] == r;
    var path := first + second[1..];
    var m := |first|;
    forall i | 0 <= i < |path| - 1
      ensures Edge(conns, path[i], path[i + 1])
    {
      if i < m - 1 {
        assert path[i] == first[i] && path[i + 1] == first[i + 1];
      } else {
        assert path[i] == second[i - m + 1] && path[i + 1] == second[i - m + 2];
      }
    }
    assert IsPath(conns, path);
  }

  /** More connections keep every chain. */
  lemma LinkedMore(conns: seq<Connection>, more: seq<Connection>, p: JunctionBox, q: JunctionBox)
    requires forall c :: c in conns ==> c in more
    requires Linked(conns, p, q)
    ensures Linked(more, p, q)
  {
    var path :| IsPath(conns, path) && path[0] == p && path[|path| - 1] == q;
    assert IsPath(more, path);
  }

  /** Any two boxes of the circuit are linked. */
  ghost predicate Connected(c: Circuit, conns: seq<Connection>) {
    forall p, q :: p in c && q in c ==> Linked(conns, p, q)
  }

  ghost predicate AllConnected(cs: seq<Circuit>, conns: seq<Connection>) {
    forall k :: 0 <= k < |cs| ==> Connected(cs[k], conns)
  }

  /** A circuit whose boxes all reach one box is connected. */
  lemma ConnectedByHub(c: Circuit, conns: seq<Connection>, e: JunctionBox)
    requires forall p :: p in c ==> Linked(conns, p, e)
    ensures Connected(c, conns)
  {
    forall p, q | p in c && q in c
      ensures Linked(conns, p, q)
    {
      LinkedSymmetric(conns, q, e);
      LinkedTransitive(conns, p, e, q);
    }
  }

  lemma AllConnectedMore(cs: seq<Circuit>, conns: seq<Connection>, more: seq<Connection>)
    requires forall c :: c in conns ==> c in more
    requires AllConnected(cs, conns)
    ensures AllConnected(cs, more)
  {
    forall k, p, q | 0 <= k < |cs| && p in cs[k] && q in cs[k]
      ensures Linked(more, p, q)
    {
      assert Connected(cs[k], conns);
      LinkedMore(conns, more, p, q);
    }
  }

  /** Absorbing a processed connection keeps every circuit connected: the ends join
      a circuit that already holds one of them, or form a circuit of their own. */
  lemma AbsorbConnected(cs: seq<Circuit>, conn: Connection, conns: seq<Connection>)
    requires conn in conns && AllConnected(cs, conns)
    ensures AllConnected(Absorb(cs, conn), conns)
  {
    var r := Absorb(cs, conn);
    var a, b := conn.a, conn.b;
    assert Connection(a, b) == conn;
    LinkedEdge(conns, a, b);
    LinkedSelf(conns, a);
    LinkedSelf(conns, b);
    match FirstHoldingOneEnd(cs, conn, 0)
    case Some(c) =>
      var e := if a in cs[c] then a else b;
      forall p | p in r[c]
        ensures Linked(conns, p, e)
      {
        if p in cs[c] {
          assert Connected(cs[c], conns);
        }
      }
      ConnectedByHub(r[c], conns, e);
      forall k | 0 <= k < |r|
        ensures Connected(r[k], conns)
      {
        if k != c {
          assert r[k] == cs[k];
        }
      }
    case None =>
      forall p | p in r[|cs|]
        ensures Linked(conns, p, b)
      {
      }
      ConnectedByHub(r[|cs|], conns, b);
      forall k | 0 <= k < |r|
        ensures Connected(r[k], conns)
      {
        if k < |cs| {
          assert r[k] == cs[k];
        }
      }
  }

  /** Every circuit `make_circuits` builds is held together by the connections it
      processed. */
  lemma {:induction false} MakeCircuitsSpecConnected(conns: seq<Connection>)
    ensures AllConnected(MakeCircuitsSpec(conns), conns)
  {
    if conns != [] {
      var init, conn := conns[..|conns| - 1], conns[|conns| - 1];
      MakeCircuitsSpecConnected(init);
      assert forall c :: c in init ==> c in conns;
      AllConnectedMore(MakeCircuitsSpec(init), init, conns);
      AbsorbConnected(MakeCircuitsSpec(init), conn, conns);
    }
  }

  /** Growing takes in only circuits that meet what has been grown, so connected
      circuits grow into a connected circuit. */
  lemma {:induction false} GrowConnected(s: Circuit, cs: seq<Circuit>, lo: nat, hi: nat, conns: seq<Connection>)
    requires lo <= hi <= |cs|
    requires Connected(s, conns) && AllConnected(cs, conns)
    ensures Connected(Grow(s, cs, lo, hi), conns)
    decreases hi
  {
    if hi > lo {
      GrowConnected(s, cs, lo, hi - 1, conns);
      var t := Grow(s, cs, lo, hi - 1);
      var d := cs[hi - 1];
      if t * d != {} {
        var x :| x in t * d;
        assert Connected(d, conns);
        forall p | p in t + d
          ensures Linked(conns, p, x)
        {
        }
        ConnectedByHub(t + d, conns, x);
      }
    }
  }

  /** A merge pass keeps every circuit connected. */
  lemma MergeSpecConnected(cs: seq<Circuit>, conns: seq<Connection>)
    requires AllConnected(cs, conns)
    ensures AllConnected(MergeSpec(cs), conns)
  {
    var m, ks := MergeSpec(cs), KeptFrom(cs, 0);
    forall k | 0 <= k < |m|
      ensures Connected(m[k], conns)
    {
      GrowConnected(cs[ks[k]], cs, ks[k] + 1, |cs|, conns);
    }
  }

  /** Merging until stable keeps every circuit connected. */
  lemma {:induction false} SettleConnected(cs: seq<Circuit>, conns: seq<Connection>)
    requires AllConnected(cs, conns)
    ensures AllConnected(Settle(cs), conns)
    decreases |cs|
  {
    MergeSpecConnected(cs, conns);
    if |MergeSpec(cs)| != |cs| {
      SettleConnected(MergeSpec(cs), conns);
    }
  }

  // ===========================================================================
  // Lonely boxes and the answer

  predicate Distinct(boxes: seq<JunctionBox>) {
    forall k, l :: 0 <= k < l < |boxes| ==> boxes[k] != boxes[l]
  }

  function BoxSet(boxes: seq<JunctionBox>): set<JunctionBox> {
    set b | b in boxes
  }

  lemma {:induction false} DistinctBoxSet(boxes: seq<JunctionBox>)
    requires Distinct(boxes)
    ensures |BoxSet(boxes)| == |boxes|
  {
    if boxes != [] {
      DistinctBoxSet(boxes[1..]);
      assert BoxSet(boxes) == {boxes[0]} + BoxSet(boxes[1..]);
      assert boxes[0] !in BoxSet(boxes[1..]);
    }
  }

  /** The `lonely_boxes` filter: the boxes no circuit holds, in input order. */
  function LonelyBoxes(boxes: seq<JunctionBox>, cs: seq<Circuit>): (r: seq<JunctionBox>)
    ensures forall b :: b in r <==> b in boxes && b !in Union(cs)
    ensures Distinct(boxes) ==> Distinct(r)
  {
    if boxes == [] then []
    else
      var rest := LonelyBoxes(boxes[1..], cs);
      assert forall b :: b in rest ==> b in boxes[1..];
      if boxes[0] !in Union(cs) then [boxes[0]] + rest else rest
  }

  /** One circuit per lonely box. */
  function Singletons(bs: seq<JunctionBox>): (r: seq<Circuit>)
    ensures |r| == |bs| && forall k :: 0 <= k < |bs| ==> r[k] == {bs[k]}
  {
    seq(|bs|, k requires 0 <= k < |bs| => {bs[k]})
  }

  /** The circuits the answer is computed from: the first `n` connections absorbed,
      merged until stable, and one singleton per box left out. */
  ghost function FinalCircuits(boxes: seq<JunctionBox>, n: nat): seq<Circuit>
    requires n <= |SortedConnections(boxes)|
  {
    var settled := Settle(MakeCircuitsSpec(SortedConnections(boxes)[..n]));
    settled + Singletons(LonelyBoxes(boxes, settled))
  }

  lemma UnionAppend(cs: seq<Circuit>, ds: seq<Circuit>)
    ensures Union(cs + ds) == Union(cs) + Union(ds)
  {
    var e := cs + ds;
    forall p | p in Union(e) ensures p in Union(cs) + Union(ds) {
      var k :| 0 <= k < |e| && p in e[k];
      if k < |cs| { assert p in cs[k]; } else { assert p in ds[k - |cs|]; }
    }
    forall p | p in Union(cs) ensures p in Union(e) {
      var k :| 0 <= k < |cs| && p in cs[k];
      assert p in e[k];
    }
    forall p | p in Union(ds) ensures p in Union(e) {
      var k :| 0 <= k < |ds| && p in ds[k];
      assert p in e[|cs| + k];
    }
  }

  lemma UnionSingletons(bs: seq<JunctionBox>)
    ensures Union(Singletons(bs)) == BoxSet(bs)
  {
    var s := Singletons(bs);
    forall p | p in BoxSet(bs) ensures p in Union(s) {
      var k :| 0 <= k < |bs| && bs[k] == p;
      assert p in s[k];
    }
  }

  lemma EndpointsAreBoxes(boxes: seq<JunctionBox>, n: nat)
    requires n <= |SortedConnections(boxes)|
    ensures Endpoints(SortedConnections(boxes)[..n]) <= BoxSet(boxes)
  {
    var conns := SortedConnections(boxes)[..n];
    forall c | c in conns ensures c.a in BoxSet(boxes) && c.b in BoxSet(boxes) {
      var k :| 0 <= k < n && conns[k] == c;
      assert SortedConnections(boxes)[k] == c;
    }
  }

  /** Every box is in some final circuit, and the final circuits hold nothing else. */
  lemma FinalCircuitsCover(boxes: seq<JunctionBox>, n: nat)
    requires n <= |SortedConnections(boxes)|
    ensures Union(FinalCircuits(boxes, n)) == BoxSet(boxes)
  {
    var made := MakeCircuitsSpec(SortedConnections(boxes)[..n]);
    var settled := Settle(made);
    var lonely := LonelyBoxes(boxes, settled);
    MakeCircuitsSpecUnion(SortedConnections(boxes)[..n]);
    EndpointsAreBoxes(boxes, n);
    SettleUnion(made);
    UnionAppend(settled, Singletons(lonely));
    UnionSingletons(lonely);
  }

  /** No final circuit is empty. */
  lemma FinalCircuitsNonEmpty(boxes: seq<JunctionBox>, n: nat)
    requires n <= |SortedConnections(boxes)|
    ensures forall k :: 0 <= k < |FinalCircuits(boxes, n)| ==> FinalCircuits(boxes, n)[k] != {}
  {
    var made := MakeCircuitsSpec(SortedConnections(boxes)[..n]);
    var settled := Settle(made);
    var singles := Singletons(LonelyBoxes(boxes, settled));
    MakeCircuitsSpecNonEmpty(SortedConnections(boxes)[..n]);
    SettleNonEmpty(made);
    assert FinalCircuits(boxes, n) == settled + singles;
  }

  /** Merging non-empty circuits leaves no circuit empty. */
  lemma SettleNonEmpty(made: seq<Circuit>)
    requires forall i :: 0 <= i < |made| ==> made[i] != {}
    ensures forall k :: 0 <= k < |Settle(made)| ==> Settle(made)[k] != {}
  {
    var settled := Settle(made);
    SettleCovers(made);
    forall k | 0 <= k < |settled| ensures settled[k] != {} {
      assert ContainsOne(settled[k], made);
      var i :| 0 <= i < |made| && made[i] <= settled[k];
      assert made[i] != {};
    }
  }

  /** A circuit of one box is connected. */
  lemma SingletonsConnected(bs: seq<JunctionBox>, conns: seq<Connection>)
    ensures AllConnected(Singletons(bs), conns)
  {
    forall k | 0 <= k < |bs|
      ensures Connected(Singletons(bs)[k], conns)
    {
      LinkedSelf(conns, bs[k]);
      ConnectedByHub(Singletons(bs)[k], conns, bs[k]);
    }
  }

  lemma AllConnectedAppend(cs: seq<Circuit>, ds: seq<Circuit>, conns: seq<Connection>)
    requires AllConnected(cs, conns) && AllConnected(ds, conns)
    ensures AllConnected(cs + ds, conns)
  {
    forall k | 0 <= k < |cs + ds|
      ensures Connected((cs + ds)[k], conns)
    {
      if k < |cs| {
        assert (cs + ds)[k] == cs[k];
      } else {
        assert (cs + ds)[k] == ds[k - |cs|];
      }
    }
  }

  /** Two boxes of one final circuit are linked by a chain of the `n` nearest
      connections: together with `FinalCircuitsJoin` and `FinalCircuitsPartition`,
      the final circuits are exactly the connected groups of boxes. */
  lemma FinalCircuitsConnected(boxes: seq<JunctionBox>, n: nat)
    requires n <= |SortedConnections(boxes)|
    ensures forall k, p, q :: (0 <= k < |FinalCircuits(boxes, n)| && p in FinalCircuits(boxes, n)[k]
              && q in FinalCircuits(boxes, n)[k]) ==> Linked(SortedConnections(boxes)[..n], p, q)
  {
    var conns := SortedConnections(boxes)[..n];
    var settled := Settle(MakeCircuitsSpec(conns));
    MakeCircuitsSpecConnected(conns);
    SettleConnected(MakeCircuitsSpec(conns), conns);
    SingletonsConnected(LonelyBoxes(boxes, settled), conns);
    AllConnectedAppend(settled, Singletons(LonelyBoxes(boxes, settled)), conns);
    var f := FinalCircuits(boxes, n);
    assert AllConnected(f, conns);
    forall k, p, q | 0 <= k < |f| && p in f[k] && q in f[k]
      ensures Linked(conns, p, q)
    {
      assert Connected(f[k], conns);
    }
  }

  /** Both boxes of each of the `n` nearest connections end up in the same circuit. */
  lemma FinalCircuitsJoin(boxes: seq<JunctionBox>, n: nat)
    requires n <= |SortedConnections(boxes)|
    ensures forall k :: 0 <= k < n ==>
      Together(SortedConnections(boxes)[k].a, SortedConnections(boxes)[k].b, FinalCircuits(boxes, n))
  {
    var conns := SortedConnections(boxes);
    var made := MakeCircuitsSpec(conns[..n]);
    var settled := Settle(made);
    var f := FinalCircuits(boxes, n);
    MakeCircuitsSpecJoins(conns[..n]);
    SettleCovers(made);
    assert Refines(settled, f) by {
      forall k | 0 <= k < |settled| ensures Within(settled[k], f) {
        assert f[k] == settled[k];
      }
    }
    RefinesTransitive(made, settled, f);
    forall k | 0 <= k < n ensures Together(conns[k].a, conns[k].b, f) {
      assert conns[..n][k] == conns[k];
      TogetherRefines(conns[k].a, conns[k].b, made, f);
    }
  }

  /** For distinct boxes the final circuits partition them: no two share a box, and
      their sizes add up to the number of boxes. */
  lemma FinalCircuitsPartition(boxes: seq<JunctionBox>, n: nat)
    requires n <= |SortedConnections(boxes)|
    requires Distinct(boxes)
    ensures PairwiseDisjoint(FinalCircuits(boxes, n))
    ensures SizeSum(FinalCircuits(boxes, n)) == |boxes|
  {
    var made := MakeCircuitsSpec(SortedConnections(boxes)[..n]);
    var settled := Settle(made);
    var lonely := LonelyBoxes(boxes, settled);
    var f := FinalCircuits(boxes, n);
    SettleDisjoint(made);
    forall k, l | 0 <= k < l < |f| ensures f[k] * f[l] == {} {
      if l >= |settled| {
        var b := lonely[l - |settled|];
        assert f[l] == {b};
        if k < |settled| {
          assert b !in Union(settled);
          assert b !in settled[k];
        } else {
          assert f[k] == {lonely[k - |settled|]};
        }
      }
    }
    SizeSumDisjoint(f);
    FinalCircuitsCover(boxes, n);
    DistinctBoxSet(boxes);
  }

  /** The sizes of the circuits. */
  function Sizes(cs: seq<Circuit>): (r: seq<nat>)
    ensures |r| == |cs| && forall k :: 0 <= k < |cs| ==> r[k] == |cs[k]|
  {
    seq(|cs|, k requires 0 <= k < |cs| => |cs[k]|)
  }

  predicate Descending(s: seq<nat>) {
    forall k, l :: 0 <= k < l < |s| ==> s[k] >= s[l]
  }

  lemma DescendingCons(x: nat, s: seq<nat>)
    requires Descending(s) && forall l :: 0 <= l < |s| ==> x >= s[l]
    ensures Descending([x] + s)
  {
    var r := [x] + s;
    forall k, l | 0 <= k < l < |r| ensures r[k] >= r[l] {
      assert r[l] == s[l - 1];
      if k > 0 { assert r[k] == s[k - 1]; }
    }
  }

  function InsertDescending(x: nat, s: seq<nat>): (r: seq<nat>)
    ensures multiset(r) == multiset(s) + multiset{x}
  {
    if s == [] || x >= s[0] then [x] + s
    else
      assert s == [s[0]] + s[1..];
      [s[0]] + InsertDescending(x, s[1..])
  }

  lemma {:induction false} InsertDescendingSorted(x: nat, s: seq<nat>)
    requires Descending(s)
    ensures Descending(InsertDescending(x, s))
  {
    if s == [] || x >= s[0] {
      DescendingCons(x, s);
    } else {
      InsertDescendingSorted(x, s[1..]);
      var rest := InsertDescending(x, s[1..]);
      forall l | 0 <= l < |rest| ensures s[0] >= rest[l] {
        assert rest[l] in multiset(rest);
        if rest[l] != x {
          assert rest[l] in multiset(s[1..]);
          var m :| 0 <= m < |s[1..]| && s[1..][m] == rest[l];
          assert s[m + 1] == rest[l];
        }
      }
      DescendingCons(s[0], rest);
    }
  }

  /** `sorted_by_key(len)` followed by `rev`: the sizes, largest first. */
  function SortDescending(s: seq<nat>): (r: seq<nat>)
    ensures multiset(r) == multiset(s)
    ensures Descending(r)
  {
    if s == [] then []
    else
      assert s == [s[0]] + s[1..];
      var rest := SortDescending(s[1..]);
      InsertDescendingSorted(s[0], rest);
      InsertDescending(s[0], rest)
  }

  function Product(s: seq<nat>): nat {
    if s == [] then 1 else s[0] * Product(s[1..])
  }

  lemma {:induction false} ProductPositive(s: seq<nat>)
    requires forall k :: 0 <= k < |s| ==> s[k] >= 1
    ensures Product(s) >= 1
  {
    if s != [] {
      ProductPositive(s[1..]);
    }
  }

  /** The `take(3)` + `fold(1, …)`: the product of up to three largest sizes. */
  function ThreeLargestProduct(cs: seq<Circuit>): nat {
    var sorted := SortDescending(Sizes(cs));
    Product(sorted[..if |sorted| < 3 then |sorted| else 3])
  }

  lemma DescendingSplit(s: seq<nat>, m: nat)
    requires Descending(s) && m <= |s|
    ensures forall x, y :: x in s[..m] && y in s[m..] ==> x >= y
  {
    forall x, y | x in s[..m] && y in s[m..] ensures x >= y {
      var i :| 0 <= i < m && s[..m][i] == x;
      var j :| 0 <= j < |s| - m && s[m..][j] == y;
      assert s[i] == x && s[m + j] == y;
    }
  }

  /** A prefix of a descending arrangement of `s` holds elements of `s`, none
      smaller than any element of `s` it leaves out. */
  lemma DescendingPrefix(s: seq<nat>, sorted: seq<nat>, m: nat)
    requires multiset(sorted) == multiset(s) && Descending(sorted) && m <= |sorted|
    ensures multiset(sorted[..m]) <= multiset(s)
    ensures forall x, y :: x in sorted[..m] && y in multiset(s) - multiset(sorted[..m]) ==> x >= y
  {
    var top, rest := sorted[..m], sorted[m..];
    assert sorted == top + rest;
    assert multiset(s) - multiset(top) == multiset(rest);
    DescendingSplit(sorted, m);
    forall x, y | x in top && y in multiset(s) - multiset(top) ensures x >= y {
      assert y in rest;
    }
  }

  /** The answer multiplies min(3, number of circuits) of the circuit sizes, each at
      least as large as every size left out; it is 1 when there is no circuit. */
  lemma ThreeLargestProductSpec(cs: seq<Circuit>)
    ensures exists top: seq<nat> ::
      && |top| == (if |cs| < 3 then |cs| else 3)
      && multiset(top) <= multiset(Sizes(cs))
      && ThreeLargestProduct(cs) == Product(top)
      && forall x, y :: x in top && y in multiset(Sizes(cs)) - multiset(top) ==> x >= y
  {
    var sorted := SortDescending(Sizes(cs));
    var m := if |sorted| < 3 then |sorted| else 3;
    DescendingPrefix(Sizes(cs), sorted, m);
    var top := sorted[..m];
    assert |top| == (if |cs| < 3 then |cs| else 3) by {
      assert |sorted| == |multiset(sorted)| == |Sizes(cs)|;
    }
  }

  /** When no circuit is empty, the answer is at least 1. */
  lemma ThreeLargestProductPositive(cs: seq<Circuit>)
    requires forall k :: 0 <= k < |cs| ==> cs[k] != {}
    ensures ThreeLargestProduct(cs) >= 1
  {
    var sorted := SortDescending(Sizes(cs));
    var m := if |sorted| < 3 then |sorted| else 3;
    forall k | 0 <= k < m ensures sorted[..m][k] >= 1 {
      assert sorted[k] in multiset(Sizes(cs));
      var i :| 0 <= i < |cs| && Sizes(cs)[i] == sorted[k];
      assert cs[i] != {};
    }
    ProductPositive(sorted[..m]);
  }

  /** The `while merged` loop of multiplied_three_largest_circuits: passes of
      merge_circuits until one leaves the number of circuits unchanged. */
  method MergeUntilStable(circuits: seq<Circuit>) returns (mergedCircuits: seq<Circuit>)
    ensures mergedCircuits == Settle(circuits)
  {
    var merged := true;
    mergedCircuits := circuits;
    while merged
      invariant merged ==> Settle(mergedCircuits) == Settle(circuits)
      invariant !merged ==> mergedCircuits == Settle(circuits)
      decreases if merged then |mergedCircuits| + 1 else 0
    {
      var before := |mergedCircuits|;
      mergedCircuits := MergeCircuits(mergedCircuits);
      merged := before != |mergedCircuits|;
    }
  }

  /** The loop pushing one singleton circuit per lonely box. */
  method PadWithSingletons(circuits: seq<Circuit>, lonely: seq<JunctionBox>) returns (padded: seq<Circuit>)
    ensures padded == circuits + Singletons(lonely)
  {
    padded := circuits;
    for k := 0 to |lonely|
      invariant padded == circuits + Singletons(lonely[..k])
    {
      padded := padded + [{lonely[k]}];
    }
    assert lonely[..|lonely|] == lonely;
  }

  /** `multiplied_three_largest_circuits`: the product of the sizes of the three
      largest circuits after connecting the `n` nearest pairs of boxes; taking more
      connections than there are panics. */
  method MultipliedThreeLargestCircuits(boxes: seq<JunctionBox>, n: nat) returns (product: nat)
    requires n <= |SortedConnections(boxes)|
    ensures product == ThreeLargestProduct(FinalCircuits(boxes, n))
    ensures product >= 1
  {
    var connections := SortedConnections(boxes);
    var circuits := MakeCircuits(connections, n);

    var mergedCircuits := MergeUntilStable(circuits);
    var lonely := LonelyBoxes(boxes, mergedCircuits);
    mergedCircuits := PadWithSingletons(mergedCircuits, lonely);
    assert mergedCircuits == FinalCircuits(boxes, n);

    product := ThreeLargestProduct(mergedCircuits);
    FinalCircuitsNonEmpty(boxes, n);
    ThreeLargestProductPositive(mergedCircuits);
  }
}

=== FILE: dial.dfy ===
/** The safe's dial: positions 0 to 99, starting at 50. A rotation to the left
    counts down and one to the right counts up, wrapping around; the password is
    the number of rotations after which the dial shows 0. */
module SafeDial {
  import opened Wrappers
  import opened Text

  /** The position a dial of `size` positions shows after turning `distance` from
      `position`: `rem_euclid` of the sum. */
  function Turn(position: int, distance: int, size: nat): (p: nat)
    requires size > 0
    ensures p < size
  {
    (position + distance) % size
  }

  /** The new position differs from the sum by a whole number of turns. */
  lemma TurnCongruent(position: int, distance: int, size: nat)
    requires size > 0
    ensures exists q: int :: position + distance == q * size + Turn(position, distance, size)
  {
    var q := (position + distance) / size;
    assert position + distance == q * size + Turn(position, distance, size);
  }

  /** Two turns in a row are one turn by their sum. */
  lemma TurnCompose(position: int, a: int, b: int, size: nat)
    requires size > 0
    ensures Turn(Turn(position, a, size), b, size) == Turn(position, a + b, size)
  {
    var s := position + a;
    var q := s / size;
    assert s == q * size + s % size;
    ModAddMultiple(s % size + b, q, size);
    assert s % size + b + q * size == position + a + b;
  }

  lemma ModAddMultiple(x: int, q: int, size: nat)
    requires size > 0
    ensures (x + q * size) % size == x % size
  {
    var y := x + q * size;
    var d1, d2 := x / size, y / size;
    assert x == d1 * size + x % size;
    assert y == d2 * size + y % size;
    assert y % size - x % size == (d1 + q - d2) * size by {
      assert d1 * size + q * size - d2 * size == (d1 + q - d2) * size;
    }
    MultipleSmall(d1 + q - d2, size);
  }

  /** The only multiple of `size` strictly between `-size` and `size` is 0. */
  lemma MultipleSmall(a: int, size: nat)
    requires size > 0 && -(size as int) < a * size < size
    ensures a == 0
  {
  }

  /** Turning back by the same distance restores a position of the dial. */
  lemma TurnBack(position: nat, distance: int, size: nat)
    requires position < size
    ensures Turn(Turn(position, distance, size), -distance, size) == position
  {
    TurnCompose(position, distance, -distance, size);
    assert distance + -distance == 0;
    assert Turn(position, 0, size) == position;
  }

  /** Whole turns leave a position of the dial where it is. */
  lemma TurnWhole(position: nat, q: int, size: nat)
    requires position < size
    ensures Turn(position, q * size, size) == position
  {
    ModAddMultiple(position, q, size);
  }

  /** `Dial`: the position it shows and the largest number on it. */
  class Dial {
    var position: nat
    const maxNumber: nat

    /** `Dial::new`: 100 positions, showing 50. */
    constructor ()
      ensures position == 50 && maxNumber == 99
    {
      position := 50;
      maxNumber := 99;
    }

    /** `rotate`: turns the dial by `distance` (negative to the left) and returns
        the position it now shows. */
    method Rotate(distance: int) returns (p: nat)
      modifies this
      ensures position == Turn(old(position), distance, maxNumber + 1)
      ensures p == position && p <= maxNumber
    {
      position := (position + distance) % (maxNumber + 1);
      p := position;
    }
  }

  /** The position after all the rotations, one after another. */
  function After(start: nat, rotations: seq<int>, size: nat): (p: nat)
    requires size > 0
  {
    if rotations == [] then start
    else Turn(After(start, rotations[..|rotations| - 1], size), rotations[|rotations| - 1], size)
  }

  function SumInts(xs: seq<int>): int {
    if xs == [] then 0 else SumInts(xs[..|xs| - 1]) + xs[|xs| - 1]
  }

  /** Where the dial stops depends only on the total distance turned. */
  lemma {:induction false} AfterIsTotal(start: nat, rotations: seq<int>, size: nat)
    requires start < size
    ensures After(start, rotations, size) == Turn(start, SumInts(rotations), size)
  {
    if rotations == [] {
      TurnWhole(start, 0, size);
    } else {
      var init := rotations[..|rotations| - 1];
      AfterIsTotal(start, init, size);
      TurnCompose(start, SumInts(init), rotations[|rotations| - 1], size);
    }
  }

  /** How many of the rotations leave the dial at 0. */
  function ZeroCount(start: nat, rotations: seq<int>, size: nat): (n: nat)
    requires size > 0
    ensures n <= |rotations|
  {
    if rotations == [] then 0
    else
      ZeroCount(start, rotations[..|rotations| - 1], size)
        + (if After(start, rotations, size) == 0 then 1 else 0)
  }

  /** Every rotation by whole turns from 0 counts; none counts from elsewhere. */
  lemma {:induction false} ZeroCountWholeTurns(start: nat, rotations: seq<int>, size: nat)
    requires start < size
    requires forall k :: 0 <= k < |rotations| ==> rotations[k] % size == 0
    ensures ZeroCount(start, rotations, size) == if start == 0 then |rotations| else 0
    ensures After(start, rotations, size) == start
  {
    if rotations != [] {
      var init := rotations[..|rotations| - 1];
      var last := rotations[|rotations| - 1];
      ZeroCountWholeTurns(start, init, size);
      assert last == (last / size) * size;
      TurnWhole(start, last / size, size);
    }
  }

  /** The loop of `what_is_the_password_to_open_the_door`: a new dial, every
      rotation applied in order, the rotations ending at 0 counted. */
  method CountZeros(rotations: seq<int>) returns (count: nat)
    ensures count == ZeroCount(50, rotations, 100)
  {
    var dial := new Dial();
    count := 0;
    for k := 0 to |rotations|
      invariant dial.maxNumber == 99
      invariant dial.position == After(50, rotations[..k], 100)
      invariant count == ZeroCount(50, rotations[..k], 100)
    {
      var p := dial.Rotate(rotations[k]);
      assert rotations[..k + 1][..k] == rotations[..k];
      if p == 0 {
        count := count + 1;
      }
    }
    assert rotations[..|rotations|] == rotations;
  }

  /** `parse_rotation`: 'L' then a distance turns left (negative), 'R' then a
      distance turns right. `None` where the program panics: an empty line, a
      distance that is not a number, any other direction. */
  function ParseRotation(line: string): (r: Option<int>)
    ensures r.Some? <==> |line| >= 1 && (line[0] == 'L' || line[0] == 'R') && ParseInteger(line[1..]).Some?
    ensures r.Some? && line[0] == 'L' ==> r.value == -ParseInteger(line[1..]).value
    ensures r.Some? && line[0] == 'R' ==> r.value == ParseInteger(line[1..]).value
  {
    if |line| == 0 then None
    else
      match ParseInteger(line[1..])
      case None => None
      case Some(distance) =>
        if line[0] == 'L' then Some(-distance)
        else if line[0] == 'R' then Some(distance)
        else None
  }

  /** A rotation as the puzzle writes it: the direction, then the distance. */
  function FormatRotation(distance: int): string {
    if distance < 0 then "L" + NatToString(-distance) else "R" + NatToString(distance)
  }

  /** Parsing a written rotation gives it back. */
  lemma ParseFormatRotation(distance: int)
    ensures ParseRotation(FormatRotation(distance)) == Some(distance)
  {
    var line := FormatRotation(distance);
    var d: nat := if distance < 0 then -distance else distance;
    assert line[1..] == NatToString(d);
    ParseUnsignedToString(d);
  }

  /** `parse_input`: one rotation per line; `None` if any line does not parse. */
  function ParseInput(lines: seq<string>): (r: Option<seq<int>>)
    ensures r.Some? <==> forall k :: 0 <= k < |lines| ==> ParseRotation(lines[k]).Some?
    ensures r.Some? ==> |r.value| == |lines| && forall k :: 0 <= k < |lines| ==> r.value[k] == ParseRotation(lines[k]).value
  {
    if lines == [] then Some([])
    else
      match (ParseRotation(lines[0]), ParseInput(lines[1..]))
      case (Some(d), Some(ds)) => Some([d] + ds)
      case _ => None
  }

  /** `what_is_the_password_to_open_the_door`: the rotations on the lines, applied
      to a new dial; the password is how many of them end at 0. */
  method Password(lines: seq<string>) returns (r: Option<nat>)
    ensures r.None? <==> ParseInput(lines).None?
    ensures r.Some? ==> r.value == ZeroCount(50, ParseInput(lines).value, 100)
    ensures r.Some? ==> r.value <= |lines|
  {
    match ParseInput(lines)
    case None =>
      r := None;
    case Some(rotations) =>
      var count := CountZeros(rotations);
      r := Some(count);
  }
}

=== FILE: freshness.dfy ===
/** The cafeteria's inventory: a list of inclusive ranges of fresh ingredient
    ids, a blank line, then the available ids. The answer is how many available
    ids fall in at least one range. */
module Freshness {
  import opened Wrappers
  import opened Text

  /** `Range`: the ids `from` to `to`, both included. */
  datatype Range = Range(from: nat, to: nat)

  /** `Range::in_range`. */
  predicate InRange(r: Range, id: nat) {
    r.from <= id <= r.to
  }

  /** Both ends of a range belong to it; nothing outside does. */
  lemma InRangeInclusive(r: Range, id: nat)
    ensures r.from <= r.to ==> InRange(r, r.from) && InRange(r, r.to)
    ensures id < r.from || r.to < id ==> !InRange(r, id)
  {
  }

  /** The id lies in one of the ranges: `ranges.iter().any(..)`. */
  predicate IsFresh(ranges: seq<Range>, id: nat) {
    exists k :: 0 <= k < |ranges| && InRange(ranges[k], id)
  }

  /** `ids.iter().filter(..).count()`: the fresh ids, each occurrence counted. */
  function FreshCount(ranges: seq<Range>, ids: seq<nat>): (n: nat)
    ensures n <= |ids|
  {
    if ids == [] then 0
    else FreshCount(ranges, ids[..|ids| - 1]) + (if IsFresh(ranges, ids[|ids| - 1]) then 1 else 0)
  }

  /** Counting two lists of ids is counting each: a repeated id counts as often
      as it appears. */
  lemma {:induction false} FreshCountAppend(ranges: seq<Range>, ids: seq<nat>, more: seq<nat>)
    ensures FreshCount(ranges, ids + more) == FreshCount(ranges, ids) + FreshCount(ranges, more)
    decreases |more|
  {
    if more == [] {
      assert ids + more == ids;
    } else {
      var init := more[..|more| - 1];
      assert (ids + more)[..|ids + more| - 1] == ids + init;
      FreshCountAppend(ranges, ids, init);
    }
  }

  /** Every id counts exactly when it is fresh. */
  lemma {:induction false} FreshCountAll(ranges: seq<Range>, ids: seq<nat>)
    ensures FreshCount(ranges, ids) == |ids| <==> forall k :: 0 <= k < |ids| ==> IsFresh(ranges, ids[k])
    ensures FreshCount(ranges, ids) == 0 <==> forall k :: 0 <= k < |ids| ==> !IsFresh(ranges, ids[k])
  {
    if ids != [] {
      var init := ids[..|ids| - 1];
      FreshCountAll(ranges, init);
      assert forall k :: 0 <= k < |init| ==> init[k] == ids[k];
    }
  }

  /** One more range never makes fewer ids fresh. */
  lemma {:induction false} FreshCountMoreRanges(ranges: seq<Range>, r: Range, ids: seq<nat>)
    ensures FreshCount(ranges, ids) <= FreshCount(ranges + [r], ids)
  {
    if ids != [] {
      FreshCountMoreRanges(ranges, r, ids[..|ids| - 1]);
      var id := ids[|ids| - 1];
      if IsFresh(ranges, id) {
        var k :| 0 <= k < |ranges| && InRange(ranges[k], id);
        assert (ranges + [r])[k] == ranges[k];
      }
    }
  }

  /** `parse_range`: the number before the first '-' and the number after it;
      `None` where the program panics. */
  function ParseRange(line: string): (r: Option<Range>)
    ensures r.Some? <==> SplitOnce(line, '-').Some?
                         && ParseUnsigned(SplitOnce(line, '-').value.0).Some?
                         && ParseUnsigned(SplitOnce(line, '-').value.1).Some?
  {
    match SplitOnce(line, '-')
    case None => None
    case Some((from, to)) =>
      match (ParseUnsigned(from), ParseUnsigned(to))
      case (Some(f), Some(t)) => Some(Range(f, t))
      case _ => None
  }

  function FormatRange(r: Range): string {
    NatToString(r.from) + "-" + NatToString(r.to)
  }

  lemma ParseFormatRange(r: Range)
    ensures ParseRange(FormatRange(r)) == Some(r)
  {
    var a, b := NatToString(r.from), NatToString(r.to);
    NumeralWithout(a, '-');
    assert FormatRange(r) == a + ['-'] + b;
    SplitOnceOf(a, '-', b);
    ParseUnsignedToString(r.from);
    ParseUnsignedToString(r.to);
  }

  function ParseRanges(lines: seq<string>): (r: Option<seq<Range>>)
    ensures r.Some? <==> forall k :: 0 <= k < |lines| ==> ParseRange(lines[k]).Some?
    ensures r.Some? ==> |r.value| == |lines| && forall k :: 0 <= k < |lines| ==> r.value[k] == ParseRange(lines[k]).value
  {
    if lines == [] then Some([])
    else
      match (ParseRange(lines[0]), ParseRanges(lines[1..]))
      case (Some(r), Some(rs)) => Some([r] + rs)
      case _ => None
  }

  /** `parse_id` on every line. */
  function ParseIds(lines: seq<string>): (r: Option<seq<nat>>)
    ensures r.Some? <==> forall k :: 0 <= k < |lines| ==> ParseUnsigned(lines[k]).Some?
    ensures r.Some? ==> |r.value| == |lines| && forall k :: 0 <= k < |lines| ==> r.value[k] == ParseUnsigned(lines[k]).value
  {
    if lines == [] then Some([])
    else
      match (ParseUnsigned(lines[0]), ParseIds(lines[1..]))
      case (Some(id), Some(ids)) => Some([id] + ids)
      case _ => None
  }

  /** `parse_lines`: the lines before the first empty line are ranges, those up
      to the next empty line are ids, and anything after that is ignored. `None`
      where the program panics: no empty line, or a line that does not parse. */
  function ParseLines(lines: seq<string>): (r: Option<(seq<Range>, seq<nat>)>)
    ensures r.Some? ==> |Split(lines, "")| >= 2
    ensures r.Some? ==> Some(r.value.0) == ParseRanges(Split(lines, "")[0])
    ensures r.Some? ==> Some(r.value.1) == ParseIds(Split(lines, "")[1])
    ensures |Split(lines, "")| >= 2 && ParseRanges(Split(lines, "")[0]).Some? && ParseIds(Split(lines, "")[1]).Some?
            ==> r.Some?
  {
    var parts := Split(lines, "");
    if |parts| < 2 then None
    else
      match (ParseRanges(parts[0]), ParseIds(parts[1]))
      case (Some(ranges), Some(ids)) => Some((ranges, ids))
      case _ => None
  }

  /** Lines without a blank one give no ids: the program panics. */
  lemma NoBlankLineNoIds(lines: seq<string>)
    requires "" !in lines
    ensures ParseLines(lines) == None
  {
    SplitOfPiece(lines, "");
  }

  /** The inventory as the puzzle writes it: ranges, a blank line, ids. */
  function FormatLines(ranges: seq<Range>, ids: seq<nat>): seq<string> {
    seq(|ranges|, k requires 0 <= k < |ranges| => FormatRange(ranges[k]))
      + [""]
      + seq(|ids|, k requires 0 <= k < |ids| => NatToString(ids[k]))
  }

  /** Reading a written inventory gives its ranges and ids back, in order. */
  lemma ParseFormatLines(ranges: seq<Range>, ids: seq<nat>)
    ensures ParseLines(FormatLines(ranges, ids)) == Some((ranges, ids))
  {
    var rs := seq(|ranges|, k requires 0 <= k < |ranges| => FormatRange(ranges[k]));
    var ls := seq(|ids|, k requires 0 <= k < |ids| => NatToString(ids[k]));
    assert "" !in rs;
    assert "" !in ls;
    SplitAfterPiece(rs, "", ls);
    SplitOfPiece(ls, "");
    var parts := Split(FormatLines(ranges, ids), "");
    assert parts == [rs, ls];
    forall k | 0 <= k < |ranges| ensures ParseRange(rs[k]) == Some(ranges[k]) {
      ParseFormatRange(ranges[k]);
    }
    forall k | 0 <= k < |ids| ensures ParseUnsigned(ls[k]) == Some(ids[k]) {
      ParseUnsignedToString(ids[k]);
    }
    assert ParseRanges(rs).value == ranges;
    assert ParseIds(ls).value == ids;
  }

  /** `how_many_ids_are_fresh`: the available ids that fall in some range. */
  function HowManyIdsAreFresh(lines: seq<string>): (r: Option<nat>)
    ensures r.Some? <==> ParseLines(lines).Some?
    ensures r.Some? ==> r.value == FreshCount(ParseLines(lines).value.0, ParseLines(lines).value.1)
    ensures r.Some? ==> r.value <= |Split(lines, "")[1]|
  {
    match ParseLines(lines)
    case None => None
    case Some((ranges, ids)) => Some(FreshCount(ranges, ids))
  }
}

=== FILE: grid.dfy ===
/** The grid toolkit shared by the puzzles: unsigned cell addresses (`Coords`),
    signed offsets (`ICoords`) and a ragged character grid (`CartesianGrid`) that
    can be read, enumerated in row-major order and updated one cell at a time.

    Machine widths are not modelled: `usize` and `isize` become `nat` and `int`. */
module Grid {
  import opened Wrappers

  /** `Coords(usize, usize)`: the cell in column `x` of row `y`. */
  datatype Coords = Coords(x: nat, y: nat)

  /** `ICoords(isize, isize)`: a signed address, possibly outside every grid. */
  datatype ICoords = ICoords(x: int, y: int)

  /** The `as isize` conversion of both components. */
  function Signed(c: Coords): ICoords {
    ICoords(c.x, c.y)
  }

  // ---------------------------------------------------------------------------
  // Coordinate arithmetic

  /** `Coords::sub_x` */
  function SubX(c: Coords, v: int): ICoords {
    ICoords(c.x - v, c.y)
  }

  /** `Coords::add_x` */
  function AddX(c: Coords, v: nat): ICoords {
    ICoords(c.x + v, c.y)
  }

  /** `Coords::sub_y` */
  function SubY(c: Coords, v: int): ICoords {
    ICoords(c.x, c.y - v)
  }

  /** `Coords::add_y` */
  function AddY(c: Coords, v: nat): ICoords {
    ICoords(c.x, c.y + v)
  }

  /** `Add<Coords> for Coords` */
  function Add(c: Coords, d: Coords): Coords {
    Coords(c.x + d.x, c.y + d.y)
  }

  /** `Add<ICoords> for Coords` (by value and by reference): the result is signed. */
  function AddOffset(c: Coords, d: ICoords): ICoords {
    ICoords(c.x + d.x, c.y + d.y)
  }

  /** `Sub<ICoords> for &Coords` */
  function SubOffset(c: Coords, d: ICoords): ICoords {
    ICoords(c.x - d.x, c.y - d.y)
  }

  /** `Sub<Coords> for Coords` (by value and by reference): the signed difference. */
  function Diff(c: Coords, d: Coords): ICoords {
    ICoords(c.x - d.x, c.y - d.y)
  }

  /** `Mul<i32> for Coords`, for a non-negative factor. */
  function Scale(c: Coords, n: nat): Coords {
    Coords(c.x * n, c.y * n)
  }

  /** `Mul<i32>`, `Mul<isize>` and `Mul<usize>` for `ICoords`. */
  function ScaleOffset(c: ICoords, n: int): ICoords {
    ICoords(c.x * n, c.y * n)
  }

  /** Adding the difference `d - c` to `c` lands on `d`; subtracting an offset undoes
      adding it; the four axis steps are offsets along one axis. */
  lemma OffsetArithmetic(c: Coords, d: Coords, o: ICoords, v: nat)
    ensures AddOffset(c, Diff(d, c)) == Signed(d)
    ensures ToCoords(AddOffset(c, Diff(d, c))) == Some(d)
    ensures SubOffset(c, o) == AddOffset(c, ScaleOffset(o, -1))
    ensures AddX(c, v) == AddOffset(c, ICoords(v, 0)) && SubX(c, v) == AddOffset(c, ICoords(-(v as int), 0))
    ensures AddY(c, v) == AddOffset(c, ICoords(0, v)) && SubY(c, v) == AddOffset(c, ICoords(0, -(v as int)))
    ensures Signed(Add(c, d)) == AddOffset(c, Signed(d))
    ensures Signed(Scale(c, v)) == ScaleOffset(Signed(c), v)
  {
  }

  /** `ICoords::rem_euclid(x, y)`: both components reduced into `[0, x) × [0, y)`
      (Dafny's `%` is Euclidean, like Rust's `rem_euclid`); a zero modulus panics. */
  function RemEuclid(c: ICoords, x: nat, y: nat): (r: Coords)
    requires x > 0 && y > 0
    ensures r.x < x && r.y < y
    ensures c.x == (c.x / x) * x + r.x && c.y == (c.y / y) * y + r.y
  {
    Coords(c.x % x, c.y % y)
  }

  /** Reducing an already reduced address changes nothing. */
  lemma RemEuclidIdempotent(c: ICoords, x: nat, y: nat)
    requires x > 0 && y > 0
    ensures RemEuclid(Signed(RemEuclid(c, x, y)), x, y) == RemEuclid(c, x, y)
  {
  }

  /** `ICoords::to_coords`: `Some` exactly when both components are non-negative,
      and then with the same values. */
  function ToCoords(c: ICoords): (r: Option<Coords>)
    ensures r.Some? <==> c.x >= 0 && c.y >= 0
    ensures r.Some? ==> Signed(r.value) == c
  {
    if c.x >= 0 && c.y >= 0 then Some(Coords(c.x, c.y)) else None
  }

  /** Row-major order: by row, then by column. */
  predicate RowMajorLess(a: Coords, b: Coords) {
    a.y < b.y || (a.y == b.y && a.x < b.x)
  }

  /** The number of cells of a ragged grid: the sum of its row lengths. */
  function CellCount<T>(rows: seq<seq<T>>): nat {
    if rows == [] then 0 else |rows[0]| + CellCount(rows[1..])
  }

  /** `CartesianGrid<T>`: rows of cells, row `y` holding columns `0 .. |grid[y]|`. */
  class CartesianGrid<T(==)> {
    var grid: seq<seq<T>>

    /** `CartesianGrid::from`: one row per input line. */
    constructor From(rows: seq<seq<T>>)
      ensures grid == rows
    {
      grid := rows;
    }

    /** `GridCoords::in_grid` for `Coords`. */
    predicate CoordsInGrid(c: Coords)
      reads this
    {
      c.y < |grid| && c.x < |grid[c.y]|
    }

    /** `CartesianGrid::in_grid` and `GridCoords::in_grid` for `ICoords` (the same test). */
    predicate InGrid(c: ICoords)
      reads this
    {
      0 <= c.y < |grid| && 0 <= c.x < |grid[c.y]|
    }

    /** The signed and unsigned tests agree, and a signed address in the grid converts. */
    lemma InGridAgrees(c: Coords, i: ICoords)
      ensures InGrid(Signed(c)) <==> CoordsInGrid(c)
      ensures InGrid(i) ==> ToCoords(i).Some? && CoordsInGrid(ToCoords(i).value)
    {
    }

    /** `CartesianGrid::height`: the number of rows, so that a cell is in the grid
        exactly when its row is below the height and its column within that row. */
    function Height(): (h: nat)
      reads this
      ensures h == |grid|
      ensures forall c :: CoordsInGrid(c) ==> c.y < h
    {
      |grid|
    }

    /** `CartesianGrid::get`; an address outside the grid panics. */
    function Get(c: Coords): T
      reads this
      requires CoordsInGrid(c)
    {
      grid[c.y][c.x]
    }

    /** `CartesianGrid::set`: only the addressed cell changes. */
    method Set(c: Coords, v: T)
      requires CoordsInGrid(c)
      modifies this
      ensures grid == old(grid)[c.y := old(grid)[c.y][c.x := v]]
      ensures |grid| == old(|grid|) && forall y :: 0 <= y < |grid| ==> |grid[y]| == |old(grid)[y]|
      ensures Get(c) == v
      ensures forall d :: CoordsInGrid(d) && d != c ==> Get(d) == old(grid)[d.y][d.x]
    {
      grid := grid[c.y := grid[c.y][c.x := v]];
    }

    /** `CartesianGrid::coords_at_y`: the cells of row `y`, left to right. */
    function CoordsAtY(y: nat): (r: seq<Coords>)
      reads this
      requires y < |grid|
      ensures |r| == |grid[y]|
      ensures forall c :: c in r <==> CoordsInGrid(c) && c.y == y
      ensures forall i :: 0 <= i < |r| ==> r[i].x == i && r[i].y == y
    {
      var n := |grid[y]|;
      var r := seq(n, i requires 0 <= i < n => Coords(i, y));
      assert forall c :: CoordsInGrid(c) && c.y == y ==> r[c.x] == c;
      r
    }

    /** The cells of rows `y ..` in row-major order. */
    function CoordsFrom(y: nat): (r: seq<Coords>)
      reads this
      requires y <= |grid|
      ensures |r| == CellCount(grid[y..])
      ensures forall c :: c in r <==> CoordsInGrid(c) && c.y >= y
      ensures forall i, j :: 0 <= i < j < |r| ==> RowMajorLess(r[i], r[j])
      decreases |grid| - y
    {
      if y == |grid| then []
      else
        var row, rest := CoordsAtY(y), CoordsFrom(y + 1);
        assert grid[y..][1..] == grid[y + 1..];
        assert forall i :: 0 <= i < |rest| ==> rest[i] in rest;
        row + rest
    }

    /** `CartesianGrid::coords`: every cell exactly once, in row-major order. */
    function AllCoords(): (r: seq<Coords>)
      reads this
      ensures |r| == CellCount(grid)
      ensures forall c :: c in r <==> CoordsInGrid(c)
      ensures forall i, j :: 0 <= i < j < |r| ==> RowMajorLess(r[i], r[j])
    {
      assert grid[0..] == grid;
      CoordsFrom(0)
    }

    /** The position of the first cell of `cs` holding `v`. */
    function FirstHolding(cs: seq<Coords>, v: T): (k: nat)
      reads this
      requires forall c :: c in cs ==> CoordsInGrid(c)
      ensures k <= |cs|
      ensures forall i :: 0 <= i < k ==> Get(cs[i]) != v
      ensures k < |cs| ==> Get(cs[k]) == v
    {
      if cs == [] then 0
      else if Get(cs[0]) == v then 0
      else 1 + FirstHolding(cs[1..], v)
    }

    /** `CartesianGrid::find_one_coords`: the first cell in row-major order holding
        `v`, or `None` when no cell holds it. */
    function FindOneCoords(v: T): (r: Option<Coords>)
      reads this
      ensures r.None? <==> forall c :: CoordsInGrid(c) ==> Get(c) != v
      ensures r.Some? ==> CoordsInGrid(r.value) && Get(r.value) == v
      ensures r.Some? ==> forall c :: CoordsInGrid(c) && RowMajorLess(c, r.value) ==> Get(c) != v
    {
      var cs := AllCoords();
      var k := FirstHolding(cs, v);
      if k == |cs| then
        assert forall c :: CoordsInGrid(c) ==> Get(c) != v by {
          forall c | CoordsInGrid(c) ensures Get(c) != v {
            var i :| 0 <= i < |cs| && cs[i] == c;
          }
        }
        None
      else
        assert forall c :: CoordsInGrid(c) && RowMajorLess(c, cs[k]) ==> Get(c) != v by {
          forall c | CoordsInGrid(c) && RowMajorLess(c, cs[k]) ensures Get(c) != v {
            var i :| 0 <= i < |cs| && cs[i] == c;
            assert i < k;
          }
        }
        Some(cs[k])
    }

    /** `CartesianGrid::is_boundary`. The requires clause is exactly what keeps the
        source from panicking: `height - 1` and `row.len() - 1` are unsigned, and the
        row is only looked up when the earlier tests fail. */
    predicate IsBoundary(c: Coords)
      reads this
      requires c.y == 0 || (|grid| > 0 && (c.y == |grid| - 1 || c.x == 0 || (c.y < |grid| && |grid[c.y]| > 0)))
    {
      c.y == 0 || c.y == |grid| - 1 || c.x == 0 || c.x == |grid[c.y]| - 1
    }

    /** Every cell of the grid can be asked, and it is on the boundary unless it lies
        strictly inside both its column range and the rows. */
    lemma BoundaryOfCell(c: Coords)
      requires CoordsInGrid(c)
      ensures IsBoundary.requires(c)
      ensures !IsBoundary(c) <==> 0 < c.y < |grid| - 1 && 0 < c.x < |grid[c.y]| - 1
    {
    }

    /** `CartesianGrid::get_coords_between`, as written: the cells from `from` toward
        `to`, `from` included and `to` excluded, for a horizontal or vertical pair;
        nothing for a diagonal pair. The vertical branch builds `Coords(from.1, y)`,
        so its cells take their column from `from`'s ROW. */
    function CoordsBetween(from: Coords, to: Coords): (r: seq<Coords>)
      ensures from.x == to.x ==> |r| == Dist(from.y, to.y)
      ensures from.x == to.x ==> forall k :: 0 <= k < |r| ==> r[k].x == from.y && r[k].y == Toward(from.y, to.y, k)
      ensures from.x != to.x && from.y == to.y ==> |r| == Dist(from.x, to.x)
      ensures from.x != to.x && from.y == to.y ==> forall k :: 0 <= k < |r| ==> r[k].x == Toward(from.x, to.x, k) && r[k].y == from.y
      ensures from.x != to.x && from.y != to.y ==> r == []
    {
      if from.x == to.x then
        if from.y < to.y then seq(to.y - from.y, i requires 0 <= i => Coords(from.y, from.y + i))
        else seq(from.y - to.y, i requires 0 <= i < from.y - to.y => Coords(from.y, from.y - i))
      else if from.y == to.y then
        if from.x < to.x then seq(to.x - from.x, i requires 0 <= i => Coords(from.x + i, from.y))
        else seq(from.x - to.x, i requires 0 <= i < from.x - to.x => Coords(from.x - i, from.y))
      else []
    }

    /** `get_coords_between` with the column of a vertical run taken from `from.0`. */
    function CoordsBetweenCorrected(from: Coords, to: Coords): (r: seq<Coords>)
      ensures from.x == to.x || from.y == to.y ==> |r| == Dist(from.x, to.x) + Dist(from.y, to.y)
      ensures from.x == to.x || from.y == to.y ==> forall k :: 0 <= k < |r| ==>
                r[k].x == Toward(from.x, to.x, k) && r[k].y == Toward(from.y, to.y, k)
      ensures from.x != to.x && from.y != to.y ==> r == []
      ensures r != [] ==> r[0] == from && to !in r
    {
      if from.x == to.x then
        if from.y < to.y then seq(to.y - from.y, i requires 0 <= i => Coords(from.x, from.y + i))
        else seq(from.y - to.y, i requires 0 <= i < from.y - to.y => Coords(from.x, from.y - i))
      else if from.y == to.y then
        if from.x < to.x then seq(to.x - from.x, i requires 0 <= i => Coords(from.x + i, from.y))
        else seq(from.x - to.x, i requires 0 <= i < from.x - to.x => Coords(from.x - i, from.y))
      else []
    }

    /** As written, a vertical run does not start at `from` and leaves `from`'s column:
        from (1, 0) to (1, 2) it yields (0, 0), (0, 1) instead of (1, 0), (1, 1). */
    lemma CoordsBetweenVerticalLeavesColumn()
      ensures CoordsBetween(Coords(1, 0), Coords(1, 2)) == [Coords(0, 0), Coords(0, 1)]
      ensures CoordsBetweenCorrected(Coords(1, 0), Coords(1, 2)) == [Coords(1, 0), Coords(1, 1)]
    {
      var r := CoordsBetween(Coords(1, 0), Coords(1, 2));
      assert |r| == 2 && r[0] == Coords(0, 0) && r[1] == Coords(0, 1);
      var s := CoordsBetweenCorrected(Coords(1, 0), Coords(1, 2));
      assert |s| == 2 && s[0] == Coords(1, 0) && s[1] == Coords(1, 1);
    }
  }

  /** The distance between two positions on one axis. */
  function Dist(a: nat, b: nat): nat {
    if a <= b then b - a else a - b
  }

  /** The position `k` steps from `a` toward `b` (or `a` itself when they are equal). */
  function Toward(a: nat, b: nat, k: nat): int {
    if a < b then a + k else if a > b then a - k else a
  }
}

=== FILE: invalid_ids.dfy ===
/** Gift-shop product ids: an id is invalid when its decimal digits are some
    sequence of digits written twice (55, 6464, 123123). The answer is the sum
    of the invalid ids in a list of inclusive ranges. */
module InvalidIds {
  import opened Wrappers
  import opened Text

  /** `is_invalid_id`: an even number of digits whose first half is the second. */
  function IsInvalidId(id: nat): bool {
    var s := NatToString(id);
    if |s| % 2 != 0 then false else s[..|s| / 2] == s[|s| / 2..]
  }

  /** The arithmetic reading: id is h written twice, h a number of k digits. */
  predicate Doubled(id: nat, h: nat, k: nat) {
    1 <= k && Pow10(k - 1) <= h < Pow10(k) && id == h * Pow10(k) + h
  }

  ghost predicate IsDoubled(id: nat) {
    exists h: nat, k: nat :: Doubled(id, h, k)
  }

  /** An id with an odd number of digits is never invalid. */
  lemma OddDigitsValid(id: nat, k: nat)
    requires 1 <= k && k % 2 == 1 && Pow10(k - 1) <= id < Pow10(k)
    ensures !IsInvalidId(id)
  {
    NatToStringLength(id, k);
  }

  /** The digits of `id` are `h`'s written twice exactly when `id == h * 10^k + h`. */
  lemma InvalidIffDoubled(id: nat)
    ensures IsInvalidId(id) <==> IsDoubled(id)
  {
    if IsInvalidId(id) {
      InvalidIsDoubled(id);
    }
    if IsDoubled(id) {
      var h: nat, k: nat :| Doubled(id, h, k);
      DoubledIsInvalid(id, h, k);
    }
  }

  lemma InvalidIsDoubled(id: nat)
    requires IsInvalidId(id)
    ensures IsDoubled(id)
  {
    var s := NatToString(id);
    var k := |s| / 2;
    var half := s[..k];
    assert s == half + half;
    HalfOfNumeral(s, k);
    ParseNatToString(id);
    ParseNatAppend(half, half);
    ParseNatBounds(half);
    assert Doubled(id, ParseNat(half), k);
  }

  lemma HalfOfNumeral(s: string, k: nat)
    requires IsNumeral(s) && s[0] != '0' && 1 <= k <= |s|
    ensures IsNumeral(s[..k]) && s[..k][0] != '0'
  {
  }

  lemma DoubledIsInvalid(id: nat, h: nat, k: nat)
    requires Doubled(id, h, k)
    ensures IsInvalidId(id)
  {
    var t := NatToString(h);
    NatToStringLength(h, k);
    ParseNatToString(h);
    ParseNatAppend(t, t);
    var s := t + t;
    assert ParseNat(s) == id;
    assert s[0] != '0';
    NatToStringParse(s);
    assert s[..|s| / 2] == t && s[|s| / 2..] == t;
  }

  /** Among two-digit ids, the invalid ones are the multiples of 11. */
  lemma TwoDigitInvalid(id: nat)
    requires 10 <= id < 100
    ensures IsInvalidId(id) <==> id % 11 == 0
  {
    InvalidIffDoubled(id);
    if id % 11 == 0 {
      var h := id / 11;
      assert id == h * 10 + h;
      assert Doubled(id, h, 1);
    }
    if IsDoubled(id) {
      var h: nat, k: nat :| Doubled(id, h, k);
      DoubledTwoDigits(id, h, k);
    }
  }

  lemma DoubledTwoDigits(id: nat, h: nat, k: nat)
    requires id < 100 && Doubled(id, h, k)
    ensures k == 1 && id == 11 * h
  {
  }

  /** `sum_invalid_ids_in_range`: the invalid ids from `lo` to `hi` inclusive,
      added up. */
  function SumInvalidIdsInRange(lo: nat, hi: nat): nat
    decreases hi + 1 - lo
  {
    if lo > hi then 0
    else (if IsInvalidId(lo) then lo else 0) + SumInvalidIdsInRange(lo + 1, hi)
  }

  /** The sum over a range is the sum over two adjacent parts of it. */
  lemma {:induction false} SumInvalidIdsSplit(lo: nat, mid: nat, hi: nat)
    requires lo <= mid <= hi
    ensures SumInvalidIdsInRange(lo, hi) == SumInvalidIdsInRange(lo, mid) + SumInvalidIdsInRange(mid + 1, hi)
    decreases mid - lo
  {
    if lo < mid {
      SumInvalidIdsSplit(lo + 1, mid, hi);
    }
  }

  /** A range with no invalid id sums to 0; one whose only invalid id is x sums to x. */
  lemma {:induction false} SumInvalidIdsNone(lo: nat, hi: nat)
    requires forall id :: lo <= id <= hi ==> !IsInvalidId(id)
    ensures SumInvalidIdsInRange(lo, hi) == 0
    decreases hi + 1 - lo
  {
    if lo <= hi {
      SumInvalidIdsNone(lo + 1, hi);
    }
  }

  /** Every invalid id of the range counts towards its sum. */
  lemma {:induction false} SumInvalidIdsCounts(lo: nat, id: nat, hi: nat)
    requires lo <= id <= hi && IsInvalidId(id)
    ensures SumInvalidIdsInRange(lo, hi) >= id
    decreases id - lo
  {
    if lo < id {
      SumInvalidIdsCounts(lo + 1, id, hi);
    }
  }

  /** The first range of the puzzle's example, 11-22, holds 11 and 22. */
  lemma SampleRange()
    ensures SumInvalidIdsInRange(11, 22) == 33
  {
    forall id | 12 <= id <= 21 ensures !IsInvalidId(id) {
      TwoDigitInvalid(id);
    }
    TwoDigitInvalid(11);
    TwoDigitInvalid(22);
    SumInvalidIdsSplit(11, 11, 22);
    SumInvalidIdsSplit(12, 21, 22);
    SumInvalidIdsNone(12, 21);
  }

  /** One range of `parse_ranges`: the text before the first '-' and the text
      after it up to any further '-', both numbers. `None` where the program
      panics. */
  function ParseRange(r: string): (p: Option<(nat, nat)>)
    ensures p.Some? <==> 2 <= |Split(r, '-')| && ParseUnsigned(Split(r, '-')[0]).Some?
                         && ParseUnsigned(Split(r, '-')[1]).Some?
    ensures p.Some? ==> p.value == (ParseUnsigned(Split(r, '-')[0]).value, ParseUnsigned(Split(r, '-')[1]).value)
  {
    var bounds := Split(r, '-');
    if |bounds| < 2 then None
    else
      match (ParseUnsigned(bounds[0]), ParseUnsigned(bounds[1]))
      case (Some(lo), Some(hi)) => Some((lo, hi))
      case _ => None
  }

  /** `parse_ranges`: the comma-separated ranges of the line, in order. */
  function ParseRanges(line: string): (r: Option<seq<(nat, nat)>>)
    ensures r.Some? <==> forall k :: 0 <= k < |Split(line, ',')| ==> ParseRange(Split(line, ',')[k]).Some?
    ensures r.Some? ==> |r.value| == |Split(line, ',')|
    ensures r.Some? ==> forall k :: 0 <= k < |r.value| ==> r.value[k] == ParseRange(Split(line, ',')[k]).value
  {
    var pieces := Split(line, ',');
    var r := ParseAllRanges(pieces);
    assert pieces == Split(line, ',');
    assert r.Some? ==> forall k :: 0 <= k < |Split(line, ',')| ==> ParseRange(Split(line, ',')[k]).Some?;
    assert (forall k :: 0 <= k < |Split(line, ',')| ==> ParseRange(Split(line, ',')[k]).Some?) ==> r.Some?;
    r
  }

  function ParseAllRanges(pieces: seq<string>): (r: Option<seq<(nat, nat)>>)
    ensures r.Some? <==> forall k :: 0 <= k < |pieces| ==> ParseRange(pieces[k]).Some?
    ensures r.Some? ==> |r.value| == |pieces|
    ensures r.Some? ==> forall k :: 0 <= k < |r.value| ==> r.value[k] == ParseRange(pieces[k]).value
  {
    if pieces == [] then Some([])
    else
      match (ParseRange(pieces[0]), ParseAllRanges(pieces[1..]))
      case (Some(p), Some(ps)) => Some([p] + ps)
      case _ => None
  }

  function FormatRange(p: (nat, nat)): string {
    NatToString(p.0) + "-" + NatToString(p.1)
  }

  /** The line listing `ranges` as the puzzle writes them. */
  function FormatRanges(ranges: seq<(nat, nat)>): string
    requires |ranges| >= 1
  {
    Join(seq(|ranges|, k requires 0 <= k < |ranges| => FormatRange(ranges[k])), ',')
  }

  lemma ParseFormatRange(p: (nat, nat))
    ensures ',' !in FormatRange(p)
    ensures ParseRange(FormatRange(p)) == Some(p)
  {
    var a, b := NatToString(p.0), NatToString(p.1);
    NumeralWithout(a, '-');
    NumeralWithout(b, '-');
    NumeralWithout(a, ',');
    NumeralWithout(b, ',');
    assert FormatRange(p) == Join([a, b], '-');
    SplitJoin([a, b], '-');
    ParseUnsignedToString(p.0);
    ParseUnsignedToString(p.1);
  }

  /** Reading the written ranges gives them back, in order. */
  lemma ParseFormatRanges(ranges: seq<(nat, nat)>)
    requires |ranges| >= 1
    ensures ParseRanges(FormatRanges(ranges)) == Some(ranges)
  {
    var pieces := seq(|ranges|, k requires 0 <= k < |ranges| => FormatRange(ranges[k]));
    forall k | 0 <= k < |ranges| ensures ',' !in pieces[k] && ParseRange(pieces[k]) == Some(ranges[k]) {
      ParseFormatRange(ranges[k]);
    }
    SplitJoin(pieces, ',');
    var r := ParseAllRanges(pieces);
    assert r.Some?;
    assert r.value == ranges;
  }

  /** The sum over every range. */
  function SumOverRanges(ranges: seq<(nat, nat)>): nat {
    if ranges == [] then 0
    else SumOverRanges(ranges[..|ranges| - 1]) + SumInvalidIdsInRange(ranges[|ranges| - 1].0, ranges[|ranges| - 1].1)
  }

  /** Each invalid id inside one of the ranges counts towards the total. */
  lemma {:induction false} SumOverRangesCounts(ranges: seq<(nat, nat)>, k: nat, id: nat)
    requires k < |ranges| && ranges[k].0 <= id <= ranges[k].1 && IsInvalidId(id)
    ensures SumOverRanges(ranges) >= id
  {
    if k == |ranges| - 1 {
      SumInvalidIdsCounts(ranges[k].0, id, ranges[k].1);
    } else {
      SumOverRangesCounts(ranges[..|ranges| - 1], k, id);
    }
  }

  /** `sum_invalid_ids`: the ranges on the first line, each summed. `None` where the
      program panics: no line at all, or a range that does not parse. */
  function SumInvalidIds(lines: seq<string>): (r: Option<nat>)
    ensures r.Some? <==> |lines| >= 1 && ParseRanges(lines[0]).Some?
    ensures r.Some? ==> r.value == SumOverRanges(ParseRanges(lines[0]).value)
  {
    if |lines| == 0 then None
    else
      match ParseRanges(lines[0])
      case None => None
      case Some(ranges) => Some(SumOverRanges(ranges))
  }
}

=== FILE: joltage.dfy ===
/** Banks of batteries, one digit each. Turning on two batteries of a bank, the
    first before the second, gives the two-digit joltage they spell; the answer is
    the sum over the banks of the largest such joltage. */
module Joltage {
  import opened Wrappers
  import opened Text

  /** The joltage of turning on batteries a and b (a first): `a * 10 + b`. */
  function PairJoltage(bank: seq<int>, a: nat, b: nat): int
    requires a < b < |bank|
  {
    bank[a] * 10 + bank[b]
  }

  /** Some pair of the bank gives joltage v. */
  ghost predicate Attained(bank: seq<int>, v: int) {
    exists a: nat, b: nat :: a < b < |bank| && PairJoltage(bank, a, b) == v
  }

  /** What `find_largest_joltage` computes: no pair above it, and either a pair
      reaching it or no pair above 0 (the accumulator starts at 0). */
  ghost predicate IsLargestJoltage(bank: seq<int>, r: int) {
    && 0 <= r
    && (forall a: nat, b: nat :: a < b < |bank| ==> PairJoltage(bank, a, b) <= r)
    && (r == 0 || Attained(bank, r))
  }

  /** The largest joltage of the bank by recursion on its last battery: the best
      of the bank without it and of the pairs ending at it, and never below 0. */
  function LargestJoltage(bank: seq<int>): int {
    if |bank| < 2 then 0
    else Max(LargestJoltage(bank[..|bank| - 1]), BestEndingAt(bank, |bank| - 1, |bank| - 1))
  }

  function Max(x: int, y: int): int {
    if x < y then y else x
  }

  /** The largest joltage of a pair (a, j) with a < n. */
  function BestEndingAt(bank: seq<int>, n: nat, j: nat): int
    requires 1 <= n <= j < |bank|
  {
    if n == 1 then PairJoltage(bank, 0, j)
    else Max(BestEndingAt(bank, n - 1, j), PairJoltage(bank, n - 1, j))
  }

  lemma {:induction false} BestEndingAtIsBest(bank: seq<int>, n: nat, j: nat)
    requires 1 <= n <= j < |bank|
    ensures forall a: nat :: a < n ==> PairJoltage(bank, a, j) <= BestEndingAt(bank, n, j)
    ensures exists a: nat :: a < n && PairJoltage(bank, a, j) == BestEndingAt(bank, n, j)
  {
    if n > 1 {
      BestEndingAtIsBest(bank, n - 1, j);
    } else {
      assert PairJoltage(bank, 0, j) == BestEndingAt(bank, n, j);
    }
  }

  /** The recursive definition meets the description. */
  lemma {:induction false} LargestJoltageIsLargest(bank: seq<int>)
    ensures IsLargestJoltage(bank, LargestJoltage(bank))
  {
    if |bank| >= 2 {
      var init := bank[..|bank| - 1];
      var j := |bank| - 1;
      LargestJoltageIsLargest(init);
      BestEndingAtIsBest(bank, j, j);
      var r := LargestJoltage(bank);
      forall a: nat, b: nat | a < b < |bank| ensures PairJoltage(bank, a, b) <= r {
        if b < j {
          assert PairJoltage(bank, a, b) == PairJoltage(init, a, b);
        }
      }
      if r != 0 {
        if r == LargestJoltage(init) {
          var a: nat, b: nat :| a < b < |init| && PairJoltage(init, a, b) == r;
          assert PairJoltage(bank, a, b) == r;
        } else {
          var a: nat :| a < j && PairJoltage(bank, a, j) == BestEndingAt(bank, j, j);
          assert PairJoltage(bank, a, j) == r;
        }
      }
    }
  }

  /** The description admits one value only. */
  lemma LargestJoltageUnique(bank: seq<int>, r: int, s: int)
    requires IsLargestJoltage(bank, r) && IsLargestJoltage(bank, s)
    ensures r == s
  {
  }

  /** `find_largest_joltage`: every pair (i, j) with i < j tried in turn, the
      largest joltage kept. The bank must not be empty: `bank.len() - 1` would
      underflow. */
  method FindLargestJoltage(bank: seq<int>) returns (maxJoltage: int)
    requires |bank| >= 1
    ensures IsLargestJoltage(bank, maxJoltage)
    ensures maxJoltage == LargestJoltage(bank)
  {
    maxJoltage := 0;
    for i := 0 to |bank| - 1
      invariant 0 <= maxJoltage
      invariant forall a: nat, b: nat :: a < i && a < b < |bank| ==> PairJoltage(bank, a, b) <= maxJoltage
      invariant maxJoltage == 0 || Attained(bank, maxJoltage)
    {
      maxJoltage := KeepLargestFrom(bank, i, maxJoltage);
    }
    LargestJoltageIsLargest(bank);
    LargestJoltageUnique(bank, maxJoltage, LargestJoltage(bank));
  }

  /** The inner loop of `find_largest_joltage`: battery i with each later one. */
  method KeepLargestFrom(bank: seq<int>, i: nat, current: int) returns (maxJoltage: int)
    requires i < |bank|
    ensures maxJoltage == current || (current < maxJoltage && exists b: nat :: i < b < |bank| && PairJoltage(bank, i, b) == maxJoltage)
    ensures current <= maxJoltage
    ensures forall b: nat :: i < b < |bank| ==> PairJoltage(bank, i, b) <= maxJoltage
  {
    maxJoltage := current;
    for b := i + 1 to |bank|
      invariant current <= maxJoltage
      invariant maxJoltage == current || exists b': nat :: i < b' < |bank| && PairJoltage(bank, i, b') == maxJoltage
      invariant forall b': nat :: i < b' < b ==> PairJoltage(bank, i, b') <= maxJoltage
    {
      var joltage := bank[i] * 10 + bank[b];
      if joltage > maxJoltage {
        assert PairJoltage(bank, i, b) == joltage;
        maxJoltage := joltage;
      }
    }
  }

  /** A bank of one battery has no pair: 0. */
  lemma OneBatteryNoJoltage(bank: seq<int>)
    requires |bank| == 1
    ensures LargestJoltage(bank) == 0
  {
  }

  /** Banks of digits give at most 99, the joltage of two nines. */
  lemma {:induction false} DigitsJoltageBounded(bank: seq<int>)
    requires forall k :: 0 <= k < |bank| ==> 0 <= bank[k] <= 9
    ensures 0 <= LargestJoltage(bank) <= 99
  {
    LargestJoltageIsLargest(bank);
    var r := LargestJoltage(bank);
    if r != 0 {
      var a: nat, b: nat :| a < b < |bank| && PairJoltage(bank, a, b) == r;
    }
  }

  /** Only a battery after another can be its second digit: the order of the bank
      matters. */
  lemma OrderMatters()
    ensures LargestJoltage([1, 9]) == 19
    ensures LargestJoltage([9, 1]) == 91
  {
    assert [1, 9][..1] == [1];
    assert [9, 1][..1] == [9];
  }

  /** `parse_banks`: each line a bank, each character a digit. `None` where
      `to_digit(10)` fails and the program panics. */
  function ParseBank(line: string): (r: Option<seq<int>>)
    ensures r.Some? <==> forall k :: 0 <= k < |line| ==> IsDigit(line[k])
    ensures r.Some? ==> |r.value| == |line| && forall k :: 0 <= k < |line| ==> r.value[k] == DigitValue(line[k])
  {
    if line == [] then Some([])
    else
      match ParseBank(line[1..])
      case None => None
      case Some(rest) => if IsDigit(line[0]) then Some([DigitValue(line[0]) as int] + rest) else None
  }

  function ParseBanks(lines: seq<string>): (r: Option<seq<seq<int>>>)
    ensures r.Some? <==> forall k :: 0 <= k < |lines| ==> ParseBank(lines[k]).Some?
    ensures r.Some? ==> |r.value| == |lines| && forall k :: 0 <= k < |lines| ==> r.value[k] == ParseBank(lines[k]).value
  {
    if lines == [] then Some([])
    else
      match (ParseBank(lines[0]), ParseBanks(lines[1..]))
      case (Some(b), Some(bs)) => Some([b] + bs)
      case _ => None
  }

  /** The written digits read back as the bank. */
  lemma ParseBankOfDigits(bank: seq<int>)
    requires forall k :: 0 <= k < |bank| ==> 0 <= bank[k] <= 9
    ensures ParseBank(seq(|bank|, k requires 0 <= k < |bank| => DigitChar(bank[k]))) == Some(bank)
  {
    var line := seq(|bank|, k requires 0 <= k < |bank| => DigitChar(bank[k]));
    var r := ParseBank(line);
    assert r.Some?;
    assert r.value == bank;
  }

  /** Every battery read from the lines is a digit 0 to 9. */
  lemma ParsedBanksAreDigits(lines: seq<string>)
    requires ParseBanks(lines).Some?
    ensures forall n, k :: 0 <= n < |lines| && 0 <= k < |ParseBanks(lines).value[n]| ==> 0 <= ParseBanks(lines).value[n][k] <= 9
  {
    var banks := ParseBanks(lines).value;
    forall n, k | 0 <= n < |lines| && 0 <= k < |banks[n]| ensures 0 <= banks[n][k] <= 9 {
      assert banks[n][k] == DigitValue(lines[n][k]);
    }
  }

  function TotalJoltage(banks: seq<seq<int>>): int {
    if banks == [] then 0
    else TotalJoltage(banks[..|banks| - 1]) + LargestJoltage(banks[|banks| - 1])
  }

  /** The total of banks of digits lies between 0 and 99 per bank. */
  lemma {:induction false} TotalJoltageBounded(banks: seq<seq<int>>)
    requires forall n, k :: 0 <= n < |banks| && 0 <= k < |banks[n]| ==> 0 <= banks[n][k] <= 9
    ensures 0 <= TotalJoltage(banks) <= 99 * |banks|
  {
    if banks != [] {
      TotalJoltageBounded(banks[..|banks| - 1]);
      DigitsJoltageBounded(banks[|banks| - 1]);
    }
  }

  /** The sum in `total_output_joltage`: every bank's largest joltage, added up.
      `None` where `find_largest_joltage` panics on an empty bank. */
  method SumLargestJoltages(banks: seq<seq<int>>) returns (r: Option<int>)
    ensures r.Some? <==> forall k :: 0 <= k < |banks| ==> |banks[k]| >= 1
    ensures r.Some? ==> r.value == TotalJoltage(banks)
  {
    var total := 0;
    for n := 0 to |banks|
      invariant total == TotalJoltage(banks[..n])
      invariant forall k :: 0 <= k < n ==> |banks[k]| >= 1
    {
      if |banks[n]| == 0 {
        return None;
      }
      var joltage := FindLargestJoltage(banks[n]);
      assert banks[..n + 1][..n] == banks[..n];
      total := total + joltage;
    }
    assert banks[..|banks|] == banks;
    r := Some(total);
  }

  /** `total_output_joltage`: the banks on the lines, each bank's largest joltage
      added up. `None` where the program panics: a line that is not all digits, or
      an empty line. */
  method TotalOutputJoltage(lines: seq<string>) returns (r: Option<int>)
    ensures r.Some? <==> ParseBanks(lines).Some? && forall k :: 0 <= k < |lines| ==> |lines[k]| >= 1
    ensures r.Some? ==> r.value == TotalJoltage(ParseBanks(lines).value)
    ensures r.Some? ==> 0 <= r.value <= 99 * |lines|
  {
    var parsed := ParseBanks(lines);
    if parsed.None? {
      return None;
    }
    var banks := parsed.value;
    assert forall k :: 0 <= k < |lines| ==> |banks[k]| == |lines[k]|;
    r := SumLargestJoltages(banks);
    if r.Some? {
      ParsedBanksAreDigits(lines);
      TotalJoltageBounded(banks);
    }
  }
}

=== FILE: lights.dfy ===
/** Indicator-light machines: a diagram of lights to switch on and buttons that each
    toggle a fixed group of lights. Lights are bits of a 16-bit state, the first
    light of the diagram the most significant; pressing a button XORs its mask into
    the state. A breadth-first search finds the fewest presses that turn the
    all-off state into the diagram. */
module Lights {
  import opened Wrappers

  type Lights = bv16

  /** `Machine` without its joltage requirements, which nothing reads. */
  datatype Machine = Machine(diagram: Lights, buttons: seq<Lights>)

  function Pow2(e: nat): (p: nat)
    ensures p >= 1
  {
    if e == 0 then 1 else 2 * Pow2(e - 1)
  }

  lemma {:induction false} Pow2Monotone(a: nat, b: nat)
    requires a <= b
    ensures Pow2(a) <= Pow2(b)
    decreases b
  {
    if a < b {
      Pow2Monotone(a, b - 1);
    }
  }

  lemma Pow2Sixteen()
    ensures Pow2(15) == 32768 && Pow2(16) == 65536
  {
    assert Pow2(4) == 16;
    assert Pow2(8) == 256;
    assert Pow2(12) == 4096;
  }

  function Bit(on: bool): nat { if on then 1 else 0 }

  // ===========================================================================
  // Encoding the diagram and the buttons (parse_machine after the regex)

  /** The binary number the lights spell, first light most significant: light i
      of n weighs 2^(n-1-i). */
  function BinaryValue(lights: seq<bool>): nat {
    if lights == [] then 0 else Bit(lights[0]) * Pow2(|lights| - 1) + BinaryValue(lights[1..])
  }

  lemma {:induction false} BinaryValueBound(lights: seq<bool>)
    ensures BinaryValue(lights) < Pow2(|lights|)
  {
    if lights != [] {
      BinaryValueBound(lights[1..]);
    }
  }

  lemma {:induction false} BinaryValueSnoc(lights: seq<bool>, on: bool)
    ensures BinaryValue(lights + [on]) == 2 * BinaryValue(lights) + Bit(on)
  {
    if lights != [] {
      assert (lights + [on])[1..] == lights[1..] + [on];
      BinaryValueSnoc(lights[1..], on);
    }
  }

  lemma {:induction false} BinaryValueDark(lights: seq<bool>)
    requires forall i :: 0 <= i < |lights| ==> !lights[i]
    ensures BinaryValue(lights) == 0
  {
    if lights != [] {
      BinaryValueDark(lights[1..]);
    }
  }

  /** Switching on light i adds its weight 2^(n-1-i). */
  lemma {:induction false} BinaryValueSwitchOn(lights: seq<bool>, i: nat)
    requires i < |lights| && !lights[i]
    ensures BinaryValue(lights[i := true]) == BinaryValue(lights) + Pow2(|lights| - 1 - i)
  {
    if i > 0 {
      assert lights[i := true][1..] == lights[1..][i - 1 := true];
      BinaryValueSwitchOn(lights[1..], i - 1);
    }
  }

  /** The `fold` over the diagram: `(acc << 1) | light` on a u16, whose shift drops
      the top bit. */
  function EncodeDiagram(lights: seq<bool>): (v: nat)
    ensures v < 65536
  {
    if lights == [] then 0
    else 2 * (EncodeDiagram(lights[..|lights| - 1]) % 32768) + Bit(lights[|lights| - 1])
  }

  /** Up to 16 lights are encoded without loss: the state is the binary number the
      diagram spells, light i of n being bit n-1-i. */
  lemma {:induction false} EncodeDiagramValue(lights: seq<bool>)
    requires |lights| <= 16
    ensures EncodeDiagram(lights) == BinaryValue(lights)
  {
    if lights != [] {
      var init, last := lights[..|lights| - 1], lights[|lights| - 1];
      EncodeDiagramValue(init);
      BinaryValueBound(init);
      Pow2Monotone(|init|, 15);
      Pow2Sixteen();
      ShiftFits(EncodeDiagram(init), Bit(last));
      assert lights == init + [last];
      BinaryValueSnoc(init, last);
    }
  }

  /** A value below 2^15 loses nothing when shifted left in 16 bits. */
  lemma ShiftFits(v: nat, bit: nat)
    requires v < 32768
    ensures 2 * (v % 32768) + bit == 2 * v + bit
  {
  }

  /** The `fold` over one button's light indices: `acc + 2^(n - b - 1)` in u16
      arithmetic, `None` where that panics (an index at or past the number of
      lights underflows, a power of 2^16 or more or a sum past the u16 range
      overflows). */
  function ButtonMask(indices: seq<nat>, n: nat): (r: Option<nat>)
    ensures r.Some? ==> r.value < 65536
  {
    if indices == [] then Some(0)
    else
      match ButtonMask(indices[..|indices| - 1], n)
      case None => None
      case Some(acc) =>
        var b := indices[|indices| - 1];
        if b >= n || n - b - 1 >= 16 || acc + Pow2(n - b - 1) >= 65536 then None
        else Some(acc + Pow2(n - b - 1))
  }

  /** The lights a button lists, as a diagram of n lights. */
  function Listed(indices: seq<nat>, n: nat): (lights: seq<bool>)
    ensures |lights| == n && forall i :: 0 <= i < n ==> (lights[i] <==> i in indices)
  {
    seq(n, i requires 0 <= i < n => i in indices)
  }

  predicate DistinctIndices(indices: seq<nat>) {
    forall k, l :: 0 <= k < l < |indices| ==> indices[k] != indices[l]
  }

  /** A button listing distinct lights of a diagram of at most 16 lights encodes
      without panicking, as the state in which exactly its lights are on. */
  lemma {:induction false} ButtonMaskListed(indices: seq<nat>, n: nat)
    requires n <= 16 && DistinctIndices(indices)
    requires forall k :: 0 <= k < |indices| ==> indices[k] < n
    ensures ButtonMask(indices, n) == Some(BinaryValue(Listed(indices, n)))
  {
    if indices == [] {
      BinaryValueDark(Listed(indices, n));
    } else {
      var init, b := indices[..|indices| - 1], indices[|indices| - 1];
      ButtonMaskListed(init, n);
      var before := Listed(init, n);
      ListedSnoc(indices, n);
      BinaryValueSwitchOn(before, b);
      ListedFits(indices, n);
      assert ButtonMask(indices, n) == Some(BinaryValue(before) + Pow2(n - b - 1));
    }
  }

  lemma ListedSnoc(indices: seq<nat>, n: nat)
    requires indices != [] && DistinctIndices(indices) && indices[|indices| - 1] < n
    ensures indices[|indices| - 1] !in indices[..|indices| - 1]
    ensures Listed(indices, n) == Listed(indices[..|indices| - 1], n)[indices[|indices| - 1] := true]
  {
  }

  lemma ListedFits(indices: seq<nat>, n: nat)
    requires n <= 16
    ensures BinaryValue(Listed(indices, n)) < 65536
  {
    BinaryValueBound(Listed(indices, n));
    Pow2Monotone(n, 16);
    Pow2Sixteen();
  }

  /** The masks of all buttons, `None` where any of them panics. */
  function ButtonMasks(buttons: seq<seq<nat>>, n: nat): (r: Option<seq<nat>>)
    ensures r.Some? <==> forall k :: 0 <= k < |buttons| ==> ButtonMask(buttons[k], n).Some?
    ensures r.Some? ==> |r.value| == |buttons|
    ensures r.Some? ==> forall k :: 0 <= k < |buttons| ==> r.value[k] == ButtonMask(buttons[k], n).value
  {
    if buttons == [] then Some([])
    else
      match ButtonMask(buttons[0], n)
      case None => None
      case Some(mask) =>
        match ButtonMasks(buttons[1..], n)
        case None =>
          assert forall k :: 0 <= k < |buttons[1..]| ==> buttons[1..][k] == buttons[k + 1];
          None
        case Some(rest) => Some([mask] + rest)
  }

  /** `parse_machine` from the captured diagram ('#' is on) and button index lists:
      the diagram fold and every button fold as u16 values, `None` where a button
      panics. */
  function ParseMachine(diagram: string, buttons: seq<seq<nat>>): (r: Option<Machine>)
    ensures r.Some? <==> forall k :: 0 <= k < |buttons| ==> ButtonMask(buttons[k], |diagram|).Some?
    ensures r.Some? ==> r.value.diagram == EncodeDiagram(DiagramLights(diagram)) as Lights
    ensures r.Some? ==> |r.value.buttons| == |buttons|
    ensures r.Some? ==> forall k :: 0 <= k < |buttons| ==> r.value.buttons[k] == ButtonMask(buttons[k], |diagram|).value as Lights
  {
    match ButtonMasks(buttons, |diagram|)
    case None => None
    case Some(masks) =>
      Some(Machine(EncodeDiagram(DiagramLights(diagram)) as Lights,
                   seq(|masks|, k requires 0 <= k < |masks| => masks[k] as Lights)))
  }

  function DiagramLights(diagram: string): (lights: seq<bool>)
    ensures |lights| == |diagram| && forall i :: 0 <= i < |diagram| ==> (lights[i] <==> diagram[i] == '#')
  {
    seq(|diagram|, i requires 0 <= i < |diagram| => diagram[i] == '#')
  }

  /** A diagram of at most 16 lights whose buttons list distinct lights of it parses
      without panicking: the target is the binary number of its '#' lights and each
      button's mask is the state with exactly its listed lights on. */
  lemma ParseMachineWellFormed(diagram: string, buttons: seq<seq<nat>>)
    requires |diagram| <= 16
    requires forall k :: 0 <= k < |buttons| ==> DistinctIndices(buttons[k])
    requires forall k, l :: 0 <= k < |buttons| && 0 <= l < |buttons[k]| ==> buttons[k][l] < |diagram|
    ensures ParseMachine(diagram, buttons).Some?
    ensures EncodeDiagram(DiagramLights(diagram)) == BinaryValue(DiagramLights(diagram))
    ensures forall k :: 0 <= k < |buttons| ==>
      ButtonMask(buttons[k], |diagram|) == Some(BinaryValue(Listed(buttons[k], |diagram|)))
  {
    forall k | 0 <= k < |buttons|
      ensures ButtonMask(buttons[k], |diagram|) == Some(BinaryValue(Listed(buttons[k], |diagram|)))
    {
      ButtonMaskListed(buttons[k], |diagram|);
    }
    EncodeDiagramValue(DiagramLights(diagram));
  }

  // ===========================================================================
  // Pressing buttons

  /** A press toggles exactly the lights its button is wired to. */
  function Press(state: Lights, button: Lights): Lights {
    state ^ button
  }

  predicate ValidPresses(buttons: seq<Lights>, presses: seq<nat>) {
    forall k :: 0 <= k < |presses| ==> presses[k] < |buttons|
  }

  /** The state reached from all lights off by pressing the listed buttons in order. */
  function Apply(buttons: seq<Lights>, presses: seq<nat>): Lights
    requires ValidPresses(buttons, presses)
  {
    if presses == [] then 0
    else Press(Apply(buttons, presses[..|presses| - 1]), buttons[presses[|presses| - 1]])
  }

  ghost predicate Solves(m: Machine, presses: seq<nat>) {
    ValidPresses(m.buttons, presses) && Apply(m.buttons, presses) == m.diagram
  }

  ghost predicate Solvable(m: Machine) {
    exists presses :: Solves(m, presses)
  }

  /** k is the fewest presses whose combined toggling turns all-off into the diagram. */
  ghost predicate Fewest(m: Machine, k: nat) {
    (exists presses :: |presses| == k && Solves(m, presses))
    && forall presses :: Solves(m, presses) ==> k <= |presses|
  }

  /** Pressing a button twice more leaves the state as it was. */
  lemma PressTwice(buttons: seq<Lights>, presses: seq<nat>, i: nat)
    requires ValidPresses(buttons, presses) && i < |buttons|
    ensures ValidPresses(buttons, presses + [i, i])
    ensures Apply(buttons, presses + [i, i]) == Apply(buttons, presses)
  {
    var once := presses + [i];
    assert (presses + [i, i])[..|presses| + 1] == once;
    assert once[..|presses|] == presses;
  }

  /** An all-off diagram takes no presses. */
  lemma FewestDark(m: Machine)
    requires m.diagram == 0
    ensures Fewest(m, 0)
  {
    assert Solves(m, []);
  }

  lemma FewestUnique(m: Machine, k: nat, l: nat)
    requires Fewest(m, k) && Fewest(m, l)
    ensures k == l
  {
    var p :| |p| == k && Solves(m, p);
    var q :| |q| == l && Solves(m, q);
  }

  // ===========================================================================
  // Levels of the breadth-first search

  /** The states reachable from all-off in exactly k presses. */
  ghost function Level(buttons: seq<Lights>, k: nat): set<Lights> {
    if k == 0 then {0}
    else set s, i | s in Level(buttons, k - 1) && 0 <= i < |buttons| :: Press(s, buttons[i])
  }

  lemma LevelNext(buttons: seq<Lights>, x: Lights, k: nat, i: nat)
    requires x in Level(buttons, k) && i < |buttons|
    ensures Press(x, buttons[i]) in Level(buttons, k + 1)
  {
  }

  /** The levels are exactly the states of press sequences of their length. */
  lemma {:induction false} LevelApply(buttons: seq<Lights>, presses: seq<nat>)
    requires ValidPresses(buttons, presses)
    ensures Apply(buttons, presses) in Level(buttons, |presses|)
  {
    if presses != [] {
      var init := presses[..|presses| - 1];
      LevelApply(buttons, init);
      var i := presses[|presses| - 1];
      assert Press(Apply(buttons, init), buttons[i]) in Level(buttons, |presses|);
    }
  }

  lemma {:induction false} LevelWitness(buttons: seq<Lights>, k: nat, s: Lights)
    requires s in Level(buttons, k)
    ensures exists presses :: |presses| == k && ValidPresses(buttons, presses) && Apply(buttons, presses) == s
  {
    if k == 0 {
      assert Apply(buttons, []) == s;
    } else {
      var x, i :| x in Level(buttons, k - 1) && 0 <= i < |buttons| && s == Press(x, buttons[i]);
      LevelWitness(buttons, k - 1, x);
      var init: seq<nat> :| |init| == k - 1 && ValidPresses(buttons, init) && Apply(buttons, init) == x;
      ApplySnoc(buttons, init, i);
    }
  }

  lemma ApplySnoc(buttons: seq<Lights>, presses: seq<nat>, i: nat)
    requires ValidPresses(buttons, presses) && i < |buttons|
    ensures ValidPresses(buttons, presses + [i])
    ensures Apply(buttons, presses + [i]) == Press(Apply(buttons, presses), buttons[i])
  {
    assert (presses + [i])[..|presses|] == presses;
  }

  /** The diagram is first reached at level k. */
  ghost predicate FirstLevel(m: Machine, k: nat) {
    m.diagram in Level(m.buttons, k) && forall j :: 0 <= j < k ==> m.diagram !in Level(m.buttons, j)
  }

  lemma FirstLevelFewest(m: Machine, k: nat)
    requires FirstLevel(m, k)
    ensures Fewest(m, k)
  {
    LevelWitness(m.buttons, k, m.diagram);
    forall presses | Solves(m, presses)
      ensures k <= |presses|
    {
      LevelApply(m.buttons, presses);
    }
  }

  lemma {:induction false} SolvableFewest(m: Machine, k: nat)
    requires m.diagram in Level(m.buttons, k)
    ensures exists j: nat :: j <= k && Fewest(m, j)
    decreases k
  {
    if j :| 0 <= j < k && m.diagram in Level(m.buttons, j) {
      SolvableFewest(m, j);
    } else {
      FirstLevelFewest(m, k);
    }
  }

  // ===========================================================================
  // Machine::fewest_button_presses

  /** Every queued state is reachable in the number of presses queued with it. */
  ghost predicate Sound(buttons: seq<Lights>, queue: seq<(Lights, nat)>) {
    forall k :: 0 <= k < |queue| ==> queue[k].0 in Level(buttons, queue[k].1)
  }

  /** The queue holds presses of the current layer, then of the next one. */
  predicate Layered(queue: seq<(Lights, nat)>, layer: nat) {
    (forall k :: 0 <= k < |queue| ==> layer <= queue[k].1 <= layer + 1)
    && forall k, l :: 0 <= k < l < |queue| ==> queue[k].1 <= queue[l].1
  }

  /** Every earlier level has been dequeued, and the current one is dequeued or queued. */
  ghost predicate Covered(buttons: seq<Lights>, popped: set<Lights>, queue: seq<(Lights, nat)>, layer: nat) {
    (forall j :: 0 <= j < layer ==> Level(buttons, j) <= popped)
    && forall s :: s in Level(buttons, layer) ==> s in popped || (s, layer) in queue
  }

  /** Every successor of a dequeued state has been visited. */
  ghost predicate Closed(buttons: seq<Lights>, popped: set<Lights>, visited: set<Lights>) {
    forall x, i :: x in popped && 0 <= i < |buttons| ==> Press(x, buttons[i]) in visited
  }

  /** A visited state has been dequeued or is still queued. */
  ghost predicate Tracked(popped: set<Lights>, visited: set<Lights>, queue: seq<(Lights, nat)>, layer: nat) {
    forall s :: s in visited ==> s in popped || (s, layer) in queue || (s, layer + 1) in queue
  }

  ghost const AllStates: set<Lights> := set i | 0 <= i < 65536 :: i as Lights

  /** The invariant of the search between two dequeues. */
  ghost predicate Searching(buttons: seq<Lights>, popped: set<Lights>, visited: set<Lights>,
                            queue: seq<(Lights, nat)>, layer: nat) {
    Sound(buttons, queue) && Layered(queue, layer) && Covered(buttons, popped, queue, layer)
    && Closed(buttons, popped, visited) && Tracked(popped, visited, queue, layer)
  }

  /** The successors of the state being expanded by the first `i` buttons, and of
      every other dequeued state, have been visited. */
  ghost predicate ClosedUpTo(buttons: seq<Lights>, popped: set<Lights>, visited: set<Lights>, current: Lights, i: nat) {
    forall x, k :: x in popped && 0 <= k < |buttons| && (x != current || k < i) ==>
      Press(x, buttons[k]) in visited
  }

  /** The invariant of the search while `current` is expanded by the first `i` buttons. */
  ghost predicate Expanding(buttons: seq<Lights>, popped: set<Lights>, visited: set<Lights>,
                            queue: seq<(Lights, nat)>, layer: nat, current: Lights, i: nat) {
    Sound(buttons, queue) && Layered(queue, layer) && Covered(buttons, popped, queue, layer)
    && ClosedUpTo(buttons, popped, visited, current, i) && Tracked(popped, visited, queue, layer)
    && current in popped && current in Level(buttons, layer)
  }

  lemma InAllStates(x: Lights)
    ensures x in AllStates
  {
    assert (x as int) as Lights == x;
  }

  /** When the front of the queue is one press further, the current layer is done. */
  lemma NextLayer(buttons: seq<Lights>, popped: set<Lights>, visited: set<Lights>, queue: seq<(Lights, nat)>, layer: nat)
    requires queue != [] && queue[0].1 == layer + 1
    requires Searching(buttons, popped, visited, queue, layer)
    ensures Searching(buttons, popped, visited, queue, layer + 1)
  {
    assert forall s :: (s, layer) !in queue;
    assert Level(buttons, layer) <= popped;
    forall s | s in Level(buttons, layer + 1)
      ensures s in popped || (s, layer + 1) in queue
    {
      var x, i :| x in Level(buttons, layer) && 0 <= i < |buttons| && s == Press(x, buttons[i]);
      assert s in visited;
    }
  }

  /** A set holding a level and closed under presses holds every later level. */
  lemma {:induction false} LevelsWithin(buttons: seq<Lights>, states: set<Lights>, from: nat, j: nat)
    requires from <= j && Level(buttons, from) <= states
    requires forall x, i :: x in states && 0 <= i < |buttons| ==> Press(x, buttons[i]) in states
    ensures Level(buttons, j) <= states
    decreases j
  {
    if from < j {
      LevelsWithin(buttons, states, from, j - 1);
    }
  }

  /** Dequeuing the front of the current layer and marking it dequeued keeps the
      invariant, with none of its successors looked at yet. */
  lemma Dequeued(buttons: seq<Lights>, popped: set<Lights>, visited: set<Lights>, queue: seq<(Lights, nat)>, layer: nat)
    requires queue != [] && queue[0].1 == layer
    requires Searching(buttons, popped, visited, queue, layer)
    ensures queue[0].0 in Level(buttons, layer)
    ensures Expanding(buttons, popped + {queue[0].0}, visited, queue[1..], layer, queue[0].0, 0)
  {
    assert queue == [queue[0]] + queue[1..];
    forall e | e in queue
      ensures e == queue[0] || e in queue[1..]
    {
    }
  }

  /** Pressing button i on `current`, visiting and queueing the result when it is
      new, keeps the invariant. */
  lemma Pressed(buttons: seq<Lights>, popped: set<Lights>, visited: set<Lights>, queue: seq<(Lights, nat)>,
                layer: nat, current: Lights, i: nat)
    requires i < |buttons| && Expanding(buttons, popped, visited, queue, layer, current, i)
    ensures var next := Press(current, buttons[i]);
      if next in visited then Expanding(buttons, popped, visited, queue, layer, current, i + 1)
      else Expanding(buttons, popped, visited + {next}, queue + [(next, layer + 1)], layer, current, i + 1)
  {
    var next := Press(current, buttons[i]);
    if next !in visited {
      LevelNext(buttons, current, layer, i);
      var queue' := queue + [(next, layer + 1)];
      assert Sound(buttons, queue');
      assert Covered(buttons, popped, queue', layer);
      assert Tracked(popped, visited + {next}, queue', layer);
    }
  }

  /** Once the queue is empty, the dequeued states hold every level, so a diagram
      not among them cannot be reached. */
  lemma Exhausted(m: Machine, popped: set<Lights>, visited: set<Lights>, layer: nat)
    requires Searching(m.buttons, popped, visited, [], layer)
    requires m.diagram !in popped
    ensures !Solvable(m)
  {
    forall presses | ValidPresses(m.buttons, presses)
      ensures !Solves(m, presses)
    {
      LevelApply(m.buttons, presses);
      if |presses| >= layer {
        LevelsWithin(m.buttons, popped, layer, |presses|);
      }
    }
  }

  /** Dequeuing the diagram in the current layer means it is first reached there. */
  lemma Found(m: Machine, popped: set<Lights>, layer: nat)
    requires m.diagram in Level(m.buttons, layer) && m.diagram !in popped
    requires forall j :: 0 <= j < layer ==> Level(m.buttons, j) <= popped
    ensures Fewest(m, layer) && Solvable(m)
  {
    assert FirstLevel(m, layer);
    FirstLevelFewest(m, layer);
  }

  /** Visiting a new state leaves fewer states unvisited. */
  lemma Progress(before: set<Lights>, visited: set<Lights>)
    requires before <= visited
    ensures visited == before || AllStates - visited < AllStates - before
  {
    forall x | x in visited
      ensures x in AllStates
    {
      InAllStates(x);
    }
  }

  /** The `for` loop over the buttons: visits and queues, one press further, every
      successor of `current` not visited before. */
  method PressEach(m: Machine, current: Lights, presses: nat, visited: set<Lights>, queue: seq<(Lights, nat)>,
                   ghost popped: set<Lights>, ghost layer: nat)
    returns (visited': set<Lights>, queue': seq<(Lights, nat)>)
    requires presses == layer && Expanding(m.buttons, popped, visited, queue, layer, current, 0)
    ensures Searching(m.buttons, popped, visited', queue', layer)
    ensures visited <= visited'
    ensures visited' == visited ==> queue' == queue
  {
    visited', queue' := visited, queue;
    for i := 0 to |m.buttons|
      invariant Expanding(m.buttons, popped, visited', queue', layer, current, i)
      invariant visited <= visited'
      invariant visited' == visited ==> queue' == queue
    {
      Pressed(m.buttons, popped, visited', queue', layer, current, i);
      var next := Press(current, m.buttons[i]);
      if next !in visited' {
        visited' := visited' + {next};
        queue' := queue' + [(next, presses + 1)];
      }
    }
  }

  /** `fewest_button_presses`: a breadth-first search from all lights off, where a
      press XORs a button's mask into the state; `None` stands for the panic when
      the queue runs dry. */
  method FewestButtonPresses(m: Machine) returns (r: Option<nat>)
    ensures r.Some? ==> Fewest(m, r.value)
    ensures r.None? <==> !Solvable(m)
  {
    var visited: set<Lights> := {};
    var queue: seq<(Lights, nat)> := [(0, 0)];
    ghost var popped: set<Lights> := {};
    ghost var layer: nat := 0;
    while queue != []
      invariant Searching(m.buttons, popped, visited, queue, layer)
      invariant m.diagram !in popped
      decreases AllStates - visited, |queue|
    {
      if queue[0].1 == layer + 1 {
        NextLayer(m.buttons, popped, visited, queue, layer);
        layer := layer + 1;
      }
      var (current, presses) := queue[0];
      ghost var before := visited;
      var rest := queue[1..];
      Dequeued(m.buttons, popped, visited, queue, layer);
      queue := rest;
      if current == m.diagram {
        Found(m, popped, layer);
        return Some(presses);
      }
      popped := popped + {current};
      visited, queue := PressEach(m, current, presses, visited, queue, popped, layer);
      Progress(before, visited);
    }
    Exhausted(m, popped, visited, layer);
    r := None;
  }

  // ===========================================================================
  // fewest_button_presses over all machines

  lemma SolvableHasFewest(m: Machine)
    requires Solvable(m)
    ensures exists k: nat :: Fewest(m, k)
  {
    var presses :| Solves(m, presses);
    LevelApply(m.buttons, presses);
    SolvableFewest(m, |presses|);
  }

  /** The fewest presses of a solvable machine. */
  ghost function FewestOf(m: Machine): (k: nat)
    requires Solvable(m)
    ensures Fewest(m, k)
  {
    SolvableHasFewest(m);
    var k: nat :| Fewest(m, k);
    k
  }

  ghost predicate AllSolvable(machines: seq<Machine>) {
    forall k :: 0 <= k < |machines| ==> Solvable(machines[k])
  }

  /** The sum of the fewest presses over the machines. */
  ghost function TotalFewest(machines: seq<Machine>): nat
    requires AllSolvable(machines)
  {
    if machines == [] then 0
    else TotalFewest(machines[..|machines| - 1]) + FewestOf(machines[|machines| - 1])
  }

  lemma TotalSnoc(machines: seq<Machine>, i: nat)
    requires i < |machines| && AllSolvable(machines[..i]) && Solvable(machines[i])
    ensures AllSolvable(machines[..i + 1])
    ensures TotalFewest(machines[..i + 1]) == TotalFewest(machines[..i]) + FewestOf(machines[i])
  {
    assert machines[..i + 1][..i] == machines[..i];
  }

  /** The sum over the machines of their fewest presses; `None` when some machine's
      search panics. */
  method SumFewestButtonPresses(machines: seq<Machine>) returns (r: Option<nat>)
    ensures r.Some? <==> AllSolvable(machines)
    ensures r.Some? ==> r.value == TotalFewest(machines)
  {
    var total := 0;
    for i := 0 to |machines|
      invariant AllSolvable(machines[..i])
      invariant total == TotalFewest(machines[..i])
    {
      var presses := FewestButtonPresses(machines[i]);
      if presses.None? {
        return None;
      }
      FewestUnique(machines[i], presses.value, FewestOf(machines[i]));
      TotalSnoc(machines, i);
      total := total + presses.value;
    }
    assert machines[..|machines|] == machines;
    r := Some(total);
  }
}

=== FILE: paper_rolls.dfy ===
/** Rolls of paper ('@') on a grid: a roll can be reached by a forklift when fewer
    than four of the eight cells around it hold rolls. */
module PaperRolls {
  import opened Wrappers
  import opened Grid

  /** d is one of the eight cells around c (diagonals included). */
  predicate Adjacent(c: Coords, d: Coords) {
    d != c && -1 <= d.x - c.x <= 1 && -1 <= d.y - c.y <= 1
  }

  /** The eight neighbours of c in the order `get_adjacent_coords_in_bounds` lists
      them, as signed addresses. */
  function Around(c: Coords): (r: seq<ICoords>)
    ensures |r| == 8
  {
    [AddOffset(c, ICoords(-1, 1)), AddY(c, 1), AddOffset(c, ICoords(1, 1)), AddX(c, 1),
     AddOffset(c, ICoords(-1, -1)), SubY(c, 1), AddOffset(c, ICoords(1, -1)), SubX(c, 1)]
  }

  /** The eight addresses are pairwise distinct and are exactly the neighbours. */
  lemma AroundIsNeighbourhood(c: Coords)
    ensures forall i, j :: 0 <= i < j < 8 ==> Around(c)[i] != Around(c)[j]
    ensures forall d :: Signed(d) in Around(c) <==> Adjacent(c, d)
  {
    var r := Around(c);
    forall d | Adjacent(c, d)
      ensures Signed(d) in r
    {
      var dx, dy := d.x - c.x, d.y - c.y;
      var i := if dy == 1 then dx + 1
               else if dy == 0 then (if dx == 1 then 3 else 7)
               else dx + 5;
      assert r[i] == Signed(d);
    }
  }

  /** The cells of the grid among `cands`, in order. */
  function InBounds(g: CartesianGrid<char>, cands: seq<ICoords>): (r: seq<Coords>)
    reads g
    ensures |r| <= |cands|
    ensures forall d :: d in r <==> g.CoordsInGrid(d) && Signed(d) in cands
  {
    if cands == [] then []
    else
      var rest := InBounds(g, cands[1..]);
      if g.InGrid(cands[0]) then
        g.InGridAgrees(Coords(0, 0), cands[0]);
        [ToCoords(cands[0]).value] + rest
      else
        assert forall d :: g.CoordsInGrid(d) ==> Signed(d) != cands[0] by {
          forall d | g.CoordsInGrid(d) ensures Signed(d) != cands[0] {
            g.InGridAgrees(d, cands[0]);
          }
        }
        rest
  }

  /** With pairwise distinct candidates the result has no repeats, and when every
      candidate is a cell of the grid, none is dropped. */
  lemma {:induction false} InBoundsProperties(g: CartesianGrid<char>, cands: seq<ICoords>)
    requires forall i, j :: 0 <= i < j < |cands| ==> cands[i] != cands[j]
    ensures forall i, j :: 0 <= i < j < |InBounds(g, cands)| ==> InBounds(g, cands)[i] != InBounds(g, cands)[j]
    ensures (forall i :: 0 <= i < |cands| ==> g.InGrid(cands[i])) ==> |InBounds(g, cands)| == |cands|
  {
    if cands != [] {
      InBoundsProperties(g, cands[1..]);
      var rest := InBounds(g, cands[1..]);
      if g.InGrid(cands[0]) {
        var d := ToCoords(cands[0]).value;
        assert Signed(d) !in cands[1..];
        assert d !in rest;
      }
    }
  }

  /** `get_adjacent_coords_in_bounds`: the neighbours of c that are cells of the grid,
      each once. */
  function AdjacentInBounds(g: CartesianGrid<char>, c: Coords): (r: seq<Coords>)
    reads g
    ensures |r| <= 8
    ensures forall d :: d in r <==> g.CoordsInGrid(d) && Adjacent(c, d)
    ensures c !in r
    ensures forall i, j :: 0 <= i < j < |r| ==> r[i] != r[j]
  {
    AroundIsNeighbourhood(c);
    InBoundsProperties(g, Around(c));
    InBounds(g, Around(c))
  }

  /** A cell with a full ring of cells around it has all eight neighbours in bounds. */
  lemma InteriorHasEightNeighbours(g: CartesianGrid<char>, c: Coords)
    requires 1 <= c.y && c.y + 1 < |g.grid| && 1 <= c.x
    requires forall y :: c.y - 1 <= y <= c.y + 1 ==> c.x + 1 < |g.grid[y]|
    ensures |AdjacentInBounds(g, c)| == 8
  {
    AroundIsNeighbourhood(c);
    InBoundsProperties(g, Around(c));
  }

  /** No cell listed twice. */
  predicate NoRepeats(cs: seq<Coords>) {
    forall i, j :: 0 <= i < j < |cs| ==> cs[i] != cs[j]
  }

  /** A list without repeats has as many elements as it lists cells. */
  lemma {:induction false} NoRepeatsCount(cs: seq<Coords>)
    requires NoRepeats(cs)
    ensures |set d | d in cs| == |cs|
  {
    if cs != [] {
      NoRepeatsCount(cs[1..]);
      assert (set d | d in cs) == {cs[0]} + (set d | d in cs[1..]);
      assert cs[0] !in cs[1..];
    }
  }

  /** The cells among `cs` holding a roll, in order. */
  function Rolls(g: CartesianGrid<char>, cs: seq<Coords>): (r: seq<Coords>)
    reads g
    requires forall d :: d in cs ==> g.CoordsInGrid(d)
    ensures |r| <= |cs|
    ensures forall d :: d in r <==> d in cs && g.Get(d) == '@'
    ensures NoRepeats(cs) ==> NoRepeats(r)
  {
    if cs == [] then []
    else if g.Get(cs[0]) == '@' then [cs[0]] + Rolls(g, cs[1..])
    else Rolls(g, cs[1..])
  }

  /** `get_adjacent_paper_rolls`: the neighbours of c holding a roll, each once, so
      that its length counts them. */
  function AdjacentPaperRolls(g: CartesianGrid<char>, c: Coords): (r: seq<Coords>)
    reads g
    ensures |r| <= |AdjacentInBounds(g, c)|
    ensures forall d :: d in r <==> g.CoordsInGrid(d) && Adjacent(c, d) && g.Get(d) == '@'
    ensures NoRepeats(r)
    ensures |r| == |set d | d in AdjacentInBounds(g, c) && g.Get(d) == '@'|
  {
    var r := Rolls(g, AdjacentInBounds(g, c));
    NoRepeatsCount(r);
    assert (set d | d in r) == (set d | d in AdjacentInBounds(g, c) && g.Get(d) == '@');
    r
  }

  predicate Accessible(g: CartesianGrid<char>, c: Coords)
    reads g
  {
    g.CoordsInGrid(c) && g.Get(c) == '@' && |AdjacentPaperRolls(g, c)| < 4
  }

  /** The rolls among `cs` that are accessible, in order. */
  function AccessibleAmong(g: CartesianGrid<char>, cs: seq<Coords>): (r: seq<Coords>)
    reads g
    requires forall d :: d in cs ==> g.CoordsInGrid(d)
    ensures forall d :: d in r <==> d in cs && Accessible(g, d)
    ensures NoRepeats(cs) ==> NoRepeats(r)
  {
    if cs == [] then []
    else if g.Get(cs[0]) == '@' && |AdjacentPaperRolls(g, cs[0])| < 4 then [cs[0]] + AccessibleAmong(g, cs[1..])
    else AccessibleAmong(g, cs[1..])
  }

  /** The accessible rolls are among the rolls: no more of them than rolls. */
  lemma {:induction false} AccessibleAmongRolls(g: CartesianGrid<char>, cs: seq<Coords>)
    requires forall d :: d in cs ==> g.CoordsInGrid(d)
    ensures |AccessibleAmong(g, cs)| <= |Rolls(g, cs)|
  {
    if cs != [] {
      AccessibleAmongRolls(g, cs[1..]);
    }
  }

  /** `accessible_paper_rolls` on a grid: the number of rolls with fewer than four
      rolls around them. */
  function AccessiblePaperRolls(g: CartesianGrid<char>): (n: nat)
    reads g
    ensures n == |set c | c in g.AllCoords() && Accessible(g, c)|
    ensures n <= |Rolls(g, g.AllCoords())|
  {
    AccessibleAmongRolls(g, g.AllCoords());
    AllCoordsNoRepeats(g);
    AccessibleAmongCount(g, g.AllCoords());
    |AccessibleAmong(g, g.AllCoords())|
  }

  /** Every cell of the grid is listed once. */
  lemma AllCoordsNoRepeats(g: CartesianGrid<char>)
    ensures NoRepeats(g.AllCoords())
  {
    var cs := g.AllCoords();
    forall i, j | 0 <= i < j < |cs| ensures cs[i] != cs[j] {
      assert RowMajorLess(cs[i], cs[j]);
    }
  }

  /** Among cells listed once, the accessible ones are counted once each. */
  lemma AccessibleAmongCount(g: CartesianGrid<char>, cs: seq<Coords>)
    requires forall d :: d in cs ==> g.CoordsInGrid(d)
    requires NoRepeats(cs)
    ensures |AccessibleAmong(g, cs)| == |set c | c in cs && Accessible(g, c)|
  {
    var r := AccessibleAmong(g, cs);
    NoRepeatsCount(r);
    assert (set d | d in r) == (set c | c in cs && Accessible(g, c));
  }

  /** A roll with no roll around it is always counted. */
  lemma IsolatedRollAccessible(g: CartesianGrid<char>, c: Coords)
    requires g.CoordsInGrid(c) && g.Get(c) == '@'
    requires forall d :: g.CoordsInGrid(d) && Adjacent(c, d) ==> g.Get(d) != '@'
    ensures c in AccessibleAmong(g, g.AllCoords())
  {
    RollsNone(g, AdjacentInBounds(g, c));
  }

  lemma {:induction false} RollsNone(g: CartesianGrid<char>, cs: seq<Coords>)
    requires forall d :: d in cs ==> g.CoordsInGrid(d) && g.Get(d) != '@'
    ensures Rolls(g, cs) == []
  {
    if cs != [] {
      RollsNone(g, cs[1..]);
    }
  }
}

=== FILE: rectangles.dfy ===
/** Red tiles on a floor: any two distinct red tiles are opposite corners of a
    rectangle of tiles; the answer is the area of the largest such rectangle,
    counting the tiles on its border. */
module Rectangles {
  import opened Wrappers
  import opened Text

  /** A tile, `Coords { x, y }` with unsigned components. */
  datatype Coords = Coords(x: nat, y: nat)

  function Max(a: nat, b: nat): nat {
    if a < b then b else a
  }

  function Min(a: nat, b: nat): nat {
    if a < b then a else b
  }

  /** The tiles of the rectangle with corners a and b, both ends included:
      `(1 + max - min)` along each axis. */
  function Area(a: Coords, b: Coords): nat {
    (1 + Max(a.x, b.x) - Min(a.x, b.x)) * (1 + Max(a.y, b.y) - Min(a.y, b.y))
  }

  function Dist(p: nat, q: nat): nat {
    if p < q then q - p else p - q
  }

  /** The area is (1 + |dx|)(1 + |dy|): at least 1, at least as long as each side,
      and the same from either corner. */
  lemma AreaProperties(a: Coords, b: Coords)
    ensures Area(a, b) == (1 + Dist(a.x, b.x)) * (1 + Dist(a.y, b.y))
    ensures Area(a, b) >= 1 + Dist(a.x, b.x) && Area(a, b) >= 1 + Dist(a.y, b.y)
    ensures Area(a, b) == Area(b, a)
  {
    var w, h := 1 + Dist(a.x, b.x), 1 + Dist(a.y, b.y);
    assert Area(a, b) == w * h;
    assert w * h >= w * 1;
    assert w * h >= 1 * h;
  }

  function OptMax(a: Option<nat>, b: Option<nat>): Option<nat> {
    match (a, b)
    case (None, _) => b
    case (_, None) => a
    case (Some(p), Some(q)) => Some(Max(p, q))
  }

  /** The largest score of `c` with one of `others` other than `c` itself;
      `None` when there is none. */
  function BestWith<T(==)>(c: T, others: seq<T>, score: (T, T) -> nat): Option<nat> {
    if others == [] then None
    else
      var last := others[|others| - 1];
      OptMax(BestWith(c, others[..|others| - 1], score), if last == c then None else Some(score(c, last)))
  }

  /** The largest score of the pairs `(firsts[i], seconds[j])` of distinct
      elements: `cartesian_product`, `filter` of equal pairs, then `max`. */
  function BestAmong<T(==)>(firsts: seq<T>, seconds: seq<T>, score: (T, T) -> nat): Option<nat> {
    if firsts == [] then None
    else OptMax(BestAmong(firsts[..|firsts| - 1], seconds, score), BestWith(firsts[|firsts| - 1], seconds, score))
  }

  /** The answer before the final `unwrap`: the largest area of two distinct tiles. */
  function LargestArea(coords: seq<Coords>): Option<nat> {
    BestAmong(coords, coords, Area)
  }

  lemma OptMaxOf(a: Option<nat>, b: Option<nat>)
    ensures OptMax(a, b).None? <==> a.None? && b.None?
    ensures OptMax(a, b).Some? ==> OptMax(a, b) == a || OptMax(a, b) == b
    ensures a.Some? ==> a.value <= OptMax(a, b).value
    ensures b.Some? ==> b.value <= OptMax(a, b).value
  {
  }

  /** No pair of distinct elements, the first among `firsts`, the second among
      `seconds`. */
  predicate NoDistinctPair<T(==)>(firsts: seq<T>, seconds: seq<T>) {
    forall i, j :: 0 <= i < |firsts| && 0 <= j < |seconds| ==> firsts[i] == seconds[j]
  }

  /** No such pair scores above m. */
  predicate Bounds<T(==)>(firsts: seq<T>, seconds: seq<T>, score: (T, T) -> nat, m: nat) {
    forall i, j :: 0 <= i < |firsts| && 0 <= j < |seconds| && firsts[i] != seconds[j] ==> score(firsts[i], seconds[j]) <= m
  }

  /** Some such pair scores m. */
  ghost predicate Reaches<T>(firsts: seq<T>, seconds: seq<T>, score: (T, T) -> nat, m: nat) {
    exists i, j :: 0 <= i < |firsts| && 0 <= j < |seconds| && firsts[i] != seconds[j] && score(firsts[i], seconds[j]) == m
  }

  lemma {:induction false} BestWithIsBest<T>(c: T, others: seq<T>, score: (T, T) -> nat)
    ensures BestWith(c, others, score).None? <==> NoDistinctPair([c], others)
    ensures BestWith(c, others, score).Some? ==> Bounds([c], others, score, BestWith(c, others, score).value)
    ensures BestWith(c, others, score).Some? ==> Reaches([c], others, score, BestWith(c, others, score).value)
  {
    if others != [] {
      var init := others[..|others| - 1];
      var last := others[|others| - 1];
      var here: Option<nat> := if last == c then None else Some(score(c, last));
      var prev := BestWith(c, init, score);
      BestWithIsBest(c, init, score);
      OptMaxOf(prev, here);
      var r := BestWith(c, others, score);
      assert forall j :: 0 <= j < |init| ==> init[j] == others[j];
      if r.Some? {
        var m := r.value;
        forall i, j | 0 <= i < 1 && 0 <= j < |others| && [c][i] != others[j]
          ensures score([c][i], others[j]) <= m
        {
          if j < |init| {
            assert prev.Some? && score([c][i], init[j]) <= prev.value;
          }
        }
        if r == prev {
          var i, j :| 0 <= i < 1 && 0 <= j < |init| && [c][i] != init[j] && score([c][i], init[j]) == m;
          assert others[j] == init[j];
        } else {
          assert [c][0] != others[|others| - 1] && score([c][0], others[|others| - 1]) == m;
        }
      }
    }
  }

  /** No distinct pair is found exactly when there is none. */
  lemma {:induction false} BestAmongNone<T>(firsts: seq<T>, seconds: seq<T>, score: (T, T) -> nat)
    ensures BestAmong(firsts, seconds, score).None? <==> NoDistinctPair(firsts, seconds)
  {
    if firsts != [] {
      var init := firsts[..|firsts| - 1];
      var c := firsts[|firsts| - 1];
      BestAmongNone(init, seconds, score);
      BestWithIsBest(c, seconds, score);
      OptMaxOf(BestAmong(init, seconds, score), BestWith(c, seconds, score));
      assert forall i :: 0 <= i < |init| ==> init[i] == firsts[i];
      if !NoDistinctPair(firsts, seconds) && NoDistinctPair(init, seconds) {
        var i, j :| 0 <= i < |firsts| && 0 <= j < |seconds| && firsts[i] != seconds[j];
        assert i == |firsts| - 1;
        assert [c][0] != seconds[j];
      }
    }
  }

  /** What is found bounds every distinct pair and is reached by one. */
  lemma {:induction false} BestAmongIsBest<T>(firsts: seq<T>, seconds: seq<T>, score: (T, T) -> nat)
    requires BestAmong(firsts, seconds, score).Some?
    ensures Bounds(firsts, seconds, score, BestAmong(firsts, seconds, score).value)
    ensures Reaches(firsts, seconds, score, BestAmong(firsts, seconds, score).value)
  {
    var init := firsts[..|firsts| - 1];
    var c := firsts[|firsts| - 1];
    var prev, here := BestAmong(init, seconds, score), BestWith(c, seconds, score);
    var m := BestAmong(firsts, seconds, score).value;
    if prev.Some? {
      BestAmongIsBest(init, seconds, score);
    }
    BestWithIsBest(c, seconds, score);
    BestAmongNone(init, seconds, score);
    OptMaxOf(prev, here);
    forall i, j | 0 <= i < |firsts| && 0 <= j < |seconds| && firsts[i] != seconds[j]
      ensures score(firsts[i], seconds[j]) <= m
    {
      if i < |init| {
        assert init[i] == firsts[i];
        assert prev.Some? && score(init[i], seconds[j]) <= prev.value;
      } else {
        assert [c][0] == firsts[i];
        assert here.Some? && score([c][0], seconds[j]) <= here.value;
      }
    }
    if prev.Some? && m == prev.value {
      var i, j :| 0 <= i < |init| && 0 <= j < |seconds| && init[i] != seconds[j] && score(init[i], seconds[j]) == m;
      assert firsts[i] == init[i];
    } else {
      var i, j :| 0 <= i < 1 && 0 <= j < |seconds| && [c][i] != seconds[j] && score([c][i], seconds[j]) == m;
      assert firsts[|firsts| - 1] == c;
    }
  }

  /** The answer exists exactly when two of the tiles differ, and it is then the
      largest area of a pair of distinct tiles, reached by one of them. */
  lemma LargestAreaIsLargest(coords: seq<Coords>)
    ensures LargestArea(coords).None? <==> forall i, j :: 0 <= i < |coords| && 0 <= j < |coords| ==> coords[i] == coords[j]
    ensures LargestArea(coords).Some? ==> forall i, j :: 0 <= i < |coords| && 0 <= j < |coords| && coords[i] != coords[j] ==> Area(coords[i], coords[j]) <= LargestArea(coords).value
    ensures LargestArea(coords).Some? ==> exists i, j :: 0 <= i < |coords| && 0 <= j < |coords| && coords[i] != coords[j] && Area(coords[i], coords[j]) == LargestArea(coords).value
  {
    BestAmongNone(coords, coords, Area);
    if LargestArea(coords).Some? {
      BestAmongIsBest(coords, coords, Area);
    }
  }

  /** `parse_coords` of one line: the numbers before and after its first ','.
      `None` where the program panics. */
  function ParseTile(line: string): (r: Option<Coords>)
    ensures r.Some? <==> SplitOnce(line, ',').Some?
                         && ParseUnsigned(SplitOnce(line, ',').value.0).Some?
                         && ParseUnsigned(SplitOnce(line, ',').value.1).Some?
  {
    match SplitOnce(line, ',')
    case None => None
    case Some((x, y)) =>
      match (ParseUnsigned(x), ParseUnsigned(y))
      case (Some(a), Some(b)) => Some(Coords(a, b))
      case _ => None
  }

  function FormatTile(c: Coords): string {
    NatToString(c.x) + "," + NatToString(c.y)
  }

  lemma ParseFormatTile(c: Coords)
    ensures ParseTile(FormatTile(c)) == Some(c)
  {
    var a, b := NatToString(c.x), NatToString(c.y);
    NumeralWithout(a, ',');
    assert FormatTile(c) == a + [','] + b;
    SplitOnceOf(a, ',', b);
    ParseUnsignedToString(c.x);
    ParseUnsignedToString(c.y);
  }

  /** `parse_coords`: one tile per line, in order. */
  function ParseCoords(lines: seq<string>): (r: Option<seq<Coords>>)
    ensures r.Some? <==> forall k :: 0 <= k < |lines| ==> ParseTile(lines[k]).Some?
    ensures r.Some? ==> |r.value| == |lines| && forall k :: 0 <= k < |lines| ==> r.value[k] == ParseTile(lines[k]).value
  {
    if lines == [] then Some([])
    else
      match (ParseTile(lines[0]), ParseCoords(lines[1..]))
      case (Some(c), Some(cs)) => Some([c] + cs)
      case _ => None
  }

  /** Reading the written tiles gives them back. */
  lemma ParseFormatCoords(coords: seq<Coords>)
    ensures ParseCoords(seq(|coords|, k requires 0 <= k < |coords| => FormatTile(coords[k]))) == Some(coords)
  {
    var lines := seq(|coords|, k requires 0 <= k < |coords| => FormatTile(coords[k]));
    forall k | 0 <= k < |coords| ensures ParseTile(lines[k]) == Some(coords[k]) {
      ParseFormatTile(coords[k]);
    }
    assert ParseCoords(lines).value == coords;
  }

  /** `area_of_largest_rectangle`: the largest rectangle of the tiles on the lines.
      `None` where the program panics: a line that does not parse, or no two
      distinct tiles (`max()` of nothing). */
  function AreaOfLargestRectangle(lines: seq<string>): (r: Option<nat>)
    ensures r.Some? <==> ParseCoords(lines).Some? && LargestArea(ParseCoords(lines).value).Some?
    ensures r.Some? ==> r == LargestArea(ParseCoords(lines).value)
    ensures r.Some? ==> r.value >= 1
  {
    match ParseCoords(lines)
    case None => None
    case Some(coords) =>
      LargestAreaIsLargest(coords);
      match LargestArea(coords)
      case None => None
      case Some(m) =>
        var i, j :| 0 <= i < |coords| && 0 <= j < |coords| && coords[i] != coords[j] && Area(coords[i], coords[j]) == m;
        AreaProperties(coords[i], coords[j]);
        Some(m)
  }
}

=== FILE: text.dfy ===
/** The string operations of Rust's standard library that the puzzles use to take
    their input apart: `str::split`, `str::split_once`, `str::split_ascii_whitespace`,
    `str::trim`, `u64::to_string` and `str::parse` on decimal numerals. */
module Text {
  import opened Wrappers

  /** `char::is_ascii_whitespace`: space, tab, line feed, form feed, carriage return. */
  predicate IsAsciiWhitespace(c: char) {
    c == ' ' || c == '\t' || c == '\n' || c == '\U{000C}' || c == '\r'
  }

  /** `char::is_whitespace`: the Unicode White_Space property. */
  predicate IsWhitespace(c: char) {
    ('\t' <= c <= '\r') || c == ' ' || c == '\U{0085}' || c == '\U{00A0}' || c == '\U{1680}'
    || ('\U{2000}' <= c <= '\U{200A}') || c == '\U{2028}' || c == '\U{2029}' || c == '\U{202F}'
    || c == '\U{205F}' || c == '\U{3000}'
  }

  predicate IsDigit(c: char) { '0' <= c <= '9' }

  /** A decimal numeral as `parse::<u64>()` accepts it without a sign. */
  predicate IsNumeral(s: string) {
    |s| > 0 && forall k :: 0 <= k < |s| ==> IsDigit(s[k])
  }

  lemma NumeralWithout(s: string, c: char)
    requires IsNumeral(s) && !IsDigit(c)
    ensures c !in s
  {
  }

  // ---------------------------------------------------------------------------
  // str::split(sep) and slice::split on one separator, and their inverse

  /** Joins the parts with one separator between neighbours. */
  function Join<T>(parts: seq<seq<T>>, sep: T): seq<T> {
    if |parts| == 0 then []
    else if |parts| == 1 then parts[0]
    else parts[0] + [sep] + Join(parts[1..], sep)
  }

  /** `s.split(sep)`: the pieces between separators; k separators give k + 1 pieces,
      some possibly empty. */
  function Split<T(==)>(s: seq<T>, sep: T): (parts: seq<seq<T>>)
    ensures |parts| >= 1
    ensures forall k :: 0 <= k < |parts| ==> sep !in parts[k]
    ensures Join(parts, sep) == s
  {
    if s == [] then [[]]
    else
      var rest := Split(s[1..], sep);
      if s[0] == sep then [[]] + rest
      else [[s[0]] + rest[0]] + rest[1..]
  }

  lemma {:induction false} SplitAfterPiece<T>(a: seq<T>, sep: T, r: seq<T>)
    requires sep !in a
    ensures Split(a + [sep] + r, sep) == [a] + Split(r, sep)
  {
    if a == [] {
      assert a + [sep] + r == [sep] + r;
    } else {
      assert (a + [sep] + r)[1..] == a[1..] + [sep] + r;
      SplitAfterPiece(a[1..], sep, r);
      assert [a[0]] + a[1..] == a;
    }
  }

  lemma {:induction false} SplitOfPiece<T>(a: seq<T>, sep: T)
    requires sep !in a
    ensures Split(a, sep) == [a]
  {
    if a != [] {
      SplitOfPiece(a[1..], sep);
    }
  }

  /** Splitting what `Join` built gives the parts back. */
  lemma {:induction false} SplitJoin<T>(parts: seq<seq<T>>, sep: T)
    requires |parts| >= 1
    requires forall k :: 0 <= k < |parts| ==> sep !in parts[k]
    ensures Split(Join(parts, sep), sep) == parts
  {
    if |parts| == 1 {
      SplitOfPiece(parts[0], sep);
    } else {
      SplitJoin(parts[1..], sep);
      SplitAfterPiece(parts[0], sep, Join(parts[1..], sep));
    }
  }

  // ---------------------------------------------------------------------------
  // str::split_once(sep)

  /** The position of the first `sep` in `s`. */
  function IndexOf(s: string, sep: char): (i: nat)
    requires sep in s
    ensures i < |s| && s[i] == sep && sep !in s[..i]
  {
    if s[0] == sep then 0 else 1 + IndexOf(s[1..], sep)
  }

  /** `s.split_once(sep)`: the text before and after the first `sep`. */
  function SplitOnce(s: string, sep: char): (r: Option<(string, string)>)
    ensures r.None? <==> sep !in s
    ensures r.Some? ==> s == r.value.0 + [sep] + r.value.1 && sep !in r.value.0
  {
    if sep !in s then None
    else
      var i := IndexOf(s, sep);
      assert s == s[..i] + [sep] + s[i + 1..];
      Some((s[..i], s[i + 1..]))
  }

  /** Splitting at the first `sep` a text written as `a`, `sep`, `b` (no `sep` in
      `a`) gives `a` and `b` back. */
  lemma SplitOnceOf(a: string, sep: char, b: string)
    requires sep !in a
    ensures SplitOnce(a + [sep] + b, sep) == Some((a, b))
  {
    var s := a + [sep] + b;
    assert s[|a|] == sep;
    var r := SplitOnce(s, sep);
    var a', b' := r.value.0, r.value.1;
    assert a' == s[..|a|] == a;
    assert b' == s[|a| + 1..] == b;
  }

  // ---------------------------------------------------------------------------
  // str::split_ascii_whitespace

  /** The leading run of `s` without ASCII whitespace. */
  function LeadingWord(s: string): (w: string)
    ensures w <= s
    ensures forall k :: 0 <= k < |w| ==> !IsAsciiWhitespace(w[k])
    ensures |w| < |s| ==> IsAsciiWhitespace(s[|w|])
  {
    if s == [] || IsAsciiWhitespace(s[0]) then [] else [s[0]] + LeadingWord(s[1..])
  }

  /** The characters of `s` that are not ASCII whitespace, in order. */
  function NonWhitespace(s: string): string {
    if s == [] then []
    else if IsAsciiWhitespace(s[0]) then NonWhitespace(s[1..])
    else [s[0]] + NonWhitespace(s[1..])
  }

  function Concat(ws: seq<string>): string {
    if ws == [] then [] else ws[0] + Concat(ws[1..])
  }

  /** `s.split_ascii_whitespace()`: the maximal runs of non-whitespace characters. */
  function Words(s: string): (ws: seq<string>)
    ensures forall k :: 0 <= k < |ws| ==> ws[k] != []
    ensures forall k, i :: 0 <= k < |ws| && 0 <= i < |ws[k]| ==> !IsAsciiWhitespace(ws[k][i])
    decreases |s|
  {
    if s == [] then []
    else if IsAsciiWhitespace(s[0]) then Words(s[1..])
    else
      var w := LeadingWord(s);
      [w] + Words(s[|w|..])
  }

  lemma {:induction false} NonWhitespaceOfWord(w: string, r: string)
    requires forall k :: 0 <= k < |w| ==> !IsAsciiWhitespace(w[k])
    ensures NonWhitespace(w + r) == w + NonWhitespace(r)
  {
    if w != [] {
      var wr := w + r;
      assert wr[0] == w[0] && !IsAsciiWhitespace(w[0]) && wr[1..] == w[1..] + r;
      NonWhitespaceOfWord(w[1..], r);
      calc {
        NonWhitespace(wr);
        [w[0]] + NonWhitespace(w[1..] + r);
        [w[0]] + (w[1..] + NonWhitespace(r));
        { assert [w[0]] + w[1..] == w; }
        w + NonWhitespace(r);
      }
    } else {
      assert w + r == r;
    }
  }

  /** The words hold exactly the non-whitespace characters of the line, in order. */
  lemma {:induction false} WordsKeepText(s: string)
    ensures Concat(Words(s)) == NonWhitespace(s)
    decreases |s|
  {
    if s != [] {
      if IsAsciiWhitespace(s[0]) {
        WordsKeepText(s[1..]);
      } else {
        var w := LeadingWord(s);
        WordsKeepText(s[|w|..]);
        assert s == w + s[|w|..];
        NonWhitespaceOfWord(w, s[|w|..]);
      }
    }
  }

  lemma {:induction false} LeadingWordOf(w: string, r: string)
    requires forall k :: 0 <= k < |w| ==> !IsAsciiWhitespace(w[k])
    requires r == [] || IsAsciiWhitespace(r[0])
    ensures LeadingWord(w + r) == w
  {
    if w == [] {
      assert w + r == r;
    } else {
      assert (w + r)[1..] == w[1..] + r;
      LeadingWordOf(w[1..], r);
      assert [w[0]] + w[1..] == w;
    }
  }

  /** Splitting words joined by single spaces at whitespace gives the words back. */
  lemma {:induction false} WordsOfJoin(ws: seq<string>)
    requires forall k :: 0 <= k < |ws| ==> ws[k] != []
    requires forall k, i :: 0 <= k < |ws| && 0 <= i < |ws[k]| ==> !IsAsciiWhitespace(ws[k][i])
    ensures Words(Join(ws, ' ')) == ws
  {
    if |ws| == 1 {
      LeadingWordOf(ws[0], []);
      assert ws[0] + [] == ws[0];
    } else if |ws| > 1 {
      var rest := Join(ws[1..], ' ');
      var s := ws[0] + [' '] + rest;
      assert s == ws[0] + ([' '] + rest);
      LeadingWordOf(ws[0], [' '] + rest);
      assert s[|ws[0]|..] == [' '] + rest;
      assert ([' '] + rest)[1..] == rest;
      WordsOfJoin(ws[1..]);
    }
  }

  predicate AllAsciiWhitespace(s: string) {
    forall k :: 0 <= k < |s| ==> IsAsciiWhitespace(s[k])
  }

  /** A non-empty run of characters none of which is ASCII whitespace. */
  predicate IsWord(w: string) {
    w != [] && forall k :: 0 <= k < |w| ==> !IsAsciiWhitespace(w[k])
  }

  /** The words with gap k before word k and the last gap after the last word. */
  function Spaced(gaps: seq<string>, ws: seq<string>): string
    requires |gaps| == |ws| + 1
  {
    if ws == [] then gaps[0] else gaps[0] + ws[0] + Spaced(gaps[1..], ws[1..])
  }

  /** Leading whitespace gives no word. */
  lemma {:induction false} WordsAfterBlank(gap: string, r: string)
    requires AllAsciiWhitespace(gap)
    ensures Words(gap + r) == Words(r)
  {
    if gap == [] {
      assert gap + r == r;
    } else {
      assert (gap + r)[1..] == gap[1..] + r;
      WordsAfterBlank(gap[1..], r);
    }
  }

  /** Words separated by runs of whitespace of any length, with optional whitespace
      before the first and after the last, split back into exactly those words. */
  lemma {:induction false} WordsOfSpaced(gaps: seq<string>, ws: seq<string>)
    requires |gaps| == |ws| + 1
    requires forall k :: 0 <= k < |gaps| ==> AllAsciiWhitespace(gaps[k])
    requires forall k :: 0 < k < |ws| ==> gaps[k] != []
    requires forall k :: 0 <= k < |ws| ==> IsWord(ws[k])
    ensures Words(Spaced(gaps, ws)) == ws
  {
    if ws == [] {
      WordsAfterBlank(gaps[0], []);
      assert gaps[0] + [] == gaps[0];
    } else {
      var w := ws[0];
      var rest := Spaced(gaps[1..], ws[1..]);
      assert Spaced(gaps, ws) == gaps[0] + (w + rest);
      WordsAfterBlank(gaps[0], w + rest);
      if |ws| == 1 {
        assert rest == gaps[1];
      } else {
        assert gaps[1] != [] && rest == gaps[1] + (ws[1] + Spaced(gaps[2..], ws[2..]));
        assert rest[0] == gaps[1][0];
      }
      LeadingWordOf(w, rest);
      assert (w + rest)[|w|..] == rest;
      assert (w + rest)[0] == w[0];
      WordsOfSpaced(gaps[1..], ws[1..]);
    }
  }

  // ---------------------------------------------------------------------------
  // str::trim

  /** `s.trim_start()`: `s` without its leading whitespace. */
  function TrimStart(s: string): (t: string)
    ensures |t| <= |s| && t == s[|s| - |t|..]
    ensures t == [] || !IsWhitespace(t[0])
    ensures forall k :: 0 <= k < |s| - |t| ==> IsWhitespace(s[k])
  {
    if s != [] && IsWhitespace(s[0]) then TrimStart(s[1..]) else s
  }

  /** `s.trim_end()`: `s` without its trailing whitespace. */
  function TrimEnd(s: string): (t: string)
    ensures |t| <= |s| && t == s[..|t|]
    ensures t == [] || !IsWhitespace(t[|t| - 1])
    ensures forall k :: |t| <= k < |s| ==> IsWhitespace(s[k])
  {
    if s != [] && IsWhitespace(s[|s| - 1]) then TrimEnd(s[..|s| - 1]) else s
  }

  /** `s.trim()`: `s` without leading and trailing whitespace. */
  function Trim(s: string): (t: string)
    ensures t == [] || (!IsWhitespace(t[0]) && !IsWhitespace(t[|t| - 1]))
  {
    TrimEnd(TrimStart(s))
  }

  /** Trimming removes exactly the whitespace around a text that neither starts
      nor ends with whitespace. */
  lemma TrimPadded(pre: string, t: string, post: string)
    requires forall k :: 0 <= k < |pre| ==> IsWhitespace(pre[k])
    requires forall k :: 0 <= k < |post| ==> IsWhitespace(post[k])
    requires t != [] && !IsWhitespace(t[0]) && !IsWhitespace(t[|t| - 1])
    ensures Trim(pre + t + post) == t
  {
    TrimStartPadded(pre, t + post);
    assert pre + t + post == pre + (t + post);
    TrimEndPadded(t, post);
  }

  lemma {:induction false} TrimStartPadded(pre: string, u: string)
    requires forall k :: 0 <= k < |pre| ==> IsWhitespace(pre[k])
    requires u == [] || !IsWhitespace(u[0])
    ensures TrimStart(pre + u) == u
  {
    if pre == [] {
      assert pre + u == u;
    } else {
      assert (pre + u)[1..] == pre[1..] + u;
      TrimStartPadded(pre[1..], u);
    }
  }

  lemma {:induction false} TrimEndPadded(u: string, post: string)
    requires forall k :: 0 <= k < |post| ==> IsWhitespace(post[k])
    requires u == [] || !IsWhitespace(u[|u| - 1])
    ensures TrimEnd(u + post) == u
    decreases |post|
  {
    if post == [] {
      assert u + post == u;
    } else {
      var init := post[..|post| - 1];
      assert (u + post)[..|u + post| - 1] == u + init;
      TrimEndPadded(u, init);
    }
  }

  // ---------------------------------------------------------------------------
  // Decimal numerals: u64::to_string and str::parse

  function DigitValue(c: char): nat
    requires IsDigit(c)
  {
    (c as int - '0' as int) as nat
  }

  function DigitChar(d: nat): (c: char)
    requires d < 10
    ensures IsDigit(c) && DigitValue(c) == d
  {
    (d + '0' as int) as char
  }

  /** `n.to_string()`: the decimal numeral of `n`, without leading zeros. */
  function NatToString(n: nat): (s: string)
    ensures IsNumeral(s)
    ensures s[0] != '0' || n == 0
  {
    if n < 10 then [DigitChar(n)] else NatToString(n / 10) + [DigitChar(n % 10)]
  }

  /** `s.parse::<u64>()` on a numeral: its value, most significant digit first. */
  function ParseNat(s: string): nat
    requires IsNumeral(s)
  {
    if |s| == 1 then DigitValue(s[0])
    else 10 * ParseNat(s[..|s| - 1]) + DigitValue(s[|s| - 1])
  }

  /** Parsing the printed value gives the value back. */
  lemma {:induction false} ParseNatToString(n: nat)
    ensures ParseNat(NatToString(n)) == n
  {
    if n >= 10 {
      var s := NatToString(n);
      assert s[..|s| - 1] == NatToString(n / 10);
      ParseNatToString(n / 10);
    }
  }

  /** Printing a parsed numeral without leading zeros gives the numeral back. */
  lemma {:induction false} NatToStringParse(s: string)
    requires IsNumeral(s) && (s[0] != '0' || |s| == 1)
    ensures NatToString(ParseNat(s)) == s
  {
    if |s| > 1 {
      var p := s[..|s| - 1];
      NatToStringParse(p);
      ParseNatPositive(p);
      var n := ParseNat(s);
      assert n / 10 == ParseNat(p) && n % 10 == DigitValue(s[|s| - 1]);
      assert DigitChar(DigitValue(s[|s| - 1])) == s[|s| - 1];
      assert s == p + [s[|s| - 1]];
    }
  }

  lemma {:induction false} ParseNatPositive(s: string)
    requires IsNumeral(s) && s[0] != '0'
    ensures ParseNat(s) > 0
  {
    if |s| > 1 {
      ParseNatPositive(s[..|s| - 1]);
    }
  }

  /** `s.parse::<u64>()` without its overflow check: a numeral, optionally after
      one '+'; `None` for anything else. */
  function ParseUnsigned(s: string): (r: Option<nat>)
    ensures r.Some? <==> IsNumeral(s) || (|s| >= 2 && s[0] == '+' && IsNumeral(s[1..]))
    ensures IsNumeral(s) ==> r == Some(ParseNat(s))
    ensures |s| >= 2 && s[0] == '+' && IsNumeral(s[1..]) ==> r == Some(ParseNat(s[1..]))
  {
    if IsNumeral(s) then Some(ParseNat(s))
    else if |s| >= 2 && s[0] == '+' && IsNumeral(s[1..]) then Some(ParseNat(s[1..]))
    else None
  }

  /** Parsing a printed value gives it back. */
  lemma ParseUnsignedToString(n: nat)
    ensures ParseUnsigned(NatToString(n)) == Some(n)
  {
    ParseNatToString(n);
  }

  /** `s.parse::<i32>()` without its overflow check: a numeral, optionally after
      one '+' or '-'; `None` for anything else. */
  function ParseInteger(s: string): (r: Option<int>)
    ensures r.Some? <==> ParseUnsigned(s).Some? || (|s| >= 2 && s[0] == '-' && IsNumeral(s[1..]))
    ensures ParseUnsigned(s).Some? ==> r == Some(ParseUnsigned(s).value as int)
    ensures |s| >= 2 && s[0] == '-' && IsNumeral(s[1..]) ==> r == Some(-(ParseNat(s[1..]) as int))
  {
    if |s| >= 2 && s[0] == '-' && IsNumeral(s[1..]) then Some(0 - ParseNat(s[1..]) as int)
    else match ParseUnsigned(s)
      case Some(n) => Some(n)
      case None => None
  }

  /** Printing an integer with a leading '-' when it is negative. */
  function IntToString(i: int): string {
    if i < 0 then "-" + NatToString(-i) else NatToString(i)
  }

  /** Parsing a printed integer gives it back. */
  lemma ParseIntegerToString(i: int)
    ensures ParseInteger(IntToString(i)) == Some(i)
  {
    if i < 0 {
      var s := IntToString(i);
      assert s[1..] == NatToString(-i);
      ParseNatToString(-i);
    } else {
      ParseUnsignedToString(i);
    }
  }

  // ---------------------------------------------------------------------------
  // Lengths of numerals

  function Pow10(k: nat): (p: nat)
    ensures p >= 1
  {
    if k == 0 then 1 else 10 * Pow10(k - 1)
  }

  lemma {:induction false} Pow10Monotone(j: nat, k: nat)
    requires j <= k
    ensures Pow10(j) <= Pow10(k)
    decreases k
  {
    if j < k {
      Pow10Monotone(j, k - 1);
    }
  }

  lemma NumeralAppend(a: string, b: string)
    requires IsNumeral(a) && IsNumeral(b)
    ensures IsNumeral(a + b)
  {
    var ab := a + b;
    forall k | 0 <= k < |ab| ensures IsDigit(ab[k]) {
      if k >= |a| { assert ab[k] == b[k - |a|]; }
    }
  }

  /** The value of two numerals written one after the other. */
  lemma {:induction false} ParseNatAppend(a: string, b: string)
    requires IsNumeral(a) && IsNumeral(b)
    ensures IsNumeral(a + b)
    ensures ParseNat(a + b) == ParseNat(a) * Pow10(|b|) + ParseNat(b)
    decreases |b|
  {
    NumeralAppend(a, b);
    var ab := a + b;
    var last := b[|b| - 1];
    assert ab[|ab| - 1] == last;
    if |b| == 1 {
      assert ab[..|ab| - 1] == a;
    } else {
      var init := b[..|b| - 1];
      assert ab[..|ab| - 1] == a + init;
      ParseNatAppend(a, init);
      ShiftDigit(ParseNat(a), Pow10(|init|), ParseNat(init), DigitValue(last));
    }
  }

  lemma ShiftDigit(x: nat, p: nat, y: nat, d: nat)
    ensures 10 * (x * p + y) + d == x * (10 * p) + (10 * y + d)
  {
  }

  /** A numeral of k digits is below 10^k, and at least 10^(k-1) without a
      leading zero. */
  lemma {:induction false} ParseNatBounds(s: string)
    requires IsNumeral(s)
    ensures ParseNat(s) < Pow10(|s|)
    ensures s[0] != '0' ==> Pow10(|s| - 1) <= ParseNat(s)
  {
    if |s| > 1 {
      var init := s[..|s| - 1];
      ParseNatBounds(init);
      assert init[0] == s[0];
    }
  }

  /** `n.to_string()` has k digits exactly when 10^(k-1) <= n < 10^k. */
  lemma NatToStringLength(n: nat, k: nat)
    requires 1 <= k && Pow10(k - 1) <= n < Pow10(k)
    ensures |NatToString(n)| == k
  {
    var s := NatToString(n);
    ParseNatToString(n);
    ParseNatBounds(s);
    if |s| > k {
      Pow10Monotone(k, |s| - 1);
    } else if |s| < k {
      Pow10Monotone(|s|, k - 1);
    }
  }
}

=== FILE: worksheet.dfy ===
/** The cephalopod maths worksheet: rows of numbers above a last line of operations.
    Read by rows, problem i takes the i-th number of every row; read by columns,
    each character column is one number and blank columns separate problems. */
module Worksheet {
  import opened Wrappers
  import opened Text

  // ---------------------------------------------------------------------------
  // Sums and products

  function Sum(ns: seq<nat>): nat {
    if ns == [] then 0 else ns[0] + Sum(ns[1..])
  }

  function Product(ns: seq<nat>): nat {
    if ns == [] then 1 else ns[0] * Product(ns[1..])
  }

  lemma {:induction false} SumAppend(a: seq<nat>, b: seq<nat>)
    ensures Sum(a + b) == Sum(a) + Sum(b)
  {
    if a == [] {
      assert a + b == b;
    } else {
      assert (a + b)[1..] == a[1..] + b;
      SumAppend(a[1..], b);
    }
  }

  lemma {:induction false} ProductAppend(a: seq<nat>, b: seq<nat>)
    ensures Product(a + b) == Product(a) * Product(b)
  {
    if a == [] {
      assert a + b == b;
    } else {
      assert (a + b)[1..] == a[1..] + b;
      ProductAppend(a[1..], b);
      assert a[0] * (Product(a[1..]) * Product(b)) == (a[0] * Product(a[1..])) * Product(b);
    }
  }

  /** `solve_problem`: '+' adds the numbers up; every other operation multiplies
      them, starting from 1. */
  function SolveProblem(numbers: seq<nat>, op: char): nat {
    if op == '+' then Sum(numbers) else Product(numbers)
  }

  /** A problem with no numbers gives 0 for '+' and 1 otherwise; a problem with one
      number gives that number whatever the operation. */
  lemma SolveProblemDegenerate(n: nat, op: char)
    ensures SolveProblem([], op) == if op == '+' then 0 else 1
    ensures SolveProblem([n], op) == n
  {
    assert [n][1..] == [];
  }

  /** One answer per operation: problem i solved with operation i. */
  function Answers(problems: seq<seq<nat>>, ops: seq<char>): (r: seq<nat>)
    requires |ops| <= |problems|
    ensures |r| == |ops|
  {
    seq(|ops|, i requires 0 <= i < |ops| => SolveProblem(problems[i], ops[i]))
  }

  // ---------------------------------------------------------------------------
  // Reading the worksheet by rows

  /** `parse_operations`: the first character of each token on the last line. */
  function ParseOperations(lines: seq<string>): (ops: seq<char>)
    requires |lines| >= 1
    ensures |ops| == |Words(lines[|lines| - 1])|
    ensures forall i :: 0 <= i < |ops| ==> ops[i] == Words(lines[|lines| - 1])[i][0]
    ensures forall i :: 0 <= i < |ops| ==> !IsAsciiWhitespace(ops[i])
  {
    var ws := Words(lines[|lines| - 1]);
    seq(|ws|, i requires 0 <= i < |ws| => ws[i][0])
  }

  /** Operations written one character each, separated by single spaces. */
  function OperationLine(ops: seq<char>): string {
    Join(seq(|ops|, i requires 0 <= i < |ops| => [ops[i]]), ' ')
  }

  /** Parsing a printed line of operations gives the operations back. */
  lemma ParseOperationsOfLine(lines: seq<string>, ops: seq<char>)
    requires forall i :: 0 <= i < |ops| ==> !IsAsciiWhitespace(ops[i])
    ensures ParseOperations(lines + [OperationLine(ops)]) == ops
  {
    var ws := seq(|ops|, i requires 0 <= i < |ops| => [ops[i]]);
    WordsOfJoin(ws);
    assert (lines + [OperationLine(ops)])[|lines|] == OperationLine(ops);
  }

  /** Parses every token; `None` (a panic in the program) when one is not a number. */
  function ParseAll(tokens: seq<string>): (r: Option<seq<nat>>)
    ensures r.Some? <==> forall k :: 0 <= k < |tokens| ==> ParseUnsigned(tokens[k]).Some?
    ensures r.Some? ==> |r.value| == |tokens|
    ensures r.Some? ==> forall k :: 0 <= k < |tokens| ==> r.value[k] == ParseUnsigned(tokens[k]).value
  {
    if tokens == [] then Some([])
    else
      match (ParseUnsigned(tokens[0]), ParseAll(tokens[1..]))
      case (Some(n), Some(ns)) => Some([n] + ns)
      case _ => None
  }

  /** The rows of numbers on `lines`, one row per line. */
  function ParseRows(lines: seq<string>): (r: Option<seq<seq<nat>>>)
    ensures r.Some? <==> forall k :: 0 <= k < |lines| ==> ParseAll(Words(lines[k])).Some?
    ensures r.Some? ==> |r.value| == |lines|
    ensures r.Some? ==> forall k :: 0 <= k < |lines| ==> Some(r.value[k]) == ParseAll(Words(lines[k]))
  {
    if lines == [] then Some([])
    else
      match (ParseAll(Words(lines[0])), ParseRows(lines[1..]))
      case (Some(row), Some(rows)) => Some([row] + rows)
      case _ => None
  }

  /** `parse_numbers`: every line but the last, split at whitespace and parsed. */
  function ParseNumbers(lines: seq<string>): (r: Option<seq<seq<nat>>>)
    requires |lines| >= 1
    ensures r.Some? <==> forall k :: 0 <= k < |lines| - 1 ==> ParseAll(Words(lines[k])).Some?
    ensures r.Some? ==> |r.value| == |lines| - 1
    ensures r.Some? ==> forall k :: 0 <= k < |lines| - 1 ==> Some(r.value[k]) == ParseAll(Words(lines[k]))
  {
    ParseRows(lines[..|lines| - 1])
  }

  /** A row of numbers printed in decimal, separated by single spaces. */
  function NumberLine(row: seq<nat>): string {
    Join(seq(|row|, i requires 0 <= i < |row| => NatToString(row[i])), ' ')
  }

  lemma ParseNumberLine(row: seq<nat>)
    ensures ParseAll(Words(NumberLine(row))) == Some(row)
  {
    var ws := seq(|row|, i requires 0 <= i < |row| => NatToString(row[i]));
    forall k | 0 <= k < |ws|
      ensures ws[k] != [] && ParseUnsigned(ws[k]) == Some(row[k])
    {
      ParseUnsignedToString(row[k]);
    }
    forall k, i | 0 <= k < |ws| && 0 <= i < |ws[k]|
      ensures !IsAsciiWhitespace(ws[k][i])
    {
      assert IsDigit(ws[k][i]);
    }
    WordsOfJoin(ws);
    assert ParseAll(ws).value == row;
  }

  /** Parsing printed rows of numbers above any last line gives the rows back. */
  lemma ParseNumbersOfLines(rows: seq<seq<nat>>, last: string)
    ensures ParseNumbers(seq(|rows|, k requires 0 <= k < |rows| => NumberLine(rows[k])) + [last]) == Some(rows)
  {
    var lines := seq(|rows|, k requires 0 <= k < |rows| => NumberLine(rows[k]));
    assert (lines + [last])[..|lines|] == lines;
    forall k | 0 <= k < |lines|
      ensures ParseAll(Words(lines[k])) == Some(rows[k])
    {
      ParseNumberLine(rows[k]);
    }
    assert ParseRows(lines).value == rows;
  }

  /** The i-th number of every row, top to bottom. */
  function Column(rows: seq<seq<nat>>, i: nat): (col: seq<nat>)
    requires forall r :: 0 <= r < |rows| ==> i < |rows[r]|
    ensures |col| == |rows|
    ensures forall r :: 0 <= r < |rows| ==> col[r] == rows[r][i]
  {
    seq(|rows|, r requires 0 <= r < |rows| => rows[r][i])
  }

  /** The first n columns of the rows. */
  function Columns(rows: seq<seq<nat>>, n: nat): (cols: seq<seq<nat>>)
    requires forall r :: 0 <= r < |rows| ==> n <= |rows[r]|
    ensures |cols| == n
  {
    seq(n, i requires 0 <= i < n => Column(rows, i))
  }

  /** `answers_sum`: problem i takes the i-th number of every row and operation i.
      `None` where the program panics: no line at all, a token that is not a
      number, or a row with fewer numbers than there are operations. */
  function AnswersSum(lines: seq<string>): (r: Option<nat>)
    ensures r.Some? <==> (|lines| >= 1 && ParseNumbers(lines).Some? &&
      forall k :: 0 <= k < |ParseNumbers(lines).value| ==> |ParseOperations(lines)| <= |ParseNumbers(lines).value[k]|)
  {
    if lines == [] then None
    else match ParseNumbers(lines)
    case None => None
    case Some(rows) =>
      var ops := ParseOperations(lines);
      if exists k :: 0 <= k < |rows| && |rows[k]| < |ops| then None
      else Some(Sum(Answers(Columns(rows, |ops|), ops)))
  }

  /** `answers_sum` on a worksheet written by rows: problem i is solved from the
      i-th number of every row with operation i, and the answers are added up. */
  lemma AnswersSumOfWorksheet(rows: seq<seq<nat>>, ops: seq<char>)
    requires forall k :: 0 <= k < |rows| ==> |ops| <= |rows[k]|
    requires forall i :: 0 <= i < |ops| ==> !IsAsciiWhitespace(ops[i])
    ensures AnswersSum(seq(|rows|, k requires 0 <= k < |rows| => NumberLine(rows[k])) + [OperationLine(ops)])
            == Some(Sum(seq(|ops|, i requires 0 <= i < |ops| => SolveProblem(Column(rows, i), ops[i]))))
  {
    var lines := seq(|rows|, k requires 0 <= k < |rows| => NumberLine(rows[k]));
    ParseNumbersOfLines(rows, OperationLine(ops));
    ParseOperationsOfLine(lines, ops);
    assert Answers(Columns(rows, |ops|), ops)
        == seq(|ops|, i requires 0 <= i < |ops| => SolveProblem(Column(rows, i), ops[i]));
  }

  /** Everything written on the rows, added up. */
  function GrandTotal(rows: seq<seq<nat>>): nat {
    if rows == [] then 0 else Sum(rows[0]) + GrandTotal(rows[1..])
  }

  lemma {:induction false} SumOfZeros(s: seq<nat>)
    requires forall i :: 0 <= i < |s| ==> s[i] == 0
    ensures Sum(s) == 0
  {
    if s != [] {
      SumOfZeros(s[1..]);
    }
  }

  lemma {:induction false} SumPointwise(a: seq<nat>, b: seq<nat>, c: seq<nat>)
    requires |a| == |b| == |c|
    requires forall i :: 0 <= i < |c| ==> c[i] == a[i] + b[i]
    ensures Sum(c) == Sum(a) + Sum(b)
  {
    if c != [] {
      SumPointwise(a[1..], b[1..], c[1..]);
    }
  }

  /** Adding up the column totals is adding up the row totals. */
  lemma {:induction false} ColumnTotals(rows: seq<seq<nat>>, n: nat)
    requires forall r :: 0 <= r < |rows| ==> |rows[r]| == n
    ensures Sum(seq(n, i requires 0 <= i < n => Sum(Column(rows, i)))) == GrandTotal(rows)
  {
    var totals := seq(n, i requires 0 <= i < n => Sum(Column(rows, i)));
    if rows == [] {
      SumOfZeros(totals);
    } else {
      var tail := rows[1..];
      var rest := seq(n, i requires 0 <= i < n => Sum(Column(tail, i)));
      forall i | 0 <= i < n
        ensures totals[i] == rows[0][i] + rest[i]
      {
        assert Column(rows, i) == [rows[0][i]] + Column(tail, i);
      }
      SumPointwise(rows[0], rest, totals);
      ColumnTotals(tail, n);
    }
  }

  /** When every operation is '+' and every row holds one number per operation, the
      answer is the sum of every number on the worksheet. */
  lemma AllAdditionsTotalEverything(lines: seq<string>, rows: seq<seq<nat>>)
    requires |lines| >= 1 && ParseNumbers(lines) == Some(rows)
    requires forall k :: 0 <= k < |rows| ==> |rows[k]| == |ParseOperations(lines)|
    requires forall i :: 0 <= i < |ParseOperations(lines)| ==> ParseOperations(lines)[i] == '+'
    ensures AnswersSum(lines) == Some(GrandTotal(rows))
  {
    var ops := ParseOperations(lines);
    var n := |ops|;
    ColumnTotals(rows, n);
    assert Answers(Columns(rows, n), ops) == seq(n, i requires 0 <= i < n => Sum(Column(rows, i)));
  }

  // ---------------------------------------------------------------------------
  // Reading the worksheet by columns

  /** Column i of the character matrix, read top to bottom, for every i < width. */
  function Transpose(rows: seq<string>, width: nat): (cols: seq<string>)
    requires forall t :: 0 <= t < |rows| ==> width <= |rows[t]|
    ensures |cols| == width
    ensures forall i :: 0 <= i < width ==> |cols[i]| == |rows|
    ensures forall i, t :: 0 <= i < width && 0 <= t < |rows| ==> cols[i][t] == rows[t][i]
  {
    seq(width, i requires 0 <= i < width => seq(|rows|, t requires 0 <= t < |rows| => rows[t][i]))
  }

  /** Transposing a rectangle twice gives it back. */
  lemma TransposeTwice(rows: seq<string>, width: nat)
    requires forall t :: 0 <= t < |rows| ==> |rows[t]| == width
    ensures Transpose(Transpose(rows, width), |rows|) == rows
  {
    var back := Transpose(Transpose(rows, width), |rows|);
    forall t | 0 <= t < |rows|
      ensures back[t] == rows[t]
    {
    }
  }

  /** A column holding nothing but whitespace. */
  predicate IsBlank(t: string) {
    forall k :: 0 <= k < |t| ==> IsWhitespace(t[k])
  }

  /** Blank columns are exactly those that `trim` empties. */
  lemma BlankIsTrimmedEmpty(t: string)
    ensures IsBlank(t) <==> Trim(t) == []
  {
  }

  function BlankCount(ts: seq<string>): nat {
    if ts == [] then 0 else (if IsBlank(ts[0]) then 1 else 0) + BlankCount(ts[1..])
  }

  function NonBlank(ts: seq<string>): seq<string> {
    if ts == [] then [] else (if IsBlank(ts[0]) then [] else [ts[0]]) + NonBlank(ts[1..])
  }

  function Flatten<T>(xss: seq<seq<T>>): seq<T> {
    if xss == [] then [] else xss[0] + Flatten(xss[1..])
  }

  /** `split(|t| t.trim() == "")`: the runs between blank columns; k blank columns
      give k + 1 groups, some possibly empty. */
  function SplitBlank(ts: seq<string>): (groups: seq<seq<string>>)
    ensures |groups| == BlankCount(ts) + 1
  {
    if ts == [] then [[]]
    else
      var rest := SplitBlank(ts[1..]);
      if IsBlank(ts[0]) then [[]] + rest
      else [[ts[0]] + rest[0]] + rest[1..]
  }

  predicate NoBlank(g: seq<string>) {
    forall k :: 0 <= k < |g| ==> !IsBlank(g[k])
  }

  /** No group holds a blank column. */
  lemma {:induction false} SplitBlankDropsBlanks(ts: seq<string>)
    ensures forall g :: 0 <= g < |SplitBlank(ts)| ==> NoBlank(SplitBlank(ts)[g])
  {
    if ts != [] {
      SplitBlankDropsBlanks(ts[1..]);
      var rest := SplitBlank(ts[1..]);
      var groups := SplitBlank(ts);
      if IsBlank(ts[0]) {
        assert groups == [[]] + rest;
      } else {
        assert groups == [[ts[0]] + rest[0]] + rest[1..];
        assert NoBlank(rest[0]);
        assert NoBlank([ts[0]] + rest[0]);
      }
      forall g | 0 <= g < |groups|
        ensures NoBlank(groups[g])
      {
        if g > 0 {
          assert groups[g] == rest[g - 1] || groups[g] == rest[g];
        }
      }
    }
  }

  /** Together the groups hold every non-blank column, in order. */
  lemma {:induction false} SplitBlankKeepsColumns(ts: seq<string>)
    ensures Flatten(SplitBlank(ts)) == NonBlank(ts)
  {
    if ts != [] {
      SplitBlankKeepsColumns(ts[1..]);
      var rest := SplitBlank(ts[1..]);
      assert Flatten(rest) == rest[0] + Flatten(rest[1..]);
      if !IsBlank(ts[0]) {
        var groups := SplitBlank(ts);
        assert groups[1..] == rest[1..];
        assert Flatten(groups) == [ts[0]] + rest[0] + Flatten(rest[1..]);
      }
    }
  }

  /** The groups with one blank column between neighbours. */
  function JoinBlank(groups: seq<seq<string>>, blank: string): seq<string> {
    if |groups| == 0 then []
    else if |groups| == 1 then groups[0]
    else groups[0] + [blank] + JoinBlank(groups[1..], blank)
  }

  lemma {:induction false} SplitBlankAfterGroup(g: seq<string>, blank: string, r: seq<string>)
    requires IsBlank(blank) && NoBlank(g)
    ensures SplitBlank(g + [blank] + r) == [g] + SplitBlank(r)
  {
    if g == [] {
      assert g + [blank] + r == [blank] + r;
    } else {
      assert (g + [blank] + r)[1..] == g[1..] + [blank] + r;
      SplitBlankAfterGroup(g[1..], blank, r);
      assert [g[0]] + g[1..] == g;
    }
  }

  lemma {:induction false} SplitBlankOfGroup(g: seq<string>)
    requires NoBlank(g)
    ensures SplitBlank(g) == [g]
  {
    if g != [] {
      SplitBlankOfGroup(g[1..]);
      assert [g[0]] + g[1..] == g;
    }
  }

  /** Splitting groups joined by blank columns gives the groups back. */
  lemma {:induction false} SplitBlankJoin(groups: seq<seq<string>>, blank: string)
    requires |groups| >= 1 && IsBlank(blank)
    requires forall g :: 0 <= g < |groups| ==> NoBlank(groups[g])
    ensures SplitBlank(JoinBlank(groups, blank)) == groups
  {
    if |groups| == 1 {
      SplitBlankOfGroup(groups[0]);
    } else {
      SplitBlankJoin(groups[1..], blank);
      SplitBlankAfterGroup(groups[0], blank, JoinBlank(groups[1..], blank));
    }
  }

  function Trims(g: seq<string>): (r: seq<string>)
    ensures |r| == |g| && forall k :: 0 <= k < |g| ==> r[k] == Trim(g[k])
  {
    seq(|g|, k requires 0 <= k < |g| => Trim(g[k]))
  }

  /** Each column of each group, trimmed and parsed. */
  function ParseGroups(groups: seq<seq<string>>): (r: Option<seq<seq<nat>>>)
    ensures r.Some? <==> forall g :: 0 <= g < |groups| ==> ParseAll(Trims(groups[g])).Some?
    ensures r.Some? ==> |r.value| == |groups|
    ensures r.Some? ==> forall g :: 0 <= g < |groups| ==> Some(r.value[g]) == ParseAll(Trims(groups[g]))
  {
    if groups == [] then Some([])
    else
      match (ParseAll(Trims(groups[0])), ParseGroups(groups[1..]))
      case (Some(ns), Some(nss)) => Some([ns] + nss)
      case _ => None
  }

  /** Every number line is at least as long as the first line. */
  predicate LongEnough(lines: seq<string>)
    requires |lines| >= 1
  {
    forall t :: 0 <= t < |lines| - 1 ==> |lines[0]| <= |lines[t]|
  }

  /** The columns of the number lines, as many as the first line has characters. */
  function NumberColumns(lines: seq<string>): (cols: seq<string>)
    requires |lines| >= 1 && LongEnough(lines)
    ensures |cols| == |lines[0]|
    ensures forall i :: 0 <= i < |cols| ==> |cols[i]| == |lines| - 1
    ensures forall i, t :: 0 <= i < |cols| && 0 <= t < |lines| - 1 ==> cols[i][t] == lines[t][i]
  {
    Transpose(lines[..|lines| - 1], |lines[0]|)
  }

  /** `parse_numbers_rtl`: the number lines are read column by column, up to the
      length of the first line; blank columns separate problems and every other
      column is one number. `None` where the program panics: a number line shorter
      than the first line, or a column that is not a number once trimmed. */
  function ParseNumbersRtl(lines: seq<string>): (r: Option<seq<seq<nat>>>)
    requires |lines| >= 1
    ensures r.Some? <==> LongEnough(lines) && ParseGroups(SplitBlank(NumberColumns(lines))).Some?
    ensures r.Some? ==> r == ParseGroups(SplitBlank(NumberColumns(lines)))
    ensures r.Some? ==> |r.value| == BlankCount(NumberColumns(lines)) + 1
  {
    if !LongEnough(lines) then None
    else ParseGroups(SplitBlank(NumberColumns(lines)))
  }

  /** `rtl_answers_sum`: problem i is group i of columns with operation i. `None`
      where the program panics: no line at all, a failure of `ParseNumbersRtl`, or
      more operations than groups. */
  function RtlAnswersSum(lines: seq<string>): (r: Option<nat>)
    ensures r.Some? <==> (|lines| >= 1 && ParseNumbersRtl(lines).Some?
                          && |ParseOperations(lines)| <= |ParseNumbersRtl(lines).value|)
  {
    if lines == [] then None
    else match ParseNumbersRtl(lines)
    case None => None
    case Some(problems) =>
      var ops := ParseOperations(lines);
      if |problems| < |ops| then None
      else Some(Sum(Answers(problems, ops)))
  }

  /** `n` right-aligned in a column of the given height, padded with spaces. */
  function NumberColumn(n: nat, height: nat): (col: string)
    requires |NatToString(n)| <= height
    ensures |col| == height
  {
    seq(height - |NatToString(n)|, _ => ' ') + NatToString(n)
  }

  /** The columns of one problem, one number per column. */
  function ProblemColumns(problem: seq<nat>, height: nat): (cols: seq<string>)
    requires forall k :: 0 <= k < |problem| ==> |NatToString(problem[k])| <= height
    ensures |cols| == |problem|
    ensures forall k :: 0 <= k < |problem| ==> cols[k] == NumberColumn(problem[k], height)
  {
    seq(|problem|, k requires 0 <= k < |problem| => NumberColumn(problem[k], height))
  }

  /** The columns of every problem, a blank column between neighbouring problems. */
  function WorksheetColumns(problems: seq<seq<nat>>, height: nat): (cols: seq<string>)
    requires forall g, k :: 0 <= g < |problems| && 0 <= k < |problems[g]| ==> |NatToString(problems[g][k])| <= height
    ensures forall i :: 0 <= i < |cols| ==> |cols[i]| == height
  {
    var groups := seq(|problems|, g requires 0 <= g < |problems| => ProblemColumns(problems[g], height));
    JoinBlankColumns(groups, seq(height, _ => ' '), height);
    JoinBlank(groups, seq(height, _ => ' '))
  }

  lemma {:induction false} JoinBlankColumns(groups: seq<seq<string>>, blank: string, height: nat)
    requires |blank| == height
    requires forall g, k :: 0 <= g < |groups| && 0 <= k < |groups[g]| ==> |groups[g][k]| == height
    ensures forall i :: 0 <= i < |JoinBlank(groups, blank)| ==> |JoinBlank(groups, blank)[i]| == height
  {
    if |groups| > 1 {
      JoinBlankColumns(groups[1..], blank, height);
    }
  }

  /** A number's column trims and parses back to the number. */
  lemma ParseNumberColumn(n: nat, height: nat)
    requires |NatToString(n)| <= height
    ensures !IsBlank(NumberColumn(n, height))
    ensures ParseUnsigned(Trim(NumberColumn(n, height))) == Some(n)
  {
    var t := NatToString(n);
    var col := NumberColumn(n, height);
    assert col[|col| - 1] == t[|t| - 1];
    TrimPadded(seq(height - |t|, _ => ' '), t, []);
    assert seq(height - |t|, _ => ' ') + t + [] == col;
    ParseUnsignedToString(n);
  }

  lemma ParseProblemColumns(problem: seq<nat>, height: nat)
    requires forall k :: 0 <= k < |problem| ==> |NatToString(problem[k])| <= height
    ensures NoBlank(ProblemColumns(problem, height))
    ensures ParseAll(Trims(ProblemColumns(problem, height))) == Some(problem)
  {
    var cols := ProblemColumns(problem, height);
    forall k | 0 <= k < |problem|
      ensures !IsBlank(cols[k]) && ParseUnsigned(Trims(cols)[k]) == Some(problem[k])
    {
      ParseNumberColumn(problem[k], height);
    }
    var parsed := ParseAll(Trims(cols));
    assert parsed.Some? && parsed.value == problem;
  }

  /** `rtl_answers_sum` on a worksheet written as it is meant to be read: each
      number right-aligned in a column of its own, the problems separated by blank
      columns, the operations on the last line. Every problem is solved with its
      operation and the answers are added up. */
  lemma RtlAnswersSumOfWorksheet(problems: seq<seq<nat>>, ops: seq<char>, height: nat)
    requires |problems| >= 1 && |ops| <= |problems| && height >= 1
    requires forall g, k :: 0 <= g < |problems| && 0 <= k < |problems[g]| ==> |NatToString(problems[g][k])| <= height
    requires forall i :: 0 <= i < |ops| ==> !IsAsciiWhitespace(ops[i])
    ensures RtlAnswersSum(Transpose(WorksheetColumns(problems, height), height) + [OperationLine(ops)])
            == Some(Sum(Answers(problems, ops)))
  {
    var blank: string := seq(height, _ => ' ');
    var groups := seq(|problems|, g requires 0 <= g < |problems| => ProblemColumns(problems[g], height));
    var cols := WorksheetColumns(problems, height);
    assert cols == JoinBlank(groups, blank);
    var rows := Transpose(cols, height);
    var lines := rows + [OperationLine(ops)];
    assert lines[..|lines| - 1] == rows;
    assert LongEnough(lines);
    TransposeTwice(cols, height);
    assert NumberColumns(lines) == cols;
    forall g | 0 <= g < |problems|
      ensures NoBlank(groups[g]) && ParseAll(Trims(groups[g])) == Some(problems[g])
    {
      ParseProblemColumns(problems[g], height);
    }
    SplitBlankJoin(groups, blank);
    var parsed := ParseGroups(groups);
    assert parsed.Some? && parsed.value == problems;
    ParseOperationsOfLine(rows, ops);
  }
}

=== FILE: wrappers.dfy ===
/** Optional values, standing in for Rust's `Option` and for the places where the
    program panics (a panic is modelled as `None`). */
module Wrappers {

  datatype Option<+T> = None | Some(value: T)
}
